=== FILE: README.md ===
# Link summarizer core in Dafny

This project models the decision logic of a Telegram bot that summarizes links. The bot's agent is
a LangGraph state graph with four nodes. `start` takes the first URL out of the user's message.
`fetch_content` extracts the text behind the URL: for a PDF it uses pypdf; for a web page it runs a
basic scrape with a Firecrawl fallback. `summarize` asks a BAML summarizer for a summary.
`handle_error` ends a run that failed. The `should_continue` router decides after every node, and
`run_agent` turns the final state into the reply.

Next to the agent sit the site-specific tools:

- the X/Twitter thread fetcher: tweet ID extraction, conversation filtering, a stable chronological
  sort on `strptime`-parsed times, and line formatting;
- the tiered web scraper: Trafilatura, then Firecrawl;
- the LinkedIn post extractor, which works through a Tavily search;
- the two YouTube helpers: yt-dlp caption choice, and a regular-expression scan of a page's scripts;
- the PyMuPDF PDF reader.

Every network or service call is a parameter holding what that call returned. The parameters are
the HEAD and GET requests, the scrapers, Firecrawl, BAML, twitterapi.io, Tavily, yt-dlp, and the
HTML and PDF parsers. Each tool and node is a pure function of its inputs and those outcomes, and
the lemmas state what the code promises for every combination of outcomes.

Layout, one module per file:

- `wrappers.dfy`: `Option`.
- `pystr.dfy`: the Python string operations the code relies on. These are `str.isspace`, `strip`,
  `lower`, `in`, `startswith`, `join`, and integer formatting.
- `urls.dfy`: `urlparse(url).path`, and the leftmost match of `https?://\S+`.
- `extraction.dfy`: `is_pdf_url`, `extract_text_from_pdf` and `get_content_from_url`, all from
  agent.py.
- `graph.dfy`: the state, the nodes, the router, the declared edges, one run of the graph, and
  `run_agent`.
- `graph_runs.dfy`: whole runs, and the replies they lead to.
- `twitter_time.dfy`: `strptime` with the format `"%a %b %d %H:%M:%S +0000 %Y"`, its inverse, and
  the epoch fallback.
- `stable_sort.dfy`: `list.sort(key=...)`.
- `twitter.dfy`: `fetch_tweet_thread`.
- `scraper.dfy`: `WebScraper.scrape_url`.
- `linkedin.dfy`: `scrape_linkedin_post`.
- `youtube.dfy`: `fetch_youtube_info`.
- `youtube_bs.dfy`: `fetch_youtube_description_bs`.
- `pdf_handler.dfy`: `get_pdf_text`.

## Model

| member | source | states |
|---|---|---|
| Urls.UrlPathOfHierarchicalUrl | agent.py:66-67 | Take a URL laid out as `scheme "://" authority path ["?" query] ["#" fragment]`, with no tab or line break and no ';' in the path. The path `urlparse` reports is then exactly the path component. |
| Urls.UrlPath | agent.py:66 | The path `urlparse` reports holds no '?', no '#', and no tab or line break. Its exact value is stated by Urls.UrlPathOfHierarchicalUrl. |
| Extraction.PdfTestOnPathComponent | agent.py:66-69 | On such a URL, the ".pdf" test looks at the lower-cased path component and at nothing else. |
| Extraction.IsPdfUrl | agent.py:64-78 | A ".pdf" path makes the URL a PDF. A failed HEAD request leaves the path as the only test. A PDF without a ".pdf" path needs a Content-Type containing "application/pdf". |
| Extraction.PdfPathNeedsNoRequest | agent.py:66-69 | A ".pdf" path decides "PDF" whatever the HEAD response is. |
| Extraction.PageText | agent.py:92-96 | The accumulated page text is empty exactly when every page yields no text. |
| Extraction.PageTextIsJoin | agent.py:92-96 | The page loop is the newline join of the non-empty pages, followed by one newline; with no such page it is "". |
| Extraction.ExtractTextFromPdf | agent.py:81-110 | A download failure and a parse failure each give their own "Error:" text. Pages without text give "Error: Could not extract text from PDF.". Otherwise the result is the stripped join of the non-empty pages. |
| Extraction.WhitespacePdfYieldsEmptyText | agent.py:92-103 | Any PDF with some page text, all of it whitespace, passes the "no text" test and comes back as "", not as an error. |
| Extraction.Finish | agent.py:234-251 | An "Error:" text moves into the error and the text becomes "". Otherwise the text is kept. Only a non-empty error reaches the metadata. |
| Extraction.MinimalContentWarning | agent.py:219-230 | The minimal-content warning starts with "Basic scrape yielded minimal content (". |
| Extraction.GetContentFromUrl | agent.py:185-257 | The source is the URL. The text never starts with "Error:", and an error is never empty. The type is PDF exactly when `is_pdf_url` holds. For a PDF, an "Error:" text from the extraction becomes the error and the text is ""; otherwise the text is kept and there is no error. Firecrawl text is used only after an insufficient basic scrape. A sufficient basic scrape is returned with no error. An insufficient scrape that Firecrawl cannot replace leaves an error. A basic "Error:" text becomes the error. |
| Extraction.FirecrawlOnlyWhenBasicInsufficient | agent.py:204-208 | For a web page with a basic text of at least 200 characters and no "Error:" prefix, Firecrawl's answer does not matter. The content is that text with no error. |
| Extraction.MinimalTextKeptWithWarning | agent.py:216-230 | A short, error-free basic text is kept when Firecrawl fails or is missing. A warning naming its length is set next to it. |
| Extraction.PdfIgnoresScrapers | agent.py:198-200 | For a PDF URL, the scraper and Firecrawl outcomes do not matter. |
| Urls.FindUrl | agent.py:322-326 | The result is None exactly when `https?://\S+` matches nowhere. Otherwise it is the leftmost match: it starts with the scheme, runs to the end of its whitespace-free run, and contains no whitespace. |
| Urls.FindUrlInMessage | agent.py:322-326 | Take a whitespace-free link longer than "https://", preceded by text that has no "http" and ends in whitespace, and followed by whitespace or the end of the message. The URL extracted is exactly that link. |
| Graph.StartNode | agent.py:314-332 | The error is cleared exactly when the last message is a human message containing a match. In that case the URL is the leftmost match. With no match, the error is "No URL found in the message." and the URL is left untouched. A non-human message gives "Invalid initial message type.". |
| Graph.FetchContentNode | agent.py:334-346 | Content is stored exactly when the state holds a non-empty URL, and its error is copied into the state. A missing URL gives "URL missing in state.". |
| Graph.SummarizeContent | agent.py:260-298 | A missing client gives the "service unavailable" result. Empty text gives "Cannot summarize", with the extraction error or a default reason. An exception gives the internal-error text with `str(e)` as the error. Otherwise the call's own summary and error are returned. |
| Graph.SummarizeNode | agent.py:351-376 | Exactly one of summary and error is set. Missing content and skipped content are reported as such. A summarizer error is prefixed "Summarization failed: ". Otherwise the summary is stored. |
| Graph.SkipIgnoresSummarizer | agent.py:362-365 | When there is no text and there is an extraction error, the summarizer is never consulted. |
| Graph.ShouldContinue | agent.py:389-402 | Each route holds exactly under its condition, in priority order: an error first, then missing content, then a missing summary, else the end. |
| Graph.RouterReadsOnlyFlags | agent.py:389-402 | The route depends only on three things: whether there is an error, whether there is content, and whether there is a summary. |
| Graph.EdgesClimb | agent.py:421-449 | Every declared edge leads to a later node, so the graph has no cycle. |
| Graph.AdvanceFollowsEdge | agent.py:421-449 | When the router names a node the current node declares, the run continues there with the updated state. |
| Graph.Advance | agent.py:421-449 | Running from a node never changes the message list, and the graph raises only on a route other than the end. |
| Graph.AdvanceClimbs | agent.py:421-449 | A finished run from a node extends the trace it was given with that node, and every later node ranks higher than the one before it. |
| Graph.RunGraph | agent.py:407-456 | A finished run starts at `start`, visits nodes of strictly rising rank, so none twice, and keeps the user's message. |
| Graph.Reply | agent.py:478-497 | The reply is chosen in this order: a failed stream, a missing final state, an error (in preference to a summary), the summary, and the "no summary was generated" text. |
| Graph.RunAgent | agent.py:458-497 | A graph that raises is reported as "Error running agent: " followed by the text of LangGraph's `KeyError`, which is the route's label in single quotes (for example `'summarize'`). A finished run with an error gives "Error processing link: " and the error. Without an error, the reply is the summary, or the "no summary was generated" text. |
| GraphRuns.RunIsStraightPipeline | agent.py:407-456 | Following the declared edges node by node gives the straight pipeline: find the URL, extract, summarize, and leave for the error handler at the first failure. |
| GraphRuns.StartStep | agent.py:314-332 | With no URL, the run goes from `start` straight to `handle_error`. With a URL, it goes on to `fetch_content` with the URL set. |
| GraphRuns.NoUrlMeansNoExtraction | agent.py:322-329 | A message without a match visits only `start` and `handle_error` and never extracts anything. The reply is "Error processing link: No URL found in the message.". |
| GraphRuns.FinishedRunHasErrorXorSummary | agent.py:478-490 | A finished run holds an error or a summary, never both. `run_agent` therefore never gives its "no summary was generated" reply. |
| GraphRuns.RaisesOnlyOnEmptySummary | agent.py:439-446 | The graph fails exactly when the summarizer returns an empty summary with no error for clean, non-empty content. The router then names `summarize`, which the summarize node does not declare, and the reply is exactly "Error running agent: 'summarize'". |
| GraphRuns.MinimalTextNeverSummarized | agent.py:346 | Short text kept with a warning is never summarized. The warning becomes the state's error, and the reply reports it. |
| GraphRuns.SuccessfulRunRepliesWithSummary | agent.py:376 | Clean content plus a clean, non-empty summary visits start, fetch and summarize, and the reply is the summary. |
| GraphRuns.EmptyExceptionMessageBecomesSummary | agent.py:294-298 | A summarizer exception with an empty message leaves the metadata error falsy. The "Error: Summarization failed ..." text is then delivered as the summary. |
| TwitterTime.Parse | tools/twitter_api_tool.py:24 | Every time that parses is a valid calendar time. |
| TwitterTime.ParseOrEpoch | tools/twitter_api_tool.py:16-29 | The result is the parsed time, or the epoch when parsing fails, and it is always valid. |
| TwitterTime.ParseFormat | tools/twitter_api_tool.py:24 | Parsing Twitter's own rendering of a valid time gives that time back, whatever the weekday name. |
| TwitterTime.FormatLayout | tools/twitter_api_tool.py:24 | The rendering is Twitter's layout: capitalised weekday and month names, two-digit day and time fields, a literal "+0000", and a four-digit year. |
| TwitterTime.DefaultTimestampIsEpoch | tools/twitter_api_tool.py:137 | The timestamp used for a tweet without `createdAt` parses to the epoch. |
| TwitterTime.OutOfRangeFallsBackToEpoch | tools/twitter_api_tool.py:24-29 | A rendering the pattern accepts but `datetime` refuses falls back to the epoch. |
| TwitterTime.LeapSecondIsEpoch | tools/twitter_api_tool.py:24-29 | A leap second printed by Twitter falls back to the epoch. |
| TwitterTime.KeyIsChronological | tools/twitter_api_tool.py:135-139 | On valid times the sort key orders exactly as the calendar does, and it distinguishes different times. |
| TwitterTime.EpochComesFirst | tools/twitter_api_tool.py:29 | No parsed time from 1970 on sorts before the epoch fallback. |
| StableSort.SortBySorted | tools/twitter_api_tool.py:135-139 | The sorted list is ordered by key, and it is a permutation of the input. |
| StableSort.SortByStable | tools/twitter_api_tool.py:135-139 | Elements with equal keys keep their relative order. |
| StableSort.SortBySortedIsIdentity | tools/twitter_api_tool.py:135-139 | Sorting a list that is already ordered by key changes nothing. |
| Twitter.ExtractedIdIsLeftmost | tools/twitter_api_tool.py:47-50 | The extracted ID is a non-empty run of digits. It follows the leftmost "/status/" or "/statuses/" that is followed by a digit. |
| Twitter.ExtractTweetId | tools/twitter_api_tool.py:47-50 | There is no ID exactly when no "/status/" or "/statuses/" followed by a digit occurs. Which ID is taken is stated by Twitter.ExtractedIdIsLeftmost. |
| Twitter.TweetIdOfStatusUrl | tools/twitter_api_tool.py:47-50 | A status URL yields exactly its ID, provided no status marker comes before it. |
| Twitter.ApiKey | tools/twitter_api_tool.py:13 | The key is `X_API_KEY` when that is set and non-empty, else `X-API-KEY`. A usable key exists exactly when one of them is non-empty. |
| Twitter.FollowUps | tools/twitter_api_tool.py:86-132 | A failed search adds nothing. A successful search adds exactly its tweets other than the root ID. |
| Twitter.Collected | tools/twitter_api_tool.py:59-132 | The root comes first. No later tweet carries the root's ID. The root stands alone when it is its own conversation or when the search fails. |
| Twitter.Entry | tools/twitter_api_tool.py:142-151 | Each entry starts "Tweet i/n by @" and ends with "\n---". |
| Twitter.EntryLayout | tools/twitter_api_tool.py:142-151 | An entry starts "Tweet i/n by @user (created):" and a line break, and ends with the stripped text and "---" on its own line. |
| Twitter.EntryDefaults | tools/twitter_api_tool.py:144-145 | A missing user name reads "unknown_user" and a missing creation time "Unknown time". |
| Twitter.FetchTweetThread | tools/twitter_api_tool.py:32-156 | No key gives the key error. A URL without an ID gives the ID error. Any other failure to fetch the root gives an "Error: " text. A fetched root gives a text starting "Tweet 1/". |
| Twitter.ThreadOf | tools/twitter_api_tool.py:59-84 | A failed root lookup gives an "Error: " text. A successful one gives the thread text of the first returned tweet. |
| Twitter.ThreadText | tools/twitter_api_tool.py:135-156 | The thread text starts "Tweet 1/". Its full content is stated by Twitter.ThreadContents. |
| Twitter.ThreadContents | tools/twitter_api_tool.py:135-156 | After a successful root lookup, the reply is the entries of the ordered tweets, one per line. Every collected tweet is printed exactly once, and only the root carries the requested ID. |
| Twitter.RootAloneWithoutThread | tools/twitter_api_tool.py:86-132 | When the root is its own conversation or the search fails, the reply is the root's entry alone, numbered 1/1. |
| Twitter.SearchOnlyWhenAsked | tools/twitter_api_tool.py:86-88 | The conversation outcome matters only when the root opens a conversation other than itself. |
| Twitter.OrderedIsChronological | tools/twitter_api_tool.py:135-139 | The printed order is chronological, and tweets created at the same second stay in fetch order. |
| Twitter.CreatedFallsBackToEpoch | tools/twitter_api_tool.py:135-139 | A tweet without `createdAt`, or with one that does not parse, is dated at the epoch. |
| Twitter.EpochFallbackSortsFirst | tools/twitter_api_tool.py:135-139 | A tweet dated by the fallback is printed before every tweet dated after the epoch. |
| Scraper.Accept | tools/scraper.py:63-74 | Output is accepted exactly when it is present and longer than 100 characters, and it is accepted unchanged. |
| Scraper.ExtractWithFirecrawl | tools/scraper.py:79-108 | A missing client is a rejection. A crawl's markdown passes the same length gate. |
| Scraper.ScrapeUrl | tools/scraper.py:118-152 | Exactly one of text and error is set. Text is longer than 100 characters. A failed fetch gives the fetch error. Otherwise every failure gives the "after trying multiple methods" error. |
| Scraper.ScrapeIsFirstAccepted | tools/scraper.py:133-143 | Once a page is fetched, the text is the first output to pass the length gate, Trafilatura before Firecrawl. |
| Scraper.NoPageNoExtraction | tools/scraper.py:128-130 | Without a page no extractor's output matters, and no text is returned. |
| Scraper.TrafilaturaFirst | tools/scraper.py:133-135 | Accepted Trafilatura text is returned unchanged with no error, and Firecrawl is not consulted. |
| LinkedIn.PostText | tools/linkedin_scraper_tool.py:65-74 | A result has post text exactly when `content` or `raw_content` is non-empty, with `content` preferred. |
| LinkedIn.ScrapeLinkedInPost | tools/linkedin_scraper_tool.py:9-91 | The tool raises exactly when the URL names a post and the search raised: the handler's console call raises a `TypeError`. On every other input it agrees with the intended tool. Every returned failure starts with "Error:". A URL without "linkedin.com/posts/" is refused. For a post URL, an "Error:" string from the runner is returned unchanged. Any other string, or a value that is not a dict, gives "Error: Unexpected response format from Tavily tool.". A dict with no results gives "Error: Tavily found no information for this LinkedIn URL.". A first result with no text gives "Error: Tavily returned results, but no extractable content was found.". A post has non-empty content and carries the first result's URL. |
| LinkedIn.ScrapeLinkedInPostIntended | tools/linkedin_scraper_tool.py:9-91 | The tool with a working handler never raises. An exception in the search is reported as "Error: Failed to process LinkedIn URL using Tavily tool. " followed by its text. The other clauses are as for the tool as written. |
| LinkedIn.UnusableReplyErrors | tools/linkedin_scraper_tool.py:40-80 | For a post URL, both the tool as written and the intended tool pass an "Error:" string from the runner on unchanged. Any other string or non-dict gives "Error: Unexpected response format from Tavily tool.". A dict without results gives "Error: Tavily found no information for this LinkedIn URL.". A first result without text gives "Error: Tavily returned results, but no extractable content was found.". |
| LinkedIn.HandlerRaisesInsteadOfReporting | tools/linkedin_scraper_tool.py:84-91 | For a post URL whose search raises, the tool as written raises the `TypeError`, while the intended tool returns the "Failed to process" error. |
| LinkedIn.PostIffFirstResultHasText | tools/linkedin_scraper_tool.py:56-74 | The outcome is a post exactly when the URL names a post and the first result has content. The text is `content` when non-empty, else `raw_content`. |
| LinkedIn.OnlyFirstResultCounts | tools/linkedin_scraper_tool.py:64 | Replies that agree on the first result give the same outcome. |
| LinkedIn.RunnerErrorPropagates | tools/linkedin_scraper_tool.py:41-45 | An "Error:" string from the search runner is returned unchanged. |
| LinkedIn.NonPostUrlNeverSearched | tools/linkedin_scraper_tool.py:19-20 | For a non-post URL the search reply does not matter. |
| YouTube.FirstPreferred | tools/youtube_scraper.py:55-64 | The result is the index of the first caption in srv3, ttml or vtt format, or None when there is none. |
| YouTube.TranscriptChoice | tools/youtube_scraper.py:51-75 | The transcript URL is that of the first srv3, ttml or vtt caption. When there is none in those formats, it is that of the first caption listed. |
| YouTube.TranscriptUrl | tools/youtube_scraper.py:51-75 | No English automatic captions give no transcript URL. The choice among captions is stated by YouTube.TranscriptChoice. |
| YouTube.FetchYouTubeInfo | tools/youtube_scraper.py:42-95 | The result is an error exactly when yt-dlp raised. The error is the failure prefix, the quoted URL and "Reason: " with the exception text. Otherwise the description is passed through, with the transcript URL chosen from the English automatic captions. |
| YouTube.NothingFoundIsNoError | tools/youtube_scraper.py:84-91 | A video with neither a description nor captions gives both values None, not an error. |
| YouTubeBs.MatchEndIsLastOnLine | tools/youtube_scraper_bs.py:31 | The greedy `.*` stops at the last end marker on the marker's line. |
| YouTubeBs.FirstMatchIsLeftmost | tools/youtube_scraper_bs.py:40-42 | The match `findall` lists first starts at the leftmost index where the pattern matches. There is none only when no index starts a match. |
| YouTubeBs.Capture | tools/youtube_scraper_bs.py:40-42 | A script gives no capture exactly when the pattern matches at no index. |
| YouTubeBs.ScanScripts | tools/youtube_scraper_bs.py:36-43 | A capture found comes from a script with non-empty text. None is found exactly when no script with text has a match. |
| YouTubeBs.UnescapeEscape | tools/youtube_scraper_bs.py:48 | Replacing a backslash-n with a line break undoes escaping the line breaks of a text that has no backslash-n of its own. |
| YouTubeBs.UnescapeNewlines | tools/youtube_scraper_bs.py:48 | The replacement never lengthens the text. What it undoes is stated by YouTubeBs.UnescapeEscape and YouTubeBs.UnescapeLeavesNoEscape. |
| YouTubeBs.UnescapeLeavesNoEscape | tools/youtube_scraper_bs.py:48 | After the replacement, no backslash-n is left. |
| YouTubeBs.FetchYouTubeDescriptionBs | tools/youtube_scraper_bs.py:10-62 | Exactly one of description and error is set. A description is non-empty and has no backslash-n left. On a fetched page, every failure is the "could not find the description pattern" error. |
| YouTubeBs.EarlierScriptDecides | tools/youtube_scraper_bs.py:36-43 | The first script with a match decides; later scripts are never read. |
| YouTubeBs.EmptyCaptureStopsSearch | tools/youtube_scraper_bs.py:41-55 | An empty first match stops the search and reports "not found", even when a later script holds a description. |
| YouTubeBs.DescriptionRoundTrip | tools/youtube_scraper_bs.py:31-52 | A script whose first marker opens the escaped description gives the description back, provided the rest of the end marker's line holds no further end marker. The player data's `":true,"thumbnail":...` continuation is allowed. |
| PdfHandler.ContentType | tools/pdf_handler.py:19 | The header is lower-cased character by character, and a missing header reads as "". |
| PdfHandler.GetPdfText | tools/pdf_handler.py:4-40 | The tool as its handlers intend. A response not labelled PDF gives the content-type error. A failed download gives "Error downloading PDF: " and the exception text. A readable PDF gives text exactly as long as all pages together. A PyMuPDF error gives "Error processing PDF: " and any other failure "An unexpected error occurred: ", each followed by the exception text. |
| PdfHandler.GetPdfTextAsWritten | tools/pdf_handler.py:14-40 | The tool as written raises exactly when a PDF-labelled document cannot be read, because the `fitz.errors.FitzError` clause raises `AttributeError`. Otherwise it returns what the intended tool returns. |
| PdfHandler.DocumentFailureRaises | tools/pdf_handler.py:24-40 | For an unreadable PDF-labelled document, the tool as written raises. The intended tool returns "Error processing PDF: " or "An unexpected error occurred: " with the exception text. |
| PdfHandler.PagesConcatenatedInOrder | tools/pdf_handler.py:27-33 | Each page's text sits right after the text of the pages before it, with no separator. |
| PdfHandler.NoTextIsEmptySuccess | tools/pdf_handler.py:19-33 | A response labelled PDF whose pages hold no text gives "", a success and not an error. |
| PdfHandler.NotPdfNeverRead | tools/pdf_handler.py:19-21 | A response not labelled PDF is refused with an "Error:" text, whatever the document holds. |
| PdfHandler.OtherFailuresLackErrorPrefix | tools/pdf_handler.py:35-40 | In the intended tool, download, PyMuPDF and other failures are reported without the "Error:" prefix. |

## Left out

- Every network and service call becomes a parameter holding its outcome. These are `requests`, Firecrawl, BAML, twitterapi.io, Tavily and yt-dlp. So do the parsers the code hands bytes to: pypdf, PyMuPDF, BeautifulSoup and Trafilatura. `basic_scrape_text` (agent.py:113-147) and `firecrawl_scrape` (agent.py:150-180) are parameters too: only their result strings matter to the decision logic.
- Logging and console output are left out, with one exception. The console call in the LinkedIn handler (tools/linkedin_scraper_tool.py:86-90) passes `exc_info=True`, which rich's `Console.print` rejects with a `TypeError`. The model raises there; see Findings. The other console and logging calls pass only accepted arguments.
- rich markup errors are left out: a console message whose interpolated text holds a stray closing tag such as `[/x]` is assumed to print.
- The `unicode_escape` decode at tools/youtube_scraper_bs.py:50 is left out. It is a codec with its own escape grammar and byte handling.
- YouTubeBs.FetchYouTubeDescriptionBs: returns the description after the line-break replacement, without the `unicode_escape` decode that follows it.
- The Firecrawl result-shape check at tools/scraper.py:93-97 is left out. The crawl's outcome is an opaque optional markdown string that goes through the length gate. As written, the check passes only for a list that contains the string "markdown", and indexing that list by a string raises, which lines 114-116 turn into None.
- Scraper.ExtractWithFirecrawl: accepts crawled markdown longer than 100 characters, where the code as written returns None for every crawl result (see the previous line).
- The exception handlers at agent.py:347-349 and 377-379 are left out: the calls they guard catch their own failures and report them in their result. The handler at agent.py:238-241 is left out too. It is reached only through a ValueError from `urlparse` in `is_pdf_url` (agent.py:66), which is not inside that function's `try`. That ValueError is left out (next lines). The handler would give the "Unexpected error during content extraction: " error with the type still "webpage".
- `str.lower()` is modelled on ASCII letters only. The needles ".pdf" and "application/pdf" are ASCII, so containment agrees for them. `\d` and `strptime`'s digits are ASCII digits; Python's `\d` also accepts other Unicode decimal digits.
- `urlparse` raising ValueError is left out; the model skips the netloc and never inspects it. `urlsplit` raises in three cases: an unbalanced '[' or ']' in the netloc; a bracketed host that is not a valid IPv6 or IPvFuture address; and a non-ASCII netloc whose NFKC normalisation introduces a '/', '?', '#', '@' or ':'.
- `strptime`'s per-directive regular expression is modelled as a run of ASCII digits of the directive's width. In this format every number is followed by whitespace, ':' or the end of the text, so the two agree. The weekday name is read but not checked against the date, as in `datetime`.
- LangGraph streaming and checkpointing are left out. `run_agent` is modelled as seeing the final state in the `__end__` event. A route label the edge table does not declare surfaces as the stream failing with LangGraph's `KeyError`; its text is the label in single quotes.
- JSON `null` values and non-string JSON values (a `createdAt` or `userName` that is not a string, an `author` that is `null`) are left out. A missing key is `None`.
- A page whose `extract_text()` returns None is modelled as the empty string, which the page loop treats the same way.
- The "No tweet data could be formatted" error (tools/twitter_api_tool.py:153-154) is not modelled as a separate branch. The printed list always holds the root tweet, so it cannot be reached; `Twitter.ThreadText` states the reply starts "Tweet 1/".
- Exception messages are strings supplied with the outcome, not computed.
- tools/linkedin_scraper_tool.py:4 imports `run_tavily_tool` from tools/search.py, which defines only the `TavilySearch` class. As the repository stands, importing the LinkedIn tool fails with ImportError, so `scrape_linkedin_post` cannot be called. The model takes the runner's reply as a parameter and describes the tool for any runner that supplies it.
- The other files of the repository are not part of this model: bot.py, config.py, agent_viz.py, tools/rag.py, tools/search.py, tools/scrape.py and the AgentQL scrapers. They hold browser automation, embeddings, a Telegram front end and configuration.

## Findings

| source | as written | input that shows it | evidently intended | confidence | as-written member | corrected member |
|---|---|---|---|---|---|---|
| tools/linkedin_scraper_tool.py:84-91 | The `except` handler calls `console.print(..., exc_info=True)`. rich's `Console.print` has no `exc_info` keyword, so the handler raises `TypeError` and the `return` at line 91 is never reached. | Once a `run_tavily_tool` exists (none does at this revision; see "Left out"): a post URL for which it raises, or whose first result is not a dict. | Return "Error: Failed to process LinkedIn URL using Tavily tool. " followed by the exception text. | high; not executed | LinkedIn.ScrapeLinkedInPost, LinkedIn.HandlerRaisesInsteadOfReporting | LinkedIn.ScrapeLinkedInPostIntended |
| tools/pdf_handler.py:37 | The second `except` clause names `fitz.errors.FitzError`. PyMuPDF has no `errors` attribute; its document errors are `fitz.FileDataError`, `fitz.EmptyFileError` and `fitz.FileNotFoundError`. Python evaluates the clause when a non-`requests` exception reaches it, and that evaluation raises `AttributeError`. So neither the line-38 nor the line-40 message is ever returned. | A PDF-labelled response whose bytes PyMuPDF cannot open, such as a truncated file. | Catch PyMuPDF's errors with "Error processing PDF: " and any other failure with "An unexpected error occurred: ". | medium (depends on PyMuPDF's module layout); not executed | PdfHandler.GetPdfTextAsWritten, PdfHandler.DocumentFailureRaises | PdfHandler.GetPdfText |

=== FILE: extraction.dfy ===
/**
 * Content extraction in agent.py: the PDF test on a URL, pypdf page joining, and the
 * basic-scrape / Firecrawl fallback of `get_content_from_url`. Every network call is an
 * input value: the HEAD response's Content-Type, the PDF download, the text `basic_scrape_text`
 * returned and the text `firecrawl_scrape` returned (absent when no Firecrawl client exists).
 */
module Extraction {
  import opened Wrappers
  import opened PyStr
  import Urls

  /** The in-band failure marker every extractor in agent.py puts at the front of its result. */
  predicate IsErrorText(s: string) {
    StartsWith(s, "Error:")
  }

  /** Below this many characters a basic scrape counts as insufficient. */
  const MinBasicScrapeLength: nat := 200

  // ---------------------------------------------------------------------------------------------
  // is_pdf_url
  // ---------------------------------------------------------------------------------------------

  /** The lower-cased `urlparse` path ends in ".pdf". */
  predicate HasPdfPath(url: string) {
    EndsWith(Lower(Urls.UrlPath(url)), ".pdf")
  }

  /**
   * `is_pdf_url`. `head` is the Content-Type header of the HEAD request ("" when the header is
   * missing), or `None` when the request failed or returned an error status.
   */
  function IsPdfUrl(url: string, head: Option<string>): (r: bool)
    ensures HasPdfPath(url) ==> r
    ensures head.None? ==> (r <==> HasPdfPath(url))
    ensures r && !HasPdfPath(url) ==> head.Some? && Contains(Lower(head.value), "application/pdf")
  {
    if HasPdfPath(url) then true
    else match head
      case Some(contentType) => Contains(Lower(contentType), "application/pdf")
      case None => false
  }

  /** A ".pdf" path decides the question without consulting the HEAD response at all. */
  lemma PdfPathNeedsNoRequest(url: string, head1: Option<string>, head2: Option<string>)
    requires HasPdfPath(url)
    ensures IsPdfUrl(url, head1) && IsPdfUrl(url, head2)
  {
  }

  /** For a URL laid out as in RFC 3986 section 3, the path test looks at the path component alone. */
  lemma PdfTestOnPathComponent(scheme: string, authority: string, path: string, tail: string)
    requires |scheme| > 0 && Urls.IsAsciiLetter(scheme[0])
    requires forall k :: 0 <= k < |scheme| ==> Urls.IsSchemeChar(scheme[k])
    requires forall k :: 0 <= k < |authority| ==> authority[k] !in {'/', '?', '#'}
    requires path == "" || path[0] == '/'
    requires forall k :: 0 <= k < |path| ==> path[k] !in {'?', '#', ';'}
    requires tail == "" || tail[0] == '?' || tail[0] == '#'
    requires Urls.NoUnsafe(authority) && Urls.NoUnsafe(path) && Urls.NoUnsafe(tail)
    ensures HasPdfPath(scheme + "://" + authority + path + tail) <==> EndsWith(Lower(path), ".pdf")
  {
    Urls.UrlPathOfHierarchicalUrl(scheme, authority, path, tail);
  }

  // ---------------------------------------------------------------------------------------------
  // extract_text_from_pdf
  // ---------------------------------------------------------------------------------------------

  /** Outcome of downloading and opening a PDF: the pages' `extract_text()` results in page order. */
  datatype PdfDownload =
    | DownloadFailed(reason: string)
    | ParseFailed(reason: string)
    | Pages(texts: seq<string>)

  /** The text the page loop accumulates: every non-empty page followed by a newline. */
  function PageText(pages: seq<string>): (r: string)
    ensures r == "" <==> forall i :: 0 <= i < |pages| ==> pages[i] == ""
  {
    if |pages| == 0 then ""
    else (if pages[0] == "" then "" else pages[0] + "\n") + PageText(pages[1..])
  }

  /** The pages that contributed text, in page order. */
  function NonEmptyPages(pages: seq<string>): (r: seq<string>)
    ensures forall i :: 0 <= i < |r| ==> r[i] != ""
    ensures |r| <= |pages|
  {
    if |pages| == 0 then []
    else (if pages[0] == "" then [] else [pages[0]]) + NonEmptyPages(pages[1..])
  }

  /** The page loop is a newline join of the non-empty pages, with one newline after the last. */
  lemma {:induction false} PageTextIsJoin(pages: seq<string>)
    ensures NonEmptyPages(pages) == [] ==> PageText(pages) == ""
    ensures NonEmptyPages(pages) != [] ==> PageText(pages) == Join(NonEmptyPages(pages), "\n") + "\n"
  {
    if |pages| > 0 {
      PageTextIsJoin(pages[1..]);
      var rest := NonEmptyPages(pages[1..]);
      if pages[0] != "" {
        var parts := [pages[0]] + rest;
        assert NonEmptyPages(pages) == parts;
        if rest != [] {
          assert parts[1..] == rest;
          assert Join(parts, "\n") == pages[0] + "\n" + Join(rest, "\n");
        }
      } else {
        assert NonEmptyPages(pages) == rest;
      }
    }
  }

  /** `extract_text_from_pdf`: the stripped page text, or an "Error:" string. */
  function ExtractTextFromPdf(d: PdfDownload): (r: string)
    ensures d.DownloadFailed? ==> r == "Error: Could not download PDF from URL. " + d.reason
    ensures d.ParseFailed? ==> r == "Error: Could not process PDF content. " + d.reason
    ensures d.Pages? && NonEmptyPages(d.texts) == [] ==> r == "Error: Could not extract text from PDF."
    ensures d.Pages? && NonEmptyPages(d.texts) != [] ==> r == Strip(Join(NonEmptyPages(d.texts), "\n") + "\n")
  {
    match d
    case DownloadFailed(e) => "Error: Could not download PDF from URL. " + e
    case ParseFailed(e) => "Error: Could not process PDF content. " + e
    case Pages(pages) =>
      PageTextIsJoin(pages);
      var text := PageText(pages);
      if text == "" then "Error: Could not extract text from PDF." else Strip(text)
  }

  /** Pages that hold only whitespace accumulate only whitespace. */
  lemma {:induction false} PageTextAllSpace(pages: seq<string>)
    requires forall i, k :: 0 <= i < |pages| && 0 <= k < |pages[i]| ==> IsSpace(pages[i][k])
    ensures forall k :: 0 <= k < |PageText(pages)| ==> IsSpace(PageText(pages)[k])
  {
    if |pages| > 0 {
      var rest := pages[1..];
      assert forall i, k :: 0 <= i < |rest| && 0 <= k < |rest[i]| ==> IsSpace(rest[i][k]) by {
        forall i, k | 0 <= i < |rest| && 0 <= k < |rest[i]|
          ensures IsSpace(rest[i][k])
        {
          assert rest[i] == pages[i + 1];
        }
      }
      PageTextAllSpace(rest);
      var head := if pages[0] == "" then "" else pages[0] + "\n";
      assert forall k :: 0 <= k < |head| ==> IsSpace(head[k]);
      var text := PageText(pages);
      assert text == head + PageText(rest);
      forall k | 0 <= k < |text|
        ensures IsSpace(text[k])
      {
        if k >= |head| {
          assert text[k] == PageText(rest)[k - |head|];
        }
      }
    }
  }

  /**
   * A PDF whose pages hold some text, all of it whitespace, passes the "no text" test and comes
   * back as "" with no error.
   */
  lemma WhitespacePdfYieldsEmptyText(pages: seq<string>)
    requires exists i :: 0 <= i < |pages| && pages[i] != ""
    requires forall i, k :: 0 <= i < |pages| && 0 <= k < |pages[i]| ==> IsSpace(pages[i][k])
    ensures ExtractTextFromPdf(Pages(pages)) == ""
  {
    PageTextAllSpace(pages);
  }

  // ---------------------------------------------------------------------------------------------
  // get_content_from_url
  // ---------------------------------------------------------------------------------------------

  datatype ContentType = Webpage | Pdf | WebpageFirecrawl

  /** The `Content` record: `error` is the `metadata["error"]` entry, present only when non-empty. */
  datatype Content = Content(contentType: ContentType, source: string, text: string, error: Option<string>)

  /** What the remote calls of `get_content_from_url` returned. */
  datatype Fetchers = Fetchers(
    head: Option<string>,          // HEAD Content-Type, None when the request failed
    pdf: PdfDownload,              // the GET of the PDF and pypdf's page texts
    basic: string,                 // basic_scrape_text's result
    firecrawl: Option<string>)     // firecrawl_scrape's result, None when no Firecrawl client exists

  /** Basic scraping failed or yielded too little: the condition for consulting Firecrawl. */
  predicate BasicInsufficient(basic: string) {
    IsErrorText(basic) || |basic| < MinBasicScrapeLength
  }

  /** Firecrawl was not available or failed. */
  predicate FirecrawlFailed(firecrawl: Option<string>) {
    firecrawl.None? || IsErrorText(firecrawl.value)
  }

  /** The last step: an "Error:" text moves into the error, and the metadata keeps only a non-empty error. */
  function Finish(contentType: ContentType, url: string, text: string, error: Option<string>): (r: Content)
    ensures !IsErrorText(r.text)
    ensures r.error.Some? ==> r.error.value != ""
    ensures IsErrorText(text) ==> r.text == "" && r.error == Some(text)
    ensures !IsErrorText(text) ==> r.text == text && (r.error.Some? <==> Truthy(error)) && (Truthy(error) ==> r.error == error)
    ensures r.contentType == contentType && r.source == url
  {
    if IsErrorText(text) then Content(contentType, url, "", Some(text))
    else Content(contentType, url, text, if Truthy(error) then error else None)
  }

  /** The warning kept next to a short basic scrape; `rest` closes it with what became of Firecrawl. */
  function MinimalContentWarning(length: nat, rest: string): (r: string)
    ensures StartsWith(r, "Basic scrape yielded minimal content (")
    ensures r != ""
  {
    "Basic scrape yielded minimal content (" + NatToString(length) + " chars" + rest
  }

  /** `get_content_from_url`. */
  function GetContentFromUrl(url: string, f: Fetchers): (r: Content)
    ensures r.source == url
    ensures !IsErrorText(r.text)
    ensures r.error.Some? ==> r.error.value != ""
    ensures r.contentType == Pdf <==> IsPdfUrl(url, f.head)
    ensures r.contentType == Pdf ==> r.text == (if IsErrorText(ExtractTextFromPdf(f.pdf)) then "" else ExtractTextFromPdf(f.pdf))
    ensures r.contentType == Pdf ==>
      r.error == (if IsErrorText(ExtractTextFromPdf(f.pdf)) then Some(ExtractTextFromPdf(f.pdf)) else None)
    ensures r.contentType == WebpageFirecrawl ==> BasicInsufficient(f.basic) && f.firecrawl == Some(r.text) && r.error.None?
    ensures r.contentType == Webpage && !BasicInsufficient(f.basic) ==> r.text == f.basic && r.error.None?
    ensures r.contentType == Webpage && BasicInsufficient(f.basic) ==> FirecrawlFailed(f.firecrawl) && r.error.Some?
    ensures r.contentType == Webpage && !IsErrorText(f.basic) ==> r.text == f.basic
    ensures r.contentType == Webpage && IsErrorText(f.basic) ==> r.text == "" && r.error == Some(f.basic)
  {
    if IsPdfUrl(url, f.head) then
      Finish(Pdf, url, ExtractTextFromPdf(f.pdf), None)
    else if BasicInsufficient(f.basic) then
      match f.firecrawl
      case Some(firecrawlText) =>
        if !IsErrorText(firecrawlText) then Finish(WebpageFirecrawl, url, firecrawlText, None)
        else if IsErrorText(f.basic) then Finish(Webpage, url, f.basic, Some(f.basic))
        else Finish(Webpage, url, f.basic, Some(
          MinimalContentWarning(|f.basic|, "). Firecrawl failed: " + firecrawlText + " Using minimal basic text anyway.")))
      case None =>
        if IsErrorText(f.basic) then Finish(Webpage, url, f.basic, Some(f.basic))
        else Finish(Webpage, url, f.basic, Some(
          MinimalContentWarning(|f.basic|, ", and Firecrawl is unavailable.")))
    else
      Finish(Webpage, url, f.basic, None)
  }

  /** A sufficient basic scrape of a non-PDF URL is returned as is; Firecrawl's answer never matters. */
  lemma FirecrawlOnlyWhenBasicInsufficient(url: string, f: Fetchers, firecrawl: Option<string>)
    requires !IsPdfUrl(url, f.head) && !BasicInsufficient(f.basic)
    ensures GetContentFromUrl(url, f) == GetContentFromUrl(url, f.(firecrawl := firecrawl))
    ensures GetContentFromUrl(url, f) == Content(Webpage, url, f.basic, None)
  {
  }

  /** A short but error-free basic text is kept when Firecrawl cannot improve on it, next to a warning error. */
  lemma MinimalTextKeptWithWarning(url: string, f: Fetchers)
    requires !IsPdfUrl(url, f.head)
    requires !IsErrorText(f.basic) && |f.basic| < MinBasicScrapeLength
    requires FirecrawlFailed(f.firecrawl)
    ensures GetContentFromUrl(url, f).text == f.basic
    ensures GetContentFromUrl(url, f).error == Some(MinimalContentWarning(|f.basic|,
      if f.firecrawl.Some? then "). Firecrawl failed: " + f.firecrawl.value + " Using minimal basic text anyway."
      else ", and Firecrawl is unavailable."))
  {
  }

  /** The PDF branch never looks at the scrapers. */
  lemma PdfIgnoresScrapers(url: string, f: Fetchers, basic: string, firecrawl: Option<string>)
    requires IsPdfUrl(url, f.head)
    ensures GetContentFromUrl(url, f) == GetContentFromUrl(url, f.(basic := basic, firecrawl := firecrawl))
  {
  }
}

=== FILE: graph.dfy ===
/**
 * The summarizer graph of agent.py: the state record, the `start`, `fetch_content`, `summarize`
 * and `handle_error` nodes, the `should_continue` router, the edge tables the graph declares,
 * one run of the graph, and `run_agent`'s choice of reply.
 *
 * A node returns the whole next state: the partial update it hands to the graph, already merged.
 */
module Graph {
  import opened Wrappers
  import opened PyStr
  import Urls
  import opened Extraction

  datatype Message = Human(content: string) | NonHuman(content: string)

  /** `AgentState`; an absent key is `None`. */
  datatype AgentState = AgentState(
    messages: seq<Message>,
    url: Option<string>,
    content: Option<Content>,
    summary: Option<string>,
    error: Option<string>)

  /** The state `run_agent` starts the graph with. */
  function InitialState(input: string): AgentState {
    AgentState([Human(input)], None, None, None, None)
  }

  // ---------------------------------------------------------------------------------------------
  // Nodes
  // ---------------------------------------------------------------------------------------------

  /** `start_node`: take the first URL of the last message, or record why there is none. */
  function StartNode(s: AgentState): (r: AgentState)
    requires |s.messages| > 0
    ensures r.messages == s.messages && r.content == s.content && r.summary == s.summary
    ensures var last := s.messages[|s.messages| - 1];
      r.error.None? <==> last.Human? && exists i :: Urls.UrlMatchAt(last.content, i)
    ensures var last := s.messages[|s.messages| - 1];
      r.error.None? ==> r.url.Some? && exists i :: Urls.LeftmostUrlAt(last.content, r.url.value, i)
    ensures r.error.Some? ==> r.url == s.url
    ensures var last := s.messages[|s.messages| - 1];
      last.Human? && r.error.Some? ==> r.error == Some("No URL found in the message.")
    ensures s.messages[|s.messages| - 1].NonHuman? ==> r.error == Some("Invalid initial message type.")
  {
    match s.messages[|s.messages| - 1]
    case Human(text) =>
      (match Urls.FindUrl(text)
       case Some(url) => s.(url := Some(url), error := None)
       case None => s.(error := Some("No URL found in the message.")))
    case NonHuman(_) =>
      s.(error := Some("Invalid initial message type."))
  }

  /** `fetch_content_node`: store the extracted content and copy its error (or its absence) into the state. */
  function FetchContentNode(s: AgentState, f: Fetchers): (r: AgentState)
    ensures r.messages == s.messages && r.url == s.url && r.summary == s.summary
    ensures r.content.Some? <==> Truthy(s.url)
    ensures r.content.None? ==> r.error == Some("URL missing in state.")
    ensures r.content.Some? ==> r.content.value.source == s.url.value && r.error == r.content.value.error
    ensures r.content.Some? ==> !IsErrorText(r.content.value.text)
    ensures r.error.Some? ==> r.error.value != ""
  {
    if !Truthy(s.url) then s.(error := Some("URL missing in state."), content := None)
    else
      var c := GetContentFromUrl(s.url.value, f);
      s.(content := Some(c), error := c.error)
  }

  /** What the BAML summarization call did. */
  datatype SummarizerCall =
    | ClientMissing                                          // the BAML client failed to initialise
    | CallRaised(reason: string)                             // the call raised; `reason` is `str(e)`
    | CallReturned(summary: string, error: Option<string>)   // the call's summary and its metadata error

  /** `SummarizationResult`, reduced to the summary and its `metadata["error"]`. */
  datatype SummarizationResult = SummarizationResult(summary: string, error: Option<string>)

  /** `summarize_content`. */
  function SummarizeContent(c: Content, call: SummarizerCall): (r: SummarizationResult)
    ensures call.ClientMissing? ==> r == SummarizationResult("Error: Summarization service unavailable.", Some("BAML client not initialized"))
    ensures !call.ClientMissing? && c.text == "" ==>
      var reason := c.error.GetOr("Content extraction yielded no text.");
      r == SummarizationResult("Error: Cannot summarize. " + reason, Some(reason))
    ensures call.CallRaised? && c.text != "" ==>
      r == SummarizationResult("Error: Summarization failed due to an internal error: " + call.reason, Some(call.reason))
    ensures call.CallReturned? && c.text != "" ==> r == SummarizationResult(call.summary, call.error)
  {
    if call.ClientMissing? then
      SummarizationResult("Error: Summarization service unavailable.", Some("BAML client not initialized"))
    else if c.text == "" then
      var reason := c.error.GetOr("Content extraction yielded no text.");
      SummarizationResult("Error: Cannot summarize. " + reason, Some(reason))
    else match call
      case CallRaised(e) => SummarizationResult("Error: Summarization failed due to an internal error: " + e, Some(e))
      case CallReturned(summary, error) => SummarizationResult(summary, error)
  }

  /** `summarize_node`: it always leaves exactly one of summary and error set. */
  function SummarizeNode(s: AgentState, call: SummarizerCall): (r: AgentState)
    ensures r.messages == s.messages && r.url == s.url && r.content == s.content
    ensures r.summary.Some? <==> r.error.None?
    ensures r.error.Some? ==> r.error.value != ""
    ensures s.content.None? ==> r.error == Some("Content missing in state.")
    ensures s.content.Some? && s.content.value.text == "" && Truthy(s.content.value.error) ==>
      r.error == Some("Skipping summarization. " + s.content.value.error.value)
    ensures s.content.Some? && !(s.content.value.text == "" && Truthy(s.content.value.error)) ==>
      var result := SummarizeContent(s.content.value, call);
      (Truthy(result.error) ==> r.error == Some("Summarization failed: " + result.error.value))
      && (!Truthy(result.error) ==> r.summary == Some(result.summary))
  {
    match s.content
    case None => s.(error := Some("Content missing in state."), summary := None)
    case Some(c) =>
      if c.text == "" && Truthy(c.error) then
        s.(error := Some("Skipping summarization. " + c.error.value), summary := None)
      else
        var result := SummarizeContent(c, call);
        if Truthy(result.error) then s.(error := Some("Summarization failed: " + result.error.value), summary := None)
        else s.(summary := Some(result.summary), error := None)
  }

  /** When the extraction left no text and an error, the summarizer is never consulted. */
  lemma SkipIgnoresSummarizer(s: AgentState, call1: SummarizerCall, call2: SummarizerCall)
    requires s.content.Some? && s.content.value.text == "" && Truthy(s.content.value.error)
    ensures SummarizeNode(s, call1) == SummarizeNode(s, call2)
    ensures SummarizeNode(s, call1).summary.None?
  {
  }

  // ---------------------------------------------------------------------------------------------
  // Router and edges
  // ---------------------------------------------------------------------------------------------

  datatype Route = ToHandleError | ToFetchContent | ToSummarize | ToEnd

  /** `should_continue`: error first, then missing content, then missing summary, else the end. */
  function ShouldContinue(s: AgentState): (r: Route)
    ensures r == ToHandleError <==> Truthy(s.error)
    ensures r == ToFetchContent <==> !Truthy(s.error) && s.content.None?
    ensures r == ToSummarize <==> !Truthy(s.error) && s.content.Some? && !Truthy(s.summary)
    ensures r == ToEnd <==> !Truthy(s.error) && s.content.Some? && Truthy(s.summary)
  {
    if Truthy(s.error) then ToHandleError
    else if s.content.None? then ToFetchContent
    else if !Truthy(s.summary) then ToSummarize
    else ToEnd
  }

  /** The router is a pure function of three flags of the state: nothing else it sees matters. */
  lemma RouterReadsOnlyFlags(s: AgentState, t: AgentState)
    requires Truthy(s.error) == Truthy(t.error)
    requires s.content.Some? == t.content.Some?
    requires Truthy(s.summary) == Truthy(t.summary)
    ensures ShouldContinue(s) == ShouldContinue(t)
  {
  }

  datatype Node = Start | FetchContent | Summarize | HandleError

  /** The route labels each node's conditional edge accepts, as `create_agent_graph` declares them. */
  function PathMap(n: Node): set<Route> {
    match n
    case Start => {ToFetchContent, ToHandleError, ToEnd}
    case FetchContent => {ToSummarize, ToHandleError, ToEnd}
    case Summarize => {ToHandleError, ToEnd}
    case HandleError => {ToEnd}
  }

  /** Position of a node in the graph; every declared edge goes to a higher rank. */
  function Rank(n: Node): nat {
    match n
    case Start => 0
    case FetchContent => 1
    case Summarize => 2
    case HandleError => 3
  }

  function Target(r: Route): (n: Node)
    requires r != ToEnd
  {
    match r
    case ToHandleError => HandleError
    case ToFetchContent => FetchContent
    case ToSummarize => Summarize
  }

  /** The graph has no cycle: every declared edge leads to a node of higher rank. */
  lemma EdgesClimb(n: Node, r: Route)
    requires r in PathMap(n) && r != ToEnd
    ensures Rank(Target(r)) > Rank(n)
  {
  }

  /** The label LangGraph uses for each route. */
  function RouteName(r: Route): string {
    match r
    case ToHandleError => "handle_error"
    case ToFetchContent => "fetch_content"
    case ToSummarize => "summarize"
    case ToEnd => "__end__"
  }

  /** What each remote call of one run returns. */
  datatype Services = Services(fetchers: Fetchers, summarizer: SummarizerCall)

  /** Runs one node; `error_node` changes nothing. */
  function ApplyNode(n: Node, s: AgentState, svc: Services): (r: AgentState)
    requires |s.messages| > 0
    ensures r.messages == s.messages
  {
    match n
    case Start => StartNode(s)
    case FetchContent => FetchContentNode(s, svc.fetchers)
    case Summarize => SummarizeNode(s, svc.summarizer)
    case HandleError => s
  }

  /**
   * How a run ends: the final state with the nodes visited, or the graph raising because a router
   * returned a label its edge table does not declare.
   */
  datatype GraphOutcome = Finished(final: AgentState, trace: seq<Node>) | Raised(route: Route)

  /** Runs node `n` and follows the conditional edges from there. */
  function Advance(n: Node, s: AgentState, svc: Services, trace: seq<Node>): (o: GraphOutcome)
    requires |s.messages| > 0
    ensures o.Finished? ==> o.final.messages == s.messages
    ensures o.Raised? ==> o.route != ToEnd
    decreases 3 - Rank(n)
  {
    var next := ApplyNode(n, s, svc);
    var visited := trace + [n];
    if n == HandleError then Finished(next, visited)
    else
      var r := ShouldContinue(next);
      if r !in PathMap(n) then Raised(r)
      else if r == ToEnd then Finished(next, visited)
      else
        EdgesClimb(n, r);
        Advance(Target(r), next, svc, visited)
  }

  /**
   * A finished run from `n` extends the trace it was given: `n` comes next, and from there every
   * node visited has a higher rank than the one before it.
   */
  lemma {:induction false} AdvanceClimbs(n: Node, s: AgentState, svc: Services, trace: seq<Node>)
    requires |s.messages| > 0
    ensures var o := Advance(n, s, svc, trace);
      o.Finished? ==> |o.trace| > |trace| && o.trace[..|trace|] == trace && o.trace[|trace|] == n
    ensures var o := Advance(n, s, svc, trace);
      o.Finished? ==> forall i :: |trace| <= i < |o.trace| - 1 ==> Rank(o.trace[i]) < Rank(o.trace[i + 1])
    decreases 3 - Rank(n)
  {
    var next := ApplyNode(n, s, svc);
    var visited := trace + [n];
    var r := ShouldContinue(next);
    if n != HandleError && r in PathMap(n) && r != ToEnd {
      EdgesClimb(n, r);
      AdvanceClimbs(Target(r), next, svc, visited);
      var o := Advance(Target(r), next, svc, visited);
      assert Advance(n, s, svc, trace) == o;
      if o.Finished? {
        ClimbExtends(trace, n, o.trace);
      }
    } else {
      ClimbStarts(trace, n);
    }
  }

  /** A trace that climbs from `trace + [n]` on, where `n` ranks below the next node, climbs from `trace` on. */
  lemma ClimbExtends(trace: seq<Node>, n: Node, t: seq<Node>)
    requires |t| > |trace| + 1 && t[..|trace| + 1] == trace + [n] && Rank(n) < Rank(t[|trace| + 1])
    requires forall i :: |trace| + 1 <= i < |t| - 1 ==> Rank(t[i]) < Rank(t[i + 1])
    ensures t[..|trace|] == trace && t[|trace|] == n
    ensures forall i :: |trace| <= i < |t| - 1 ==> Rank(t[i]) < Rank(t[i + 1])
  {
    assert t[..|trace|] == t[..|trace| + 1][..|trace|];
    assert t[|trace|] == t[..|trace| + 1][|trace|];
  }

  /** The trace `trace + [n]` of a run that ends at `n` climbs from `trace` on. */
  lemma ClimbStarts(trace: seq<Node>, n: Node)
    ensures var t := trace + [n];
      && |t| > |trace| && t[..|trace|] == trace && t[|trace|] == n
      && forall i :: |trace| <= i < |t| - 1 ==> Rank(t[i]) < Rank(t[i + 1])
  {
    assert (trace + [n])[..|trace|] == trace;
  }

  /** A node whose router names a declared node hands over to it with the updated state. */
  lemma AdvanceFollowsEdge(n: Node, s: AgentState, svc: Services, trace: seq<Node>)
    requires |s.messages| > 0 && n != HandleError
    requires ShouldContinue(ApplyNode(n, s, svc)) in PathMap(n) - {ToEnd}
    ensures Advance(n, s, svc, trace)
         == Advance(Target(ShouldContinue(ApplyNode(n, s, svc))), ApplyNode(n, s, svc), svc, trace + [n])
  {
  }

  /**
   * One run of the compiled graph from `start`. A finished run starts at `start` and visits
   * nodes of strictly rising rank, so no node runs twice; the message list is never changed.
   */
  function RunGraph(input: string, svc: Services): (o: GraphOutcome)
    ensures o.Finished? ==> |o.trace| > 0 && o.trace[0] == Start
    ensures o.Finished? ==> forall i :: 0 <= i < |o.trace| - 1 ==> Rank(o.trace[i]) < Rank(o.trace[i + 1])
    ensures o.Finished? ==> o.final.messages == InitialState(input).messages
  {
    AdvanceClimbs(Start, InitialState(input), svc, []);
    Advance(Start, InitialState(input), svc, [])
  }

  // ---------------------------------------------------------------------------------------------
  // run_agent
  // ---------------------------------------------------------------------------------------------

  /** How the event stream of `run_agent` ended. */
  datatype StreamResult = StreamFailed(reason: string) | StreamEnded(final: Option<AgentState>)

  const NoSummaryReply := "Processing finished, but no summary was generated."

  /** `run_agent`'s reply: an error is reported in preference to a summary. */
  function Reply(o: StreamResult): (r: string)
    ensures o.StreamFailed? ==> r == "Error running agent: " + o.reason
    ensures o == StreamEnded(None) ==> r == "Error: Agent execution did not complete properly."
    ensures o.StreamEnded? && o.final.Some? && Truthy(o.final.value.error) ==>
      r == "Error processing link: " + o.final.value.error.value
    ensures o.StreamEnded? && o.final.Some? && !Truthy(o.final.value.error) && Truthy(o.final.value.summary) ==>
      r == o.final.value.summary.value
    ensures o.StreamEnded? && o.final.Some? && !Truthy(o.final.value.error) && !Truthy(o.final.value.summary) ==>
      r == NoSummaryReply
  {
    match o
    case StreamFailed(e) => "Error running agent: " + e
    case StreamEnded(None) => "Error: Agent execution did not complete properly."
    case StreamEnded(Some(s)) =>
      if Truthy(s.error) then "Error processing link: " + s.error.value
      else if Truthy(s.summary) then s.summary.value
      else NoSummaryReply
  }

  /**
   * The text of the `KeyError` LangGraph raises when a route has no entry in the edge table:
   * `str` of a `KeyError` is the repr of its key, so the label appears in single quotes.
   */
  function KeyErrorText(route: Route): (r: string)
    ensures |r| == |RouteName(route)| + 2
    ensures r[0] == '\'' && r[|r| - 1] == '\'' && r[1..|r| - 1] == RouteName(route)
  {
    "'" + RouteName(route) + "'"
  }

  /** `run_agent` on one message, with the graph's own failure surfacing as the raised route's `KeyError`. */
  function RunAgent(input: string, svc: Services): (r: string)
    ensures var o := RunGraph(input, svc);
      o.Raised? ==> r == "Error running agent: " + KeyErrorText(o.route)
    ensures var o := RunGraph(input, svc);
      o.Finished? && Truthy(o.final.error) ==> r == "Error processing link: " + o.final.error.value
    ensures var o := RunGraph(input, svc);
      o.Finished? && !Truthy(o.final.error) ==> r == if Truthy(o.final.summary) then o.final.summary.value else NoSummaryReply
  {
    match RunGraph(input, svc)
    case Finished(s, _) => Reply(StreamEnded(Some(s)))
    case Raised(route) => Reply(StreamFailed(KeyErrorText(route)))
  }
}

=== FILE: graph_runs.dfy ===
/**
 * Whole runs of the summarizer graph: which nodes run, in which order, and what `run_agent`
 * replies, for every combination of remote-call outcomes.
 */
module GraphRuns {
  import opened Wrappers
  import opened PyStr
  import Urls
  import opened Extraction
  import opened Graph

  /** The state after `start` and `fetch_content` when the message holds a URL. */
  function Fetched(input: string, url: string, f: Fetchers): AgentState {
    var c := GetContentFromUrl(url, f);
    AgentState([Human(input)], Some(url), Some(c), None, c.error)
  }

  /**
   * The run as a straight pipeline, following agent.py's node sequence: find the URL,
   * extract, summarize, and leave for the error handler at the first failure. The one extra exit
   * is an empty, error-free summary, for which the router names a node the summarize step does
   * not declare.
   */
  function StraightRun(input: string, svc: Services): GraphOutcome {
    match Urls.FindUrl(input)
    case None => Finished(InitialState(input).(error := Some("No URL found in the message.")), [Start, HandleError])
    case Some(url) => AfterFetch(Fetched(input, url, svc.fetchers), svc)
  }

  /** The rest of the straight pipeline once `fetch_content` has produced `s2`. */
  function AfterFetch(s2: AgentState, svc: Services): GraphOutcome {
    if Truthy(s2.error) then Finished(s2, [Start, FetchContent, HandleError])
    else
      var s3 := SummarizeNode(s2, svc.summarizer);
      if s3.error.Some? then Finished(s3, [Start, FetchContent, Summarize, HandleError])
      else if s3.summary.value != "" then Finished(s3, [Start, FetchContent, Summarize])
      else Raised(ToSummarize)
  }

  /** The pipeline of a message holding a URL continues from the fetched state. */
  lemma StraightRunWithUrl(input: string, svc: Services)
    requires Urls.FindUrl(input).Some?
    ensures StraightRun(input, svc) == AfterFetch(Fetched(input, Urls.FindUrl(input).value, svc.fetchers), svc)
  {
  }

  /** The `summarize` step and what follows it. */
  lemma SummarizeStep(s2: AgentState, svc: Services)
    requires |s2.messages| > 0 && s2.content.Some? && !Truthy(s2.error)
    ensures Advance(Summarize, s2, svc, [Start, FetchContent]) == AfterFetch(s2, svc)
  {
    var s3 := SummarizeNode(s2, svc.summarizer);
    if s3.error.Some? {
      SummarizeStepToError(s2, svc);
    } else if s3.summary.value != "" {
      assert ShouldContinue(s3) == ToEnd;
    } else {
      assert ShouldContinue(s3) == ToSummarize;
    }
  }

  /** The summarize node recorded an error: the error handler runs next. */
  lemma SummarizeStepToError(s2: AgentState, svc: Services)
    requires |s2.messages| > 0 && SummarizeNode(s2, svc.summarizer).error.Some?
    ensures Advance(Summarize, s2, svc, [Start, FetchContent])
         == Advance(HandleError, SummarizeNode(s2, svc.summarizer), svc, [Start, FetchContent, Summarize])
  {
    assert ShouldContinue(SummarizeNode(s2, svc.summarizer)) == ToHandleError;
  }

  /** `fetch_content` recorded an error: the error handler runs and the graph ends. */
  lemma FetchStepToError(s1: AgentState, svc: Services)
    requires |s1.messages| > 0 && Truthy(FetchContentNode(s1, svc.fetchers).error)
    ensures Advance(FetchContent, s1, svc, [Start])
         == Finished(FetchContentNode(s1, svc.fetchers), [Start, FetchContent, HandleError])
  {
    var s2 := FetchContentNode(s1, svc.fetchers);
    assert ApplyNode(FetchContent, s1, svc) == s2;
    RoutedToError(s2);
    AdvanceFollowsEdge(FetchContent, s1, svc, [Start]);
    assert ApplyNode(HandleError, s2, svc) == s2;
    assert [Start] + [FetchContent] + [HandleError] == [Start, FetchContent, HandleError];
  }

  lemma RoutedToError(s: AgentState)
    requires Truthy(s.error)
    ensures ShouldContinue(s) == ToHandleError && ShouldContinue(s) in PathMap(FetchContent) - {ToEnd}
    ensures Target(ShouldContinue(s)) == HandleError
  {
  }

  lemma RoutedToSummarize(s: AgentState)
    requires s.content.Some? && !Truthy(s.summary) && !Truthy(s.error)
    ensures ShouldContinue(s) == ToSummarize && ShouldContinue(s) in PathMap(FetchContent) - {ToEnd}
    ensures Target(ShouldContinue(s)) == Summarize
  {
  }

  /** `fetch_content` stored content without an error: the summarize node runs next. */
  lemma FetchStepToSummarize(s1: AgentState, svc: Services)
    requires |s1.messages| > 0 && Truthy(s1.url) && !Truthy(s1.summary)
    requires !Truthy(FetchContentNode(s1, svc.fetchers).error)
    ensures Advance(FetchContent, s1, svc, [Start])
         == Advance(Summarize, FetchContentNode(s1, svc.fetchers), svc, [Start, FetchContent])
  {
    var s2 := FetchContentNode(s1, svc.fetchers);
    assert ApplyNode(FetchContent, s1, svc) == s2;
    RoutedToSummarize(s2);
    AdvanceFollowsEdge(FetchContent, s1, svc, [Start]);
    assert [Start] + [FetchContent] == [Start, FetchContent];
  }

  /** The `start` step and what follows it. */
  lemma StartStep(input: string, svc: Services)
    ensures Urls.FindUrl(input).None? ==>
      RunGraph(input, svc) == Finished(InitialState(input).(error := Some("No URL found in the message.")), [Start, HandleError])
    ensures Urls.FindUrl(input).Some? ==>
      RunGraph(input, svc)
      == Advance(FetchContent, InitialState(input).(url := Urls.FindUrl(input), error := None), svc, [Start])
      && |Urls.FindUrl(input).value| > 0
  {
    var s0 := InitialState(input);
    var s1 := StartNode(s0);
    if Urls.FindUrl(input).None? {
      assert ShouldContinue(s1) == ToHandleError;
      assert Advance(Start, s0, svc, []) == Advance(HandleError, s1, svc, [Start]);
    } else {
      assert s1 == InitialState(input).(url := Urls.FindUrl(input), error := None);
      assert ShouldContinue(s1) == ToFetchContent;
      AdvanceFollowsEdge(Start, s0, svc, []);
      assert [] + [Start] == [Start];
    }
  }

  /** Following the graph's edges node by node gives exactly the straight pipeline. */
  lemma {:induction false} RunIsStraightPipeline(input: string, svc: Services)
    ensures RunGraph(input, svc) == StraightRun(input, svc)
  {
    StartStep(input, svc);
    if Urls.FindUrl(input).Some? {
      var url := Urls.FindUrl(input).value;
      var s1 := InitialState(input).(url := Some(url), error := None);
      var s2 := Fetched(input, url, svc.fetchers);
      assert FetchContentNode(s1, svc.fetchers) == s2;
      StraightRunWithUrl(input, svc);
      if Truthy(s2.error) {
        FetchStepToError(s1, svc);
      } else {
        FetchStepToSummarize(s1, svc);
        SummarizeStep(s2, svc);
      }
    }
  }

  /** A message without a URL ends in the error handler; no extractor or summarizer runs, whatever they would return. */
  lemma NoUrlMeansNoExtraction(input: string, svc: Services)
    requires forall k :: 0 <= k <= |input| ==> !Urls.UrlMatchAt(input, k)
    ensures RunGraph(input, svc).Finished?
    ensures RunGraph(input, svc).trace == [Start, HandleError]
    ensures RunGraph(input, svc).final.content.None?
    ensures RunAgent(input, svc) == "Error processing link: No URL found in the message."
  {
    assert Urls.FindUrl(input).None?;
    var s := InitialState(input).(error := Some("No URL found in the message."));
    StartStep(input, svc);
    assert RunGraph(input, svc) == Finished(s, [Start, HandleError]);
    NoUrlReply(s);
  }

  lemma NoUrlReply(s: AgentState)
    requires s.error == Some("No URL found in the message.")
    ensures Reply(StreamEnded(Some(s))) == "Error processing link: No URL found in the message."
  {
  }

  /** Every finished pipeline ends with an error or a summary, not both. */
  lemma StraightRunHasErrorXorSummary(input: string, svc: Services)
    requires StraightRun(input, svc).Finished?
    ensures Truthy(StraightRun(input, svc).final.error) != Truthy(StraightRun(input, svc).final.summary)
  {
    match Urls.FindUrl(input)
    case None =>
    case Some(url) =>
      var s2 := Fetched(input, url, svc.fetchers);
      if !Truthy(s2.error) {
        var s3 := SummarizeNode(s2, svc.summarizer);
        assert s3.error.Some? ==> Truthy(s3.error);
      }
  }

  /**
   * A finished run holds either an error or a summary, never both and never neither, so
   * `run_agent` never falls back to its "no summary was generated" reply.
   */
  lemma FinishedRunHasErrorXorSummary(input: string, svc: Services)
    requires RunGraph(input, svc).Finished?
    ensures Truthy(RunGraph(input, svc).final.error) != Truthy(RunGraph(input, svc).final.summary)
    ensures var s := RunGraph(input, svc).final;
      RunAgent(input, svc) == if Truthy(s.error) then "Error processing link: " + s.error.value else s.summary.value
  {
    RunIsStraightPipeline(input, svc);
    StraightRunHasErrorXorSummary(input, svc);
  }

  /** The only pipeline exit that is not a finished run. */
  lemma StraightRunRaisesOnEmptySummary(input: string, svc: Services)
    ensures StraightRun(input, svc).Raised? <==>
      && Urls.FindUrl(input).Some?
      && var c := GetContentFromUrl(Urls.FindUrl(input).value, svc.fetchers);
      && !Truthy(c.error) && c.text != ""
      && svc.summarizer.CallReturned? && svc.summarizer.summary == "" && !Truthy(svc.summarizer.error)
    ensures StraightRun(input, svc).Raised? ==> StraightRun(input, svc).route == ToSummarize
  {
    match Urls.FindUrl(input)
    case None =>
    case Some(url) =>
      var s2 := Fetched(input, url, svc.fetchers);
      var c := s2.content.value;
      if !Truthy(s2.error) {
        var s3 := SummarizeNode(s2, svc.summarizer);
        if c.text == "" {
          assert s3.error.Some?;
        } else if svc.summarizer.CallReturned? && svc.summarizer.summary == "" && !Truthy(svc.summarizer.error) {
          assert s3.summary == Some("");
        } else {
          assert s3.error.Some? || s3.summary.value != "";
        }
      }
  }

  /**
   * The graph raises exactly when the summarizer returns an empty summary with no error for
   * non-empty, error-free content: the router then answers "summarize", which the summarize
   * node's edge table does not declare.
   */
  lemma RaisesOnlyOnEmptySummary(input: string, svc: Services)
    ensures RunGraph(input, svc).Raised? <==>
      && Urls.FindUrl(input).Some?
      && var c := GetContentFromUrl(Urls.FindUrl(input).value, svc.fetchers);
      && !Truthy(c.error) && c.text != ""
      && svc.summarizer.CallReturned? && svc.summarizer.summary == "" && !Truthy(svc.summarizer.error)
    ensures RunGraph(input, svc).Raised? ==> RunAgent(input, svc) == "Error running agent: " + "'summarize'"
  {
    RunIsStraightPipeline(input, svc);
    StraightRunRaisesOnEmptySummary(input, svc);
    if RunGraph(input, svc).Raised? {
      SummarizeKeyError(input, svc);
    }
  }

  /** A run that raises on the summarize route replies with that route's quoted `KeyError` text. */
  lemma SummarizeKeyError(input: string, svc: Services)
    requires RunGraph(input, svc).Raised? && RunGraph(input, svc).route == ToSummarize
    ensures RunAgent(input, svc) == "Error running agent: " + "'summarize'"
  {
    QuotedSummarize();
  }

  /** The `KeyError` text of the summarize route. */
  lemma QuotedSummarize()
    ensures KeyErrorText(ToSummarize) == "'summarize'"
  {
    var name := RouteName(ToSummarize);
    assert name == "summarize";
    assert KeyErrorText(ToSummarize) == "'" + name + "'";
  }

  /**
   * A short scrape kept "with a warning" is never summarized: `fetch_content_node` copies the
   * warning into the state's error and the router sends the run to the error handler.
   */
  lemma MinimalTextNeverSummarized(input: string, svc: Services)
    requires Urls.FindUrl(input).Some?
    requires var url := Urls.FindUrl(input).value;
      && !IsPdfUrl(url, svc.fetchers.head)
      && !IsErrorText(svc.fetchers.basic) && |svc.fetchers.basic| < MinBasicScrapeLength
      && FirecrawlFailed(svc.fetchers.firecrawl)
    ensures RunGraph(input, svc).Finished?
    ensures RunGraph(input, svc).trace == [Start, FetchContent, HandleError]
    ensures var f := svc.fetchers;
      RunAgent(input, svc) == "Error processing link: " + MinimalContentWarning(|f.basic|,
        if f.firecrawl.Some? then "). Firecrawl failed: " + f.firecrawl.value + " Using minimal basic text anyway."
        else ", and Firecrawl is unavailable.")
  {
    var url := Urls.FindUrl(input).value;
    MinimalTextKeptWithWarning(url, svc.fetchers);
    var s2 := Fetched(input, url, svc.fetchers);
    assert s2.error == GetContentFromUrl(url, svc.fetchers).error;
    StraightRunWithUrl(input, svc);
    RunIsStraightPipeline(input, svc);
  }

  /** Content extracted cleanly and summarized without error: the reply is the summary itself. */
  lemma SuccessfulRunRepliesWithSummary(input: string, svc: Services)
    requires Urls.FindUrl(input).Some?
    requires var c := GetContentFromUrl(Urls.FindUrl(input).value, svc.fetchers);
      !Truthy(c.error) && c.text != ""
    requires svc.summarizer.CallReturned? && svc.summarizer.summary != "" && !Truthy(svc.summarizer.error)
    ensures RunGraph(input, svc).Finished?
    ensures RunGraph(input, svc).trace == [Start, FetchContent, Summarize]
    ensures RunAgent(input, svc) == svc.summarizer.summary
  {
    RunIsStraightPipeline(input, svc);
  }

  /**
   * A summarizer exception whose message is empty leaves the metadata error falsy, so the
   * "Error:" text stands in the summary and is delivered as if it were one.
   */
  lemma EmptyExceptionMessageBecomesSummary(input: string, svc: Services)
    requires Urls.FindUrl(input).Some?
    requires var c := GetContentFromUrl(Urls.FindUrl(input).value, svc.fetchers);
      !Truthy(c.error) && c.text != ""
    requires svc.summarizer == CallRaised("")
    ensures RunGraph(input, svc).Finished?
    ensures RunGraph(input, svc).trace == [Start, FetchContent, Summarize]
    ensures RunAgent(input, svc) == "Error: Summarization failed due to an internal error: "
  {
    var url := Urls.FindUrl(input).value;
    var s2 := Fetched(input, url, svc.fetchers);
    assert s2.content == Some(GetContentFromUrl(url, svc.fetchers));
    StraightRunWithUrl(input, svc);
    EmptyExceptionAfterFetch(s2, svc);
    RunIsStraightPipeline(input, svc);
  }

  lemma EmptyExceptionAfterFetch(s2: AgentState, svc: Services)
    requires s2.content.Some? && s2.content.value.text != "" && !Truthy(s2.error)
    requires svc.summarizer == CallRaised("")
    ensures var s3 := SummarizeNode(s2, svc.summarizer);
      && AfterFetch(s2, svc) == Finished(s3, [Start, FetchContent, Summarize])
      && Reply(StreamEnded(Some(s3))) == "Error: Summarization failed due to an internal error: "
  {
    var c := s2.content.value;
    var result := SummarizeContent(c, svc.summarizer);
    assert result == SummarizationResult("Error: Summarization failed due to an internal error: " + "", Some(""));
    var s3 := SummarizeNode(s2, svc.summarizer);
    assert s3.summary == Some(result.summary);
  }
}

=== FILE: linkedin.dfy ===
/**
 * `scrape_linkedin_post` of tools/linkedin_scraper_tool.py: check that the URL names a LinkedIn
 * post, ask the Tavily search runner about it, and take the post text from the first result.
 *
 * The search runner's reply is a parameter. The module imports `run_tavily_tool` from
 * tools/search.py, which at this revision defines only the `TavilySearch` class, so as the
 * repository stands the import fails before the tool can be called; the model describes the
 * tool for whatever runner supplies that reply.
 */
module LinkedIn {
  import opened Wrappers
  import opened PyStr

  /** One entry of the search reply's `results` list; an absent key is None. */
  datatype SearchResult = SearchResult(content: Option<string>, rawContent: Option<string>, url: Option<string>)

  /** What `run_tavily_tool` gave back. */
  datatype SearchReply =
    | Text(s: string)                       // a string: the runner reports errors this way
    | Dict(results: seq<SearchResult>)      // a dict; a missing `results` key reads as an empty list
    | OtherValue                            // anything else: a list, None, ...
    | Raised(reason: string)                // the runner or the parsing of its reply raised

  /** `scrape_linkedin_post` returns the post as a dict or an error string, or it raises. */
  datatype PostResult = Post(content: string, sourceUrl: Option<string>) | Failed(message: string) | Raises(exception: string)

  const PostMarker := "linkedin.com/posts/"

  /** The tool's error texts for a reply it cannot use. */
  const UnexpectedFormat := ErrorText("Unexpected response format from Tavily tool.")
  const NoInformation := ErrorText("Tavily found no information for this LinkedIn URL.")
  const NoExtractableContent := ErrorText("Tavily returned results, but no extractable content was found.")

  /**
   * The exception the `except` handler raises: its console call passes `exc_info=True`, a keyword
   * that rich's `Console.print` does not accept.
   */
  const ConsoleTypeError := "TypeError: Console.print() got an unexpected keyword argument 'exc_info'"

  /** The post text of a search result: `content` when it is non-empty, else `raw_content`. */
  function PostText(result: SearchResult): (r: Option<string>)
    ensures r.Some? <==> Truthy(result.content) || Truthy(result.rawContent)
    ensures Truthy(result.content) ==> r == result.content
    ensures r.Some? ==> r.value != ""
  {
    if Truthy(result.content) then result.content
    else if Truthy(result.rawContent) then result.rawContent
    else None
  }

  /**
   * `scrape_linkedin_post(url)` as written, with the search runner's reply as a parameter. An
   * exception inside the `try` block reaches the handler, whose console call raises in turn, so
   * the tool raises instead of returning its "Failed to process" error string.
   */
  function ScrapeLinkedInPost(url: string, reply: SearchReply): (r: PostResult)
    ensures r.Raises? <==> Contains(url, PostMarker) && reply.Raised?
    ensures r.Raises? ==> r.exception == ConsoleTypeError
    ensures !r.Raises? ==> r == ScrapeLinkedInPostIntended(url, reply)
    ensures r.Failed? ==> StartsWith(r.message, "Error:")
    ensures !Contains(url, PostMarker) ==> r == Failed(ErrorText("URL does not appear to be a valid LinkedIn post URL."))
    ensures r.Post? ==> r.content != "" && reply.Dict? && |reply.results| > 0
                        && r.sourceUrl == reply.results[0].url
  {
    if Contains(url, PostMarker) && reply.Raised? then Raises(ConsoleTypeError)
    else ScrapeLinkedInPostIntended(url, reply)
  }

  /**
   * `scrape_linkedin_post(url)` as its handler evidently intends: an exception is reported as
   * an "Error: Failed to process ..." string naming it. The tool never raises.
   */
  function ScrapeLinkedInPostIntended(url: string, reply: SearchReply): (r: PostResult)
    ensures !r.Raises?
    ensures r.Failed? ==> StartsWith(r.message, "Error:")
    ensures !Contains(url, PostMarker) ==> r == Failed(ErrorText("URL does not appear to be a valid LinkedIn post URL."))
    ensures Contains(url, PostMarker) && reply.Raised? ==>
      r == Failed(ErrorText("Failed to process LinkedIn URL using Tavily tool. " + reply.reason))
    ensures r.Post? ==> r.content != "" && reply.Dict? && |reply.results| > 0
                        && r.sourceUrl == reply.results[0].url
  {
    if !Contains(url, PostMarker) then Failed(ErrorText("URL does not appear to be a valid LinkedIn post URL."))
    else match reply
      case Text(s) =>
        if StartsWith(s, "Error:") then Failed(s)
        else Failed(UnexpectedFormat)
      case OtherValue => Failed(UnexpectedFormat)
      case Raised(e) => Failed(ErrorText("Failed to process LinkedIn URL using Tavily tool. " + e))
      case Dict(results) =>
        if |results| == 0 then Failed(NoInformation)
        else match PostText(results[0])
          case Some(text) => Post(text, results[0].url)
          case None => Failed(NoExtractableContent)
  }

  /**
   * For a post URL, each reply the tool cannot use has its own error: an "Error:" string from
   * the runner is passed on, any other string or a non-dict is an unexpected format, a dict with
   * no results found nothing, and a first result without text has no extractable content. The
   * tool as written and the intended tool agree on all of them.
   */
  lemma UnusableReplyErrors(url: string, reply: SearchReply)
    requires Contains(url, PostMarker)
    ensures reply.Text? && StartsWith(reply.s, "Error:") ==>
      ScrapeLinkedInPost(url, reply) == ScrapeLinkedInPostIntended(url, reply) == Failed(reply.s)
    ensures reply.OtherValue? || (reply.Text? && !StartsWith(reply.s, "Error:")) ==>
      ScrapeLinkedInPost(url, reply) == ScrapeLinkedInPostIntended(url, reply) == Failed(UnexpectedFormat)
    ensures reply == Dict([]) ==>
      ScrapeLinkedInPost(url, reply) == ScrapeLinkedInPostIntended(url, reply) == Failed(NoInformation)
    ensures reply.Dict? && |reply.results| > 0 && PostText(reply.results[0]).None? ==>
      ScrapeLinkedInPost(url, reply) == ScrapeLinkedInPostIntended(url, reply) == Failed(NoExtractableContent)
  {
  }

  /**
   * When the search runner raises for a post URL, the tool as written raises the handler's
   * `TypeError`, while the intended tool returns the "Failed to process" error naming the
   * runner's exception. On every other input the two agree.
   */
  lemma HandlerRaisesInsteadOfReporting(url: string, e: string)
    requires Contains(url, PostMarker)
    ensures ScrapeLinkedInPost(url, Raised(e)) == Raises(ConsoleTypeError)
    ensures ScrapeLinkedInPostIntended(url, Raised(e))
         == Failed(ErrorText("Failed to process LinkedIn URL using Tavily tool. " + e))
  {
  }

  /**
   * The outcome is a post exactly when the URL names a post and the first search result has
   * content; the post text is that result's `content` when non-empty, whatever its length, and
   * `raw_content` otherwise.
   */
  lemma PostIffFirstResultHasText(url: string, reply: SearchReply)
    ensures ScrapeLinkedInPost(url, reply).Post? <==>
      && Contains(url, PostMarker) && reply.Dict? && |reply.results| > 0
      && (Truthy(reply.results[0].content) || Truthy(reply.results[0].rawContent))
    ensures ScrapeLinkedInPost(url, reply).Post? ==>
      ScrapeLinkedInPost(url, reply).content
      == if Truthy(reply.results[0].content) then reply.results[0].content.value else reply.results[0].rawContent.value
  {
  }

  /** Only the first result is looked at: replies that agree on it give the same outcome. */
  lemma OnlyFirstResultCounts(url: string, first: SearchResult, rest1: seq<SearchResult>, rest2: seq<SearchResult>)
    ensures ScrapeLinkedInPost(url, Dict([first] + rest1)) == ScrapeLinkedInPost(url, Dict([first] + rest2))
  {
    assert ([first] + rest1)[0] == first;
    assert ([first] + rest2)[0] == first;
  }

  /** An error reported by the search runner is passed on unchanged. */
  lemma RunnerErrorPropagates(url: string, s: string)
    requires Contains(url, PostMarker) && StartsWith(s, "Error:")
    ensures ScrapeLinkedInPost(url, Text(s)) == Failed(s)
  {
  }

  /** A URL that does not name a post is refused before the search: its reply does not matter. */
  lemma NonPostUrlNeverSearched(url: string, r1: SearchReply, r2: SearchReply)
    requires !Contains(url, PostMarker)
    ensures ScrapeLinkedInPost(url, r1) == ScrapeLinkedInPost(url, r2)
  {
  }
}

=== FILE: pdf_handler.dfy ===
/**
 * `get_pdf_text` of tools/pdf_handler.py: download a document, refuse it unless the server calls
 * it a PDF, and concatenate the text of its pages. As written, a document PyMuPDF cannot read
 * makes the tool raise; `GetPdfText` is the tool as its handlers intend, `GetPdfTextAsWritten` the
 * tool as written.
 *
 * The download and PyMuPDF's reading of the document are parameters.
 */
module PdfHandler {
  import opened Wrappers
  import opened PyStr

  /** What PyMuPDF made of the downloaded bytes: the text of each page, or the exception it raised. */
  datatype Document =
    | Pages(texts: seq<string>)
    | FitzFailed(reason: string)     // a `fitz.errors.FitzError`
    | OtherFailure(reason: string)   // any other exception

  /** The outcome of the streamed request. */
  datatype Response =
    | RequestFailed(reason: string)  // `requests` raised, including an HTTP error status
    | Responded(contentType: Option<string>, document: Document)

  const PdfMime := "application/pdf"

  /** The lower-cased Content-Type header, "" when it is missing. */
  function ContentType(contentType: Option<string>): (r: string)
    ensures |r| == |contentType.GetOr("")|
    ensures forall i :: 0 <= i < |r| ==> r[i] == LowerChar(contentType.value[i])
  {
    Lower(contentType.GetOr(""))
  }

  /**
   * `get_pdf_text(url)` as its handlers evidently intend, with the response and the document
   * reader's outcome as parameters: every failure is reported as a string.
   */
  function GetPdfText(response: Response): (r: string)
    ensures response.Responded? && !Contains(ContentType(response.contentType), PdfMime) ==>
      r == ErrorText("URL does not point to a PDF file (Content-Type: " + ContentType(response.contentType) + ")")
    ensures response.Responded? && Contains(ContentType(response.contentType), PdfMime) && response.document.Pages? ==>
      |r| == TotalLength(response.document.texts)
    ensures response.RequestFailed? ==> r == "Error downloading PDF: " + response.reason
    ensures response.Responded? && Contains(ContentType(response.contentType), PdfMime) && response.document.FitzFailed? ==>
      r == "Error processing PDF: " + response.document.reason
    ensures response.Responded? && Contains(ContentType(response.contentType), PdfMime) && response.document.OtherFailure? ==>
      r == "An unexpected error occurred: " + response.document.reason
  {
    match response
    case RequestFailed(e) => "Error downloading PDF: " + e
    case Responded(contentType, document) =>
      var ct := ContentType(contentType);
      if !Contains(ct, PdfMime) then ErrorText("URL does not point to a PDF file (Content-Type: " + ct + ")")
      else match document
        case Pages(texts) =>
          ConcatAppend(texts, []);
          Concat(texts)
        case FitzFailed(e) => "Error processing PDF: " + e
        case OtherFailure(e) => "An unexpected error occurred: " + e
  }

  /** What `get_pdf_text` as written does: return a string, or let an exception escape. */
  datatype Outcome = Returned(text: string) | Raises(exception: string)

  /**
   * The exception that escapes when the document cannot be read: the second `except` clause
   * names `fitz.errors.FitzError`, and PyMuPDF's module has no `errors` attribute (its document
   * errors are `fitz.FileDataError`, `fitz.EmptyFileError` and `fitz.FileNotFoundError`).
   */
  const MissingErrorsModule := "AttributeError: module 'fitz' has no attribute 'errors'"

  /**
   * `get_pdf_text(url)` as written. Python evaluates the expression of an `except` clause only
   * when an exception reaches it, so a download failure is still caught by the first clause.
   * Any failure while reading the document reaches the second clause, whose expression raises,
   * and neither "Error processing PDF:" nor "An unexpected error occurred:" is ever returned.
   */
  function GetPdfTextAsWritten(response: Response): (r: Outcome)
    ensures r.Raises? <==> response.Responded? && Contains(ContentType(response.contentType), PdfMime)
                           && !response.document.Pages?
    ensures r.Raises? ==> r.exception == MissingErrorsModule
    ensures r.Returned? ==> r.text == GetPdfText(response)
  {
    if response.Responded? && Contains(ContentType(response.contentType), PdfMime) && !response.document.Pages?
    then Raises(MissingErrorsModule)
    else Returned(GetPdfText(response))
  }

  /**
   * A document PyMuPDF cannot read makes the tool as written raise, where the handlers evidently
   * intend a reported failure: "Error processing PDF: " for PyMuPDF's own errors and "An
   * unexpected error occurred: " for any other.
   */
  lemma DocumentFailureRaises(contentType: Option<string>, document: Document)
    requires Contains(ContentType(contentType), PdfMime) && !document.Pages?
    ensures GetPdfTextAsWritten(Responded(contentType, document)) == Raises(MissingErrorsModule)
    ensures document.FitzFailed? ==> GetPdfText(Responded(contentType, document)) == "Error processing PDF: " + document.reason
    ensures document.OtherFailure? ==>
      GetPdfText(Responded(contentType, document)) == "An unexpected error occurred: " + document.reason
  {
  }

  /** The text of page `i` sits between the text of the pages before it and of the pages after it. */
  lemma {:induction false} PageInPlace(pages: seq<string>, i: nat)
    requires i < |pages|
    ensures Concat(pages) == Concat(pages[..i]) + pages[i] + Concat(pages[i + 1..])
    ensures |Concat(pages[..i])| == TotalLength(pages[..i])
  {
    assert pages == pages[..i] + pages[i..];
    ConcatAppend(pages[..i], pages[i..]);
    assert pages[i..][1..] == pages[i + 1..];
  }

  /**
   * A document is read page by page in order: page `i`'s text starts right after the combined
   * length of the pages before it. No separator is added, and a document without text yields ""
   * as a success.
   */
  lemma PagesConcatenatedInOrder(contentType: Option<string>, pages: seq<string>, i: nat)
    requires Contains(ContentType(contentType), PdfMime)
    requires i < |pages|
    ensures var r, at := GetPdfText(Responded(contentType, Pages(pages))), TotalLength(pages[..i]);
      at + |pages[i]| <= |r| && r[at..at + |pages[i]|] == pages[i]
  {
    PageInPlace(pages, i);
    var before := Concat(pages[..i]);
    var r := GetPdfText(Responded(contentType, Pages(pages)));
    assert r == before + pages[i] + Concat(pages[i + 1..]);
    assert r[|before|..|before| + |pages[i]|] == pages[i];
  }

  /** Pages without text concatenate to the empty string. */
  lemma {:induction false} ConcatOfEmptyPages(pages: seq<string>)
    requires forall i :: 0 <= i < |pages| ==> pages[i] == ""
    ensures Concat(pages) == ""
  {
    if |pages| > 0 {
      ConcatOfEmptyPages(pages[1..]);
    }
  }

  /**
   * A response labelled as a PDF whose pages hold no text gives the empty string, which is
   * returned as a success, not an error.
   */
  lemma NoTextIsEmptySuccess(contentType: Option<string>, pages: seq<string>)
    requires Contains(ContentType(contentType), PdfMime)
    requires forall i :: 0 <= i < |pages| ==> pages[i] == ""
    ensures GetPdfText(Responded(contentType, Pages(pages))) == ""
  {
    ConcatOfEmptyPages(pages);
  }

  /** A response not labelled as a PDF is refused before the document is read. */
  lemma NotPdfNeverRead(contentType: Option<string>, d1: Document, d2: Document)
    requires !Contains(ContentType(contentType), PdfMime)
    ensures GetPdfText(Responded(contentType, d1)) == GetPdfText(Responded(contentType, d2))
    ensures StartsWith(GetPdfText(Responded(contentType, d1)), "Error:")
  {
  }

  /**
   * Only the content-type refusal carries the "Error:" prefix; a failed download or a document
   * that cannot be read is reported with a prefix the agent does not treat as an error.
   */
  lemma OtherFailuresLackErrorPrefix(response: Response)
    requires response.RequestFailed?
      || (Contains(ContentType(response.contentType), PdfMime) && !response.document.Pages?)
    ensures !StartsWith(GetPdfText(response), "Error:")
  {
    var r := GetPdfText(response);
    if response.RequestFailed? {
      assert r[5] == ' ';
    } else if response.document.FitzFailed? {
      assert r[5] == ' ';
    } else {
      assert r[0] == 'A';
    }
  }
}

=== FILE: pystr.dfy ===
/**
 * The Python `str` operations the pipeline relies on, stated over Dafny strings:
 * whitespace classification, `strip`, `lower`, `in`, `startswith`/`endswith`,
 * `"sep".join`, `str(n)` and `int(s)` on decimal digits.
 */
module PyStr {
  import opened Wrappers

  /** Python's `str.isspace()` on one character, which is also the `\s` class of `re` on str patterns. */
  predicate IsSpace(c: char) {
    || c == ' '
    || ('\t' <= c <= '\r')
    || ('\U{1c}' <= c <= '\U{1f}')
    || c == '\U{85}' || c == '\U{a0}' || c == '\U{1680}'
    || ('\U{2000}' <= c <= '\U{200a}')
    || c == '\U{2028}' || c == '\U{2029}' || c == '\U{202f}' || c == '\U{205f}' || c == '\U{3000}'
  }

  predicate IsDigit(c: char) {
    '0' <= c <= '9'
  }

  /** Python truthiness of an optional string: present and non-empty. */
  predicate Truthy(o: Option<string>) {
    o.Some? && o.value != ""
  }

  predicate StartsWith(s: string, prefix: string) {
    prefix <= s
  }

  predicate EndsWith(s: string, suffix: string) {
    |suffix| <= |s| && s[|s| - |suffix|..] == suffix
  }

  /**
   * How the tools report a failure to their callers: a message starting with "Error: ", which
   * the agent recognises by its "Error:" prefix.
   */
  function ErrorText(detail: string): (r: string)
    ensures StartsWith(r, "Error: ") && StartsWith(r, "Error:")
    ensures r[7..] == detail
  {
    var r := "Error: " + detail;
    assert r[..7] == "Error: ";
    assert r[..6] == "Error:";
    r
  }

  /** Python's `sub in s`. */
  predicate Contains(s: string, sub: string) {
    exists i :: 0 <= i <= |s| - |sub| && OccursAt(s, sub, i)
  }

  /** An occurrence at a known index makes `sub in s` true. */
  lemma OccursInside(s: string, sub: string, i: int)
    requires OccursAt(s, sub, i)
    ensures Contains(s, sub)
  {
  }

  /** `sub` occurs in `s` starting at index `i`. */
  predicate OccursAt(s: string, sub: string, i: int) {
    0 <= i && i + |sub| <= |s| && s[i..i + |sub|] == sub
  }

  /** Python's `str.lower()` restricted to ASCII letters; every other character is kept. */
  function LowerChar(c: char): (r: char)
    ensures IsDigit(c) || c == '/' || c == '.' || c == ':' ==> r == c
    ensures 'a' <= r <= 'z' ==> 'a' <= c <= 'z' || 'A' <= c <= 'Z'
  {
    if 'A' <= c <= 'Z' then (c as int + 32) as char else c
  }

  function Lower(s: string): (r: string)
    ensures |r| == |s|
    ensures forall i :: 0 <= i < |s| ==> r[i] == LowerChar(s[i])
  {
    seq(|s|, i requires 0 <= i < |s| => LowerChar(s[i]))
  }

  /** Number of whitespace characters at the front of `s`. */
  function LeadingSpaces(s: string): (k: nat)
    ensures k <= |s|
    ensures forall i :: 0 <= i < k ==> IsSpace(s[i])
    ensures k == |s| || !IsSpace(s[k])
  {
    if |s| > 0 && IsSpace(s[0]) then 1 + LeadingSpaces(s[1..]) else 0
  }

  /** Index where the whitespace run at the back of `s` starts. */
  function TrailingStart(s: string): (k: nat)
    ensures k <= |s|
    ensures forall i :: k <= i < |s| ==> IsSpace(s[i])
    ensures k == 0 || !IsSpace(s[k - 1])
  {
    if |s| > 0 && IsSpace(s[|s| - 1]) then TrailingStart(s[..|s| - 1]) else |s|
  }

  /** Python's `str.strip()`: the slice between the leading and the trailing whitespace runs. */
  function Strip(s: string): (r: string)
    ensures exists i, j ::
              && 0 <= i <= j <= |s| && r == s[i..j]
              && (forall k :: 0 <= k < i ==> IsSpace(s[k]))
              && (forall k :: j <= k < |s| ==> IsSpace(s[k]))
    ensures r == [] || (!IsSpace(r[0]) && !IsSpace(r[|r| - 1]))
  {
    var t := s[LeadingSpaces(s)..];
    var r := t[..TrailingStart(t)];
    assert r == s[LeadingSpaces(s)..LeadingSpaces(s) + TrailingStart(t)];
    r
  }

  /** A string that neither starts nor ends with whitespace is its own `strip()`. */
  lemma StripNoop(s: string)
    requires s == [] || (!IsSpace(s[0]) && !IsSpace(s[|s| - 1]))
    ensures Strip(s) == s
  {
    assert LeadingSpaces(s) == 0;
    assert TrailingStart(s) == |s|;
  }

  /** Python's `sep.join(parts)`. */
  function Join(parts: seq<string>, sep: string): (r: string)
    ensures |parts| == 1 ==> r == parts[0]
  {
    if |parts| == 0 then ""
    else if |parts| == 1 then parts[0]
    else parts[0] + sep + Join(parts[1..], sep)
  }

  /** The joined string starts with the first part and ends with the last. */
  lemma {:induction false} JoinEnds(parts: seq<string>, sep: string)
    requires |parts| > 0
    ensures StartsWith(Join(parts, sep), parts[0])
    ensures EndsWith(Join(parts, sep), parts[|parts| - 1])
  {
    if |parts| > 1 {
      JoinEnds(parts[1..], sep);
      var rest := Join(parts[1..], sep);
      var last := parts[|parts| - 1];
      assert Join(parts, sep) == parts[0] + sep + rest;
      assert rest[|rest| - |last|..] == last;
      assert (parts[0] + sep + rest)[|parts[0] + sep + rest| - |last|..] == rest[|rest| - |last|..];
    }
  }

  /** Python's `"".join(parts)`: plain concatenation in order. */
  function Concat(parts: seq<string>): (r: string)
  {
    if |parts| == 0 then "" else parts[0] + Concat(parts[1..])
  }

  function TotalLength(parts: seq<string>): nat
  {
    if |parts| == 0 then 0 else |parts[0]| + TotalLength(parts[1..])
  }

  /** Concatenation keeps every character: its length is the sum of the parts' lengths, and it distributes over `+`. */
  lemma {:induction false} ConcatAppend(a: seq<string>, b: seq<string>)
    ensures Concat(a + b) == Concat(a) + Concat(b)
    ensures |Concat(a)| == TotalLength(a)
  {
    if |a| > 0 {
      assert (a + b)[1..] == a[1..] + b;
      ConcatAppend(a[1..], b);
    } else {
      assert a + b == b;
    }
  }

  function DigitChar(d: nat): (c: char)
    requires d < 10
    ensures IsDigit(c)
  {
    "0123456789"[d]
  }

  function DigitValue(c: char): (d: nat)
    requires IsDigit(c)
    ensures d < 10
  {
    c as int - '0' as int
  }

  /** Python's `int(s)` on a string of ASCII digits (zero for the empty string). */
  function DigitsValue(s: string): nat
    requires forall i :: 0 <= i < |s| ==> IsDigit(s[i])
  {
    if |s| == 0 then 0
    else DigitsValue(s[..|s| - 1]) * 10 + DigitValue(s[|s| - 1])
  }

  /** Python's `str(n)` for a natural number: decimal, no leading zeros, and `int` reads it back. */
  function NatToString(n: nat): (r: string)
    ensures 1 <= |r|
    ensures forall i :: 0 <= i < |r| ==> IsDigit(r[i])
    ensures |r| > 1 ==> r[0] != '0'
    ensures DigitsValue(r) == n
  {
    if n < 10 then [DigitChar(n)]
    else
      var r := NatToString(n / 10) + [DigitChar(n % 10)];
      assert r[..|r| - 1] == NatToString(n / 10);
      r
  }
}

=== FILE: scraper.dfy ===
/**
 * `WebScraper.scrape_url` of tools/scraper.py: fetch the page, try Trafilatura on it, fall back to
 * Firecrawl, and report a `(text, error)` pair.
 *
 * The HTTP fetch, Trafilatura's extraction and Firecrawl's crawl are parameters holding what each
 * produced.
 */
module Scraper {
  import opened Wrappers
  import opened PyStr

  /** An extractor's output is kept only when it is longer than this. */
  const MinExtractedLength := 100

  /** The length gate both extractors apply: `text and len(text) > 100`. */
  function Accept(extracted: Option<string>): (r: Option<string>)
    ensures r.Some? <==> extracted.Some? && |extracted.value| > MinExtractedLength
    ensures r.Some? ==> r == extracted
  {
    if Truthy(extracted) && |extracted.value| > MinExtractedLength then extracted else None
  }

  /** Firecrawl as `_extract_with_firecrawl` sees it: no client, or the markdown a crawl produced (None on failure). */
  datatype Firecrawl = NoClient | Crawled(markdown: Option<string>)

  /** `_extract_with_firecrawl`: a missing client is a rejection like any other, never an exception. */
  function ExtractWithFirecrawl(firecrawl: Firecrawl): (r: Option<string>)
    ensures firecrawl.NoClient? ==> r.None?
    ensures firecrawl.Crawled? ==> r == Accept(firecrawl.markdown)
  {
    match firecrawl
    case NoClient => None
    case Crawled(markdown) => Accept(markdown)
  }

  /** The `(extracted_text, error_message)` pair `scrape_url` returns. */
  datatype ScrapeResult = ScrapeResult(text: Option<string>, error: Option<string>)

  /**
   * `scrape_url(url)`. `html` is what `_fetch_html` returned (None when the request failed),
   * `extracted` what Trafilatura would extract from it.
   */
  function ScrapeUrl(url: string, html: Option<string>, extracted: Option<string>, firecrawl: Firecrawl): (r: ScrapeResult)
    ensures r.text.Some? != r.error.Some?
    ensures r.text.Some? ==> |r.text.value| > MinExtractedLength
    ensures !Truthy(html) ==> r == ScrapeResult(None, Some("Failed to fetch HTML content from " + url + "."))
    ensures Truthy(html) && r.error.Some? ==>
      r.error == Some("Failed to extract content from " + url + " after trying multiple methods.")
  {
    if !Truthy(html) then ScrapeResult(None, Some("Failed to fetch HTML content from " + url + "."))
    else match Accept(extracted)
      case Some(text) => ScrapeResult(Some(text), None)
      case None =>
        match ExtractWithFirecrawl(firecrawl)
        case Some(text) => ScrapeResult(Some(text), None)
        case None => ScrapeResult(None, Some("Failed to extract content from " + url + " after trying multiple methods."))
  }

  /** The first candidate that passes the length gate, in the order given. */
  function FirstAccepted(candidates: seq<Option<string>>): (r: Option<string>)
    ensures r.None? <==> forall i :: 0 <= i < |candidates| ==> Accept(candidates[i]).None?
    ensures r.Some? ==> exists i ::
      && 0 <= i < |candidates| && Accept(candidates[i]) == r
      && forall j :: 0 <= j < i ==> Accept(candidates[j]).None?
  {
    if |candidates| == 0 then None
    else if Accept(candidates[0]).Some? then Accept(candidates[0])
    else FirstAccepted(candidates[1..])
  }

  /**
   * Once a page is fetched, the text is the first extractor output that passes the length gate,
   * Trafilatura before Firecrawl.
   */
  lemma ScrapeIsFirstAccepted(url: string, html: Option<string>, extracted: Option<string>, firecrawl: Firecrawl)
    requires Truthy(html)
    ensures ScrapeUrl(url, html, extracted, firecrawl).text == FirstAccepted([extracted, ExtractWithFirecrawl(firecrawl)])
  {
    var cs := [extracted, ExtractWithFirecrawl(firecrawl)];
    assert cs[1..] == [ExtractWithFirecrawl(firecrawl)];
    assert cs[1..][1..] == [];
  }

  /** Without a page nothing is extracted: the extractors' outputs do not matter. */
  lemma NoPageNoExtraction(url: string, html: Option<string>, e1: Option<string>, f1: Firecrawl, e2: Option<string>, f2: Firecrawl)
    requires !Truthy(html)
    ensures ScrapeUrl(url, html, e1, f1) == ScrapeUrl(url, html, e2, f2)
    ensures ScrapeUrl(url, html, e1, f1).text.None?
  {
  }

  /** Accepted Trafilatura text is returned as is, and Firecrawl is not consulted. */
  lemma TrafilaturaFirst(url: string, html: Option<string>, extracted: Option<string>, f1: Firecrawl, f2: Firecrawl)
    requires Truthy(html) && Accept(extracted).Some?
    ensures ScrapeUrl(url, html, extracted, f1) == ScrapeResult(extracted, None)
    ensures ScrapeUrl(url, html, extracted, f1) == ScrapeUrl(url, html, extracted, f2)
  {
  }
}

=== FILE: stable_sort.dfy ===
/**
 * Python's `list.sort(key=...)`: an ordering by key that keeps elements with equal keys in their
 * original order. The model is an insertion sort; the lemmas state what Python promises of the
 * result — ordered by key, a permutation of the input, and stable.
 */
module StableSort {

  predicate Sorted<T>(s: seq<T>, key: T -> int) {
    forall i, j :: 0 <= i < j < |s| ==> key(s[i]) <= key(s[j])
  }

  /** The elements of `s` whose key is `k`, in their order in `s`. */
  function WithKey<T>(s: seq<T>, key: T -> int, k: int): (r: seq<T>)
    ensures |r| <= |s|
  {
    if |s| == 0 then []
    else (if key(s[0]) == k then [s[0]] else []) + WithKey(s[1..], key, k)
  }

  /** Puts `x` after every element of the sorted `t` whose key is not larger than its own. */
  function Insert<T>(x: T, t: seq<T>, key: T -> int): (r: seq<T>)
    ensures |r| == |t| + 1
    ensures multiset(r) == multiset(t) + multiset{x}
  {
    if |t| == 0 then [x]
    else if key(x) < key(t[0]) then [x] + t
    else
      assert t == [t[0]] + t[1..];
      [t[0]] + Insert(x, t[1..], key)
  }

  /** `sorted(s, key=key)`. */
  function SortBy<T>(s: seq<T>, key: T -> int): (r: seq<T>)
    ensures |r| == |s|
    ensures multiset(r) == multiset(s)
  {
    if |s| == 0 then []
    else
      SplitLast(s);
      Insert(s[|s| - 1], SortBy(s[..|s| - 1], key), key)
  }

  lemma SplitLast<T>(s: seq<T>)
    requires |s| > 0
    ensures s == s[..|s| - 1] + [s[|s| - 1]]
  {
  }

  lemma AppendAssoc<T>(a: seq<T>, b: seq<T>, c: seq<T>)
    ensures a + (b + c) == (a + b) + c
  {
  }

  // ---------------------------------------------------------------------------------------------
  // Order
  // ---------------------------------------------------------------------------------------------

  /** Every element of `Insert(x, t)` is `x` or an element of `t`. */
  lemma {:induction false} InsertElements<T>(x: T, t: seq<T>, key: T -> int)
    ensures forall y :: y in Insert(x, t, key) ==> y == x || y in t
  {
    var r := Insert(x, t, key);
    forall y | y in r
      ensures y == x || y in t
    {
      assert y in multiset(r);
    }
  }

  lemma {:induction false} InsertSorted<T>(x: T, t: seq<T>, key: T -> int)
    requires Sorted(t, key)
    ensures Sorted(Insert(x, t, key), key)
  {
    if |t| > 0 && key(x) >= key(t[0]) {
      var rest := Insert(x, t[1..], key);
      InsertSorted(x, t[1..], key);
      InsertElements(x, t[1..], key);
      var r := [t[0]] + rest;
      forall i, j | 0 <= i < j < |r|
        ensures key(r[i]) <= key(r[j])
      {
        if i == 0 {
          assert r[j] == rest[j - 1];
          assert r[j] in rest;
          if r[j] != x {
            assert r[j] in t[1..];
            var m :| 0 <= m < |t[1..]| && t[1..][m] == r[j];
            assert t[m + 1] == r[j];
          }
        } else {
          assert r[i] == rest[i - 1] && r[j] == rest[j - 1];
        }
      }
    }
  }

  /** The result of `SortBy` is ordered by key. */
  lemma {:induction false} SortBySorted<T>(s: seq<T>, key: T -> int)
    ensures Sorted(SortBy(s, key), key)
  {
    if |s| > 0 {
      SortBySorted(s[..|s| - 1], key);
      InsertSorted(s[|s| - 1], SortBy(s[..|s| - 1], key), key);
    }
  }

  // ---------------------------------------------------------------------------------------------
  // Stability
  // ---------------------------------------------------------------------------------------------

  lemma {:induction false} WithKeyAppend<T>(s: seq<T>, y: T, key: T -> int, k: int)
    ensures WithKey(s + [y], key, k) == WithKey(s, key, k) + (if key(y) == k then [y] else [])
  {
    if |s| == 0 {
      assert s + [y] == [y];
    } else {
      assert (s + [y])[0] == s[0];
      assert (s + [y])[1..] == s[1..] + [y];
      WithKeyAppend(s[1..], y, key, k);
      var head := if key(s[0]) == k then [s[0]] else [];
      var tail := if key(y) == k then [y] else [];
      assert WithKey(s + [y], key, k) == head + (WithKey(s[1..], key, k) + tail);
      AppendAssoc(head, WithKey(s[1..], key, k), tail);
    }
  }

  /** A sorted sequence that starts above `k` has no element with key `k`. */
  lemma {:induction false} WithKeyAbove<T>(t: seq<T>, key: T -> int, k: int)
    requires Sorted(t, key)
    requires |t| > 0 ==> k < key(t[0])
    ensures WithKey(t, key, k) == []
  {
    if |t| > 0 {
      assert Sorted(t[1..], key);
      WithKeyAbove(t[1..], key, k);
    }
  }

  lemma WithKeyCons<T>(y: T, s: seq<T>, key: T -> int, k: int)
    ensures WithKey([y] + s, key, k) == (if key(y) == k then [y] else []) + WithKey(s, key, k)
  {
    assert ([y] + s)[0] == y;
    assert ([y] + s)[1..] == s;
  }

  /** `x` lands behind every element of `t` that has the same key. */
  lemma {:induction false} InsertKeepsTies<T>(x: T, t: seq<T>, key: T -> int, k: int)
    requires Sorted(t, key)
    ensures WithKey(Insert(x, t, key), key, k)
         == WithKey(t, key, k) + (if key(x) == k then [x] else [])
  {
    var tail := if key(x) == k then [x] else [];
    if |t| == 0 {
      assert Insert(x, t, key) == [x] + t;
      WithKeyCons(x, t, key, k);
    } else if key(x) < key(t[0]) {
      assert Insert(x, t, key) == [x] + t;
      WithKeyCons(x, t, key, k);
      if key(x) == k {
        WithKeyAbove(t, key, k);
        assert WithKey(t, key, k) + tail == [x];
      } else {
        assert WithKey(t, key, k) + tail == WithKey(t, key, k);
      }
    } else {
      assert Sorted(t[1..], key);
      InsertKeepsTies(x, t[1..], key, k);
      var rest := Insert(x, t[1..], key);
      assert Insert(x, t, key) == [t[0]] + rest;
      WithKeyCons(t[0], rest, key, k);
      assert t == [t[0]] + t[1..];
      WithKeyCons(t[0], t[1..], key, k);
      var head := if key(t[0]) == k then [t[0]] else [];
      AppendAssoc(head, WithKey(t[1..], key, k), tail);
    }
  }

  /** Elements with equal keys keep their relative order: Python's sort is stable. */
  lemma {:induction false} SortByStable<T>(s: seq<T>, key: T -> int, k: int)
    ensures WithKey(SortBy(s, key), key, k) == WithKey(s, key, k)
  {
    if |s| > 0 {
      var init, last := s[..|s| - 1], s[|s| - 1];
      SortByStable(init, key, k);
      SortBySorted(init, key);
      InsertKeepsTies(last, SortBy(init, key), key, k);
      SplitLast(s);
      WithKeyAppend(init, last, key, k);
    }
  }

  /** Sorting a sequence that is already ordered by key changes nothing. */
  lemma {:induction false} SortBySortedIsIdentity<T>(s: seq<T>, key: T -> int)
    requires Sorted(s, key)
    ensures SortBy(s, key) == s
  {
    if |s| > 0 {
      var init, last := s[..|s| - 1], s[|s| - 1];
      assert Sorted(init, key);
      SortBySortedIsIdentity(init, key);
      assert forall i :: 0 <= i < |init| ==> key(init[i]) <= key(last) by {
        forall i | 0 <= i < |init| ensures key(init[i]) <= key(last) {
          assert init[i] == s[i];
        }
      }
      InsertAtEnd(last, init, key);
      assert SortBy(s, key) == Insert(last, SortBy(init, key), key);
      SplitLast(s);
    }
  }

  /** An element whose key is at least every key of `t` goes to the end. */
  lemma {:induction false} InsertAtEnd<T>(x: T, t: seq<T>, key: T -> int)
    requires forall i :: 0 <= i < |t| ==> key(t[i]) <= key(x)
    ensures Insert(x, t, key) == t + [x]
  {
    if |t| > 0 {
      InsertAtEnd(x, t[1..], key);
      assert key(x) >= key(t[0]);
      assert Insert(x, t, key) == [t[0]] + Insert(x, t[1..], key);
      assert t == [t[0]] + t[1..];
      assert [t[0]] + (t[1..] + [x]) == t + [x];
    }
  }
}

=== FILE: twitter.dfy ===
/**
 * `fetch_tweet_thread` of tools/twitter_api_tool.py: find the status ID in the URL, fetch the
 * root tweet and (when it belongs to a longer conversation) the rest of the thread, order the
 * tweets by creation time and print them one entry per tweet.
 *
 * The two HTTP requests are parameters: what each returned, or how it failed.
 */
module Twitter {
  import opened Wrappers
  import opened PyStr
  import TwitterTime
  import StableSort

  // ---------------------------------------------------------------------------------------------
  // Tweet ID
  // ---------------------------------------------------------------------------------------------

  /** Length of the run of ASCII digits starting at index `j`. */
  function DigitsFrom(s: string, j: nat): (k: nat)
    requires j <= |s|
    ensures j + k <= |s|
    ensures forall i :: j <= i < j + k ==> IsDigit(s[i])
    ensures j + k == |s| || !IsDigit(s[j + k])
    decreases |s| - j
  {
    if j < |s| && IsDigit(s[j]) then 1 + DigitsFrom(s, j + 1) else 0
  }

  /**
   * Where the ID would start if `/status(?:es)?/(\d+)` matched at `i`: the optional "es" is
   * tried first, and the two spellings cannot both occur at one index.
   */
  function IdStart(url: string, i: nat): nat {
    if OccursAt(url, "/statuses/", i) then i + 10 else i + 8
  }

  /** The pattern matches at index `i`: "/statuses/" or "/status/", then at least one digit. */
  predicate StatusAt(url: string, i: nat) {
    && (OccursAt(url, "/statuses/", i) || OccursAt(url, "/status/", i))
    && IdStart(url, i) < |url| && IsDigit(url[IdStart(url, i)])
  }

  function FirstStatus(url: string, from: nat): (r: Option<nat>)
    requires from <= |url|
    ensures r.Some? ==> from <= r.value < |url| && StatusAt(url, r.value)
    ensures r.Some? ==> forall k :: from <= k < r.value ==> !StatusAt(url, k)
    ensures r.None? ==> forall k :: from <= k <= |url| ==> !StatusAt(url, k)
    decreases |url| - from
  {
    if StatusAt(url, from) then Some(from)
    else if from == |url| then None
    else FirstStatus(url, from + 1)
  }

  /**
   * `id` is the group the pattern captures when its leftmost match starts at `i`: the whole run
   * of digits after "/status/" or "/statuses/".
   */
  predicate LeftmostIdAt(url: string, i: nat, id: string) {
    && i < |url| && StatusAt(url, i)
    && (forall k :: 0 <= k < i ==> !StatusAt(url, k))
    && IdStart(url, i) + |id| <= |url|
    && url[IdStart(url, i)..IdStart(url, i) + |id|] == id
    && (IdStart(url, i) + |id| == |url| || !IsDigit(url[IdStart(url, i) + |id|]))
  }

  /** `re.search(r"/status(?:es)?/(\d+)", url).group(1)`: the digits after the leftmost match. */
  function ExtractTweetId(url: string): (r: Option<string>)
    ensures r.None? <==> forall k :: 0 <= k <= |url| ==> !StatusAt(url, k)
  {
    match FirstStatus(url, 0)
    case None => None
    case Some(i) => Some(IdText(url, i))
  }

  /** The digit run after the match at `i`. */
  function IdText(url: string, i: nat): string
    requires IdStart(url, i) <= |url|
  {
    url[IdStart(url, i)..IdStart(url, i) + DigitsFrom(url, IdStart(url, i))]
  }

  /** The ID found is a non-empty digit run, the group of the leftmost match of the pattern. */
  lemma ExtractedIdIsLeftmost(url: string)
    ensures var r := ExtractTweetId(url);
      r.Some? ==>
        && |r.value| > 0 && (forall j :: 0 <= j < |r.value| ==> IsDigit(r.value[j]))
        && exists i :: LeftmostIdAt(url, i, r.value)
  {
    match FirstStatus(url, 0)
    case None =>
    case Some(i) =>
      FirstStatusAt(url, i);
      IdAtMatch(url, i);
  }

  /** The digit run after the leftmost match of the pattern is the group it captures. */
  lemma IdAtMatch(url: string, i: nat)
    requires i < |url| && StatusAt(url, i)
    requires forall k :: 0 <= k < i ==> !StatusAt(url, k)
    ensures var id := IdText(url, i);
      && |id| > 0 && (forall k :: 0 <= k < |id| ==> IsDigit(id[k]))
      && LeftmostIdAt(url, i, id)
  {
    var j := IdStart(url, i);
    var n := DigitsFrom(url, j);
    var id := IdText(url, i);
    assert id == url[j..j + n];
    assert |id| == n;
    assert forall k :: 0 <= k < n ==> id[k] == url[j + k];
    assert url[j..j + |id|] == id;
  }

  /**
   * The ID of a status URL: when the text before "/status/" does not itself contain "/status",
   * the ID is the digit run right after it, whatever follows the run.
   */
  lemma {:induction false} TweetIdOfStatusUrl(prefix: string, id: string, rest: string)
    requires forall k :: !OccursAt(prefix, "/status", k)
    requires |id| > 0 && forall j :: 0 <= j < |id| ==> IsDigit(id[j])
    requires rest == "" || !IsDigit(rest[0])
    ensures ExtractTweetId(prefix + "/status/" + id + rest) == Some(id)
  {
    var url := prefix + "/status/" + id + rest;
    var p := |prefix|;
    StatusAfterPrefix(prefix, id, rest);
    forall k | 0 <= k < p
      ensures !StatusAt(url, k)
    {
      NoStatusBefore(prefix, url, k);
    }
    FirstStatusIs(url, p);
    FirstStatusAt(url, p);
    IdAfterPrefix(prefix, id, rest);
  }

  /** A match with none before it is the one the search finds, and its digit run is the ID. */
  lemma FirstStatusAt(url: string, p: nat)
    requires p < |url| && FirstStatus(url, 0) == Some(p)
    ensures ExtractTweetId(url) == Some(IdText(url, p))
  {
  }

  lemma FirstStatusIs(url: string, p: nat)
    requires p < |url| && StatusAt(url, p)
    requires forall k :: 0 <= k < p ==> !StatusAt(url, k)
    ensures FirstStatus(url, 0) == Some(p)
  {
    var r := FirstStatus(url, 0);
    assert r.None? ==> !StatusAt(url, p);
    assert r.Some?;
    assert r.value >= p;
    assert r.value > p ==> !StatusAt(url, p);
  }

  /** The pattern matches right after the prefix, spelled "/status/". */
  lemma StatusAfterPrefix(prefix: string, id: string, rest: string)
    requires |id| > 0 && IsDigit(id[0])
    ensures var url := prefix + "/status/" + id + rest;
      && |url| >= |prefix| + 8 && url[|prefix|..|prefix| + 8] == "/status/" && url[..|prefix|] == prefix
      && StatusAt(url, |prefix|) && IdStart(url, |prefix|) == |prefix| + 8
  {
    var url := prefix + "/status/" + id + rest;
    var p := |prefix|;
    assert url[p..p + 8] == "/status/";
    assert url[..p] == prefix;
    assert !OccursAt(url, "/statuses/", p) by {
      assert url[p + 7] == '/';
    }
    assert url[p + 8] == id[0];
  }

  /** The digits after "/status/" are exactly the ID. */
  lemma IdAfterPrefix(prefix: string, id: string, rest: string)
    requires forall j :: 0 <= j < |id| ==> IsDigit(id[j])
    requires rest == "" || !IsDigit(rest[0])
    ensures var url := prefix + "/status/" + id + rest;
      && |prefix| + 8 + |id| <= |url|
      && DigitsFrom(url, |prefix| + 8) == |id|
      && url[|prefix| + 8..|prefix| + 8 + |id|] == id
  {
    var url := prefix + "/status/" + id + rest;
    var p := |prefix|;
    assert forall j :: p + 8 <= j < p + 8 + |id| ==> url[j] == id[j - (p + 8)];
    if rest != "" {
      assert url[p + 8 + |id|] == rest[0];
    }
    DigitsFromExact(url, p + 8, |id|);
    assert url[p + 8..p + 8 + |id|] == id;
  }

  /** No match starts inside a prefix free of "/status" when "/status/" follows it. */
  lemma NoStatusBefore(prefix: string, url: string, k: nat)
    requires forall m :: !OccursAt(prefix, "/status", m)
    requires |url| >= |prefix| + 8 && url[|prefix|..|prefix| + 8] == "/status/"
    requires url[..|prefix|] == prefix
    requires k < |prefix|
    ensures !StatusAt(url, k)
  {
    var p := |prefix|;
    StatusAtSpellsStatus(url, k);
    if k + 7 <= |url| {
      if k + 7 <= p {
        assert url[k..k + 7] == prefix[k..k + 7];
        assert !OccursAt(prefix, "/status", k);
      } else {
        assert url[p..p + 8][0] == '/';
        assert url[k..k + 7][p - k] == url[p];
      }
      assert url[k..k + 7] != "/status";
    }
  }

  /** Both spellings the pattern accepts begin with "/status". */
  lemma StatusAtSpellsStatus(url: string, k: nat)
    ensures StatusAt(url, k) ==> k + 7 <= |url| && url[k..k + 7] == "/status"
  {
    if OccursAt(url, "/statuses/", k) {
      assert url[k..k + 7] == url[k..k + 10][..7];
    } else if OccursAt(url, "/status/", k) {
      assert url[k..k + 7] == url[k..k + 8][..7];
    }
  }

  lemma DigitsFromExact(s: string, j: nat, n: nat)
    requires j + n <= |s|
    requires forall i :: j <= i < j + n ==> IsDigit(s[i])
    requires j + n == |s| || !IsDigit(s[j + n])
    ensures DigitsFrom(s, j) == n
    decreases n
  {
    if n > 0 {
      DigitsFromExact(s, j + 1, n - 1);
    }
  }

  // ---------------------------------------------------------------------------------------------
  // API replies
  // ---------------------------------------------------------------------------------------------

  /**
   * One tweet object of the API's JSON, with the keys the tool reads; an absent key is None.
   * `userName` is the `userName` of the tweet's `author` object.
   */
  datatype Tweet = Tweet(
    id: Option<string>,
    createdAt: Option<string>,
    userName: Option<string>,
    text: Option<string>,
    conversationId: Option<string>)

  /** How one request to the API ended. */
  datatype ApiReply =
    | NetworkError(reason: string)  // `requests` raised: no connection, an HTTP error status, a body that is not JSON
    | Unexpected(reason: string)    // any other exception while reading the reply
    | Json(status: Option<string>, tweets: seq<Tweet>, msg: Option<string>)

  /** The reply reports "success" and holds at least one tweet. */
  predicate Succeeded(reply: ApiReply) {
    reply.Json? && reply.status == Some("success") && |reply.tweets| > 0
  }

  /** The module-level key: `X_API_KEY` when set and non-empty, else `X-API-KEY`. */
  function ApiKey(underscore: Option<string>, hyphen: Option<string>): (r: Option<string>)
    ensures Truthy(r) <==> Truthy(underscore) || Truthy(hyphen)
    ensures Truthy(underscore) ==> r == underscore
    ensures !Truthy(underscore) ==> r == hyphen
  {
    if Truthy(underscore) then underscore else hyphen
  }

  // ---------------------------------------------------------------------------------------------
  // The thread
  // ---------------------------------------------------------------------------------------------

  /** The tweets of `ts` other than the one with ID `tweetId`, in their order. */
  function Without(ts: seq<Tweet>, tweetId: string): (r: seq<Tweet>)
    ensures |r| <= |ts|
    ensures forall t :: t in r <==> t in ts && t.id != Some(tweetId)
  {
    if |ts| == 0 then []
    else (if ts[0].id != Some(tweetId) then [ts[0]] else []) + Without(ts[1..], tweetId)
  }

  /** The root tweet opens a conversation other than itself, so the thread is looked up. */
  predicate AsksForThread(root: Tweet, tweetId: string) {
    Truthy(root.conversationId) && root.conversationId.value != tweetId
  }

  /** The conversation's tweets that join the thread: none unless the search succeeded. */
  function FollowUps(conversation: ApiReply, tweetId: string): (r: seq<Tweet>)
    ensures forall i :: 0 <= i < |r| ==> r[i].id != Some(tweetId)
    ensures !Succeeded(conversation) ==> r == []
    ensures Succeeded(conversation) ==>
      forall t :: t in r <==> t in conversation.tweets && t.id != Some(tweetId)
  {
    if Succeeded(conversation) then Without(conversation.tweets, tweetId) else []
  }

  /** The tweets collected before sorting: the root, then what the conversation adds. */
  function Collected(root: Tweet, tweetId: string, conversation: ApiReply): (r: seq<Tweet>)
    ensures |r| >= 1 && r[0] == root
    ensures forall i :: 1 <= i < |r| ==> r[i].id != Some(tweetId)
    ensures !AsksForThread(root, tweetId) || !Succeeded(conversation) ==> r == [root]
  {
    [root] + (if AsksForThread(root, tweetId) then FollowUps(conversation, tweetId) else [])
  }

  const DefaultCreatedAt := "Thu Jan 01 00:00:00 +0000 1970"

  /** When a tweet was created, for sorting: its `createdAt` parsed, the epoch when that fails. */
  function Created(t: Tweet): TwitterTime.DateTime {
    TwitterTime.ParseOrEpoch(t.createdAt.GetOr(DefaultCreatedAt))
  }

  function SortKey(t: Tweet): int {
    TwitterTime.Key(Created(t))
  }

  /** The collected tweets in the order they are printed. */
  function Ordered(ts: seq<Tweet>): (r: seq<Tweet>)
    ensures |r| == |ts| && multiset(r) == multiset(ts)
  {
    StableSort.SortBy(ts, SortKey)
  }

  /** What an entry prints for a tweet without an author name, and without a creation time. */
  const UnknownUser := "unknown_user"
  const UnknownTime := "Unknown time"

  /** The entry printed for the `i`-th (from 0) of `n` tweets. */
  function Entry(i: nat, n: nat, t: Tweet): (r: string)
    ensures StartsWith(r, "Tweet " + NatToString(i + 1) + "/" + NatToString(n) + " by @")
    ensures EndsWith(r, "\n---")
  {
    var head := "Tweet " + NatToString(i + 1) + "/" + NatToString(n) + " by @";
    var r := head + (t.userName.GetOr(UnknownUser) + " (" + t.createdAt.GetOr(UnknownTime) + "):\n"
                     + Strip(t.text.GetOr("")) + "\n---");
    assert r[..|head|] == head;
    r
  }

  /**
   * The layout of an entry: "Tweet i/n by @user (created):", a line break, the stripped text, and
   * "---" on a line of its own.
   */
  lemma EntryLayout(i: nat, n: nat, t: Tweet)
    ensures var head := "Tweet " + NatToString(i + 1) + "/" + NatToString(n) + " by @";
      StartsWith(Entry(i, n, t), head + t.userName.GetOr(UnknownUser) + " (" + t.createdAt.GetOr(UnknownTime) + "):\n")
    ensures EndsWith(Entry(i, n, t), "):\n" + Strip(t.text.GetOr("")) + "\n---")
  {
    var head := "Tweet " + NatToString(i + 1) + "/" + NatToString(n) + " by @";
    var user, created := t.userName.GetOr(UnknownUser), t.createdAt.GetOr(UnknownTime);
    assert Entry(i, n, t) == head + (user + " (" + created + "):\n" + Strip(t.text.GetOr("")) + "\n---");
    EntryPieces(head, user, created, Strip(t.text.GetOr("")));
  }

  /** A missing user name reads "unknown_user", and a missing creation time "Unknown time". */
  lemma EntryDefaults(i: nat, n: nat, t: Tweet)
    ensures t.userName.None? ==>
      StartsWith(Entry(i, n, t), "Tweet " + NatToString(i + 1) + "/" + NatToString(n) + " by @" + UnknownUser + " (")
    ensures t.createdAt.None? ==> Contains(Entry(i, n, t), " (" + UnknownTime + "):\n")
  {
    var head := "Tweet " + NatToString(i + 1) + "/" + NatToString(n) + " by @";
    var user, created := t.userName.GetOr(UnknownUser), t.createdAt.GetOr(UnknownTime);
    var e := Entry(i, n, t);
    assert e == head + (user + " (" + created + "):\n" + Strip(t.text.GetOr("")) + "\n---");
    EntryPieces(head, user, created, Strip(t.text.GetOr("")));
    OccursInside(e, " (" + created + "):\n", |head| + |user|);
  }

  /** Where the pieces of an entry sit. */
  lemma EntryPieces(head: string, user: string, created: string, text: string)
    ensures var e := head + (user + " (" + created + "):\n" + text + "\n---");
      && StartsWith(e, head + user + " (" + created + "):\n")
      && StartsWith(e, head + user + " (")
      && OccursAt(e, " (" + created + "):\n", |head| + |user|)
      && EndsWith(e, "):\n" + text + "\n---")
  {
    var line := head + user + " (" + created + "):\n";
    var e := head + (user + " (" + created + "):\n" + text + "\n---");
    assert e == line + (text + "\n---");
    assert e == (head + user) + (" (" + created + "):\n") + (text + "\n---");
    assert e == head + user + " (" + created + ("):\n" + text + "\n---");
  }

  /** One entry per tweet, numbered from 1 in list order. */
  function Entries(ts: seq<Tweet>): (r: seq<string>)
    ensures |r| == |ts|
    ensures forall i :: 0 <= i < |ts| ==> r[i] == Entry(i, |ts|, ts[i])
  {
    seq(|ts|, i requires 0 <= i < |ts| => Entry(i, |ts|, ts[i]))
  }

  const NoKeyError := ErrorText("X_API_KEY or X-API-KEY not found in environment variables.")

  /** The root tweet was fetched: there is a key, the URL names a status, and the lookup succeeded. */
  predicate RootFetched(apiKey: Option<string>, url: string, main: ApiReply) {
    Truthy(apiKey) && ExtractTweetId(url).Some? && Succeeded(main)
  }

  /**
   * `fetch_tweet_thread(url)`, with the key and the two request outcomes as parameters. The
   * conversation search is made only when the root tweet asks for it; otherwise `conversation`
   * is never looked at.
   */
  function FetchTweetThread(apiKey: Option<string>, url: string, main: ApiReply, conversation: ApiReply): (r: string)
    ensures !Truthy(apiKey) ==> r == NoKeyError
    ensures Truthy(apiKey) && ExtractTweetId(url).None? ==>
      r == ErrorText("Could not extract Tweet ID from URL: " + url)
    ensures !RootFetched(apiKey, url, main) ==> StartsWith(r, "Error: ")
    ensures RootFetched(apiKey, url, main) ==> StartsWith(r, "Tweet 1/")
  {
    if !Truthy(apiKey) then NoKeyError
    else match ExtractTweetId(url)
    case None => ErrorText("Could not extract Tweet ID from URL: " + url)
    case Some(tweetId) => ThreadOf(tweetId, main, conversation)
  }

  /** What follows the lookup of the root tweet `tweetId`: an error when it failed, else the thread text. */
  function ThreadOf(tweetId: string, main: ApiReply, conversation: ApiReply): (r: string)
    ensures !Succeeded(main) ==> StartsWith(r, "Error: ")
    ensures Succeeded(main) ==> r == ThreadText(main.tweets[0], tweetId, conversation)
  {
    match main
    case NetworkError(e) => ErrorText("Network or API error fetching main tweet " + tweetId + ": " + e)
    case Unexpected(e) => ErrorText("Unexpected error processing main tweet response: " + e)
    case Json(status, tweets, msg) =>
      if status != Some("success") || |tweets| == 0 then
        ErrorText("Failed to fetch main tweet " + tweetId + ". API Status: " + status.GetOr("None")
                + ", Msg: " + msg.GetOr("Unknown error"))
      else ThreadText(tweets[0], tweetId, conversation)
  }

  /**
   * The text printed for a fetched thread: the entries of the ordered tweets, one per line. The
   * list always holds the root tweet, so the tool's "No tweet data could be formatted" error
   * cannot arise.
   */
  function ThreadText(root: Tweet, tweetId: string, conversation: ApiReply): (r: string)
    ensures StartsWith(r, "Tweet 1/")
  {
    var lines := Entries(Ordered(Collected(root, tweetId, conversation)));
    FirstEntry(|lines|, Ordered(Collected(root, tweetId, conversation))[0]);
    EntriesJoined(lines);
    Strip(Join(lines, "\n"))
  }

  /** The first entry is numbered 1. */
  lemma FirstEntry(n: nat, t: Tweet)
    ensures StartsWith(Entry(0, n, t), "Tweet 1/")
  {
    var e := Entry(0, n, t);
    assert NatToString(1) == "1";
    var head := "Tweet " + NatToString(1) + "/" + NatToString(n) + " by @";
    assert e[..|head|] == head;
    assert e[..8] == head[..8];
  }

  /**
   * Joined entries start with the first entry's "Tweet 1/" and end with "---", so the final
   * `strip()` removes nothing.
   */
  lemma EntriesJoined(lines: seq<string>)
    requires |lines| > 0
    requires StartsWith(lines[0], "Tweet 1/")
    requires EndsWith(lines[|lines| - 1], "\n---")
    ensures Strip(Join(lines, "\n")) == Join(lines, "\n")
    ensures StartsWith(Join(lines, "\n"), "Tweet 1/")
  {
    var j := Join(lines, "\n");
    JoinEnds(lines, "\n");
    var first, last := lines[0], lines[|lines| - 1];
    assert j[..8] == first[..8] == "Tweet 1/";
    assert j[0] == 'T';
    assert last[|last| - 4..] == "\n---";
    assert j[|j| - 1] == last[|last| - 1] == '-';
    StripNoop(j);
  }

  // ---------------------------------------------------------------------------------------------
  // Properties
  // ---------------------------------------------------------------------------------------------

  /** The printed order is chronological and keeps tweets created at the same second in fetch order. */
  lemma {:induction false} OrderedIsChronological(ts: seq<Tweet>)
    ensures var r := Ordered(ts);
      forall i, j :: 0 <= i < |r| && 0 <= j < |r| && TwitterTime.Earlier(Created(r[i]), Created(r[j])) ==> i < j
    ensures forall k :: StableSort.WithKey(Ordered(ts), SortKey, k) == StableSort.WithKey(ts, SortKey, k)
  {
    var r := Ordered(ts);
    StableSort.SortBySorted(ts, SortKey);
    assert StableSort.Sorted(r, SortKey);
    forall i, j | 0 <= i < |r| && 0 <= j < |r| && TwitterTime.Earlier(Created(r[i]), Created(r[j]))
      ensures i < j
    {
      EarlierHasSmallerKey(r[i], r[j]);
      SortedKeysOrderIndices(r, i, j);
    }
    forall k
      ensures StableSort.WithKey(r, SortKey, k) == StableSort.WithKey(ts, SortKey, k)
    {
      StableSort.SortByStable(ts, SortKey, k);
    }
  }

  lemma EarlierHasSmallerKey(x: Tweet, y: Tweet)
    requires TwitterTime.Earlier(Created(x), Created(y))
    ensures SortKey(x) < SortKey(y)
  {
    TwitterTime.KeyIsChronological(Created(x), Created(y));
  }

  lemma SortedKeysOrderIndices(r: seq<Tweet>, i: nat, j: nat)
    requires StableSort.Sorted(r, SortKey)
    requires i < |r| && j < |r| && SortKey(r[i]) < SortKey(r[j])
    ensures i < j
  {
  }

  /** Once the root is fetched, the reply is the thread text built around it. */
  lemma FetchedReplyIsThreadText(apiKey: Option<string>, url: string, main: ApiReply, conversation: ApiReply)
    requires RootFetched(apiKey, url, main)
    ensures FetchTweetThread(apiKey, url, main, conversation)
         == ThreadText(main.tweets[0], ExtractTweetId(url).value, conversation)
  {
  }

  /** The thread text is the entries joined by line breaks: the final `strip()` removes nothing. */
  lemma ThreadTextIsJoin(root: Tweet, tweetId: string, conversation: ApiReply)
    ensures ThreadText(root, tweetId, conversation) == Join(Entries(Ordered(Collected(root, tweetId, conversation))), "\n")
  {
    var printed := Ordered(Collected(root, tweetId, conversation));
    var lines := Entries(printed);
    FirstEntry(|lines|, printed[0]);
    EntriesJoined(lines);
  }

  /** Every collected tweet is printed once, the root among them, and no other printed tweet has the root's ID. */
  lemma PrintedTweets(root: Tweet, tweetId: string, conversation: ApiReply)
    ensures var collected := Collected(root, tweetId, conversation);
      var printed := Ordered(collected);
      && multiset(printed) == multiset(collected)
      && root in printed
      && (forall t :: t in printed && t.id == Some(tweetId) ==> t == root)
  {
    var collected := Collected(root, tweetId, conversation);
    var printed := Ordered(collected);
    assert root in multiset(printed) by {
      assert collected[0] == root;
    }
    forall t | t in printed && t.id == Some(tweetId)
      ensures t == root
    {
      assert t in multiset(collected);
      var i :| 0 <= i < |collected| && collected[i] == t;
    }
  }

  /**
   * After a successful root lookup the reply is the entries of the collected tweets, one per
   * line, in chronological order: every collected tweet is printed exactly once and only the
   * root carries the requested ID.
   */
  lemma ThreadContents(apiKey: Option<string>, url: string, main: ApiReply, conversation: ApiReply)
    requires RootFetched(apiKey, url, main)
    ensures var tweetId := ExtractTweetId(url).value;
      var collected := Collected(main.tweets[0], tweetId, conversation);
      var printed := Ordered(collected);
      && FetchTweetThread(apiKey, url, main, conversation) == Join(Entries(printed), "\n")
      && multiset(printed) == multiset(collected)
      && main.tweets[0] in printed
      && (forall t :: t in printed && t.id == Some(tweetId) ==> t == main.tweets[0])
  {
    var tweetId := ExtractTweetId(url).value;
    FetchedReplyIsThreadText(apiKey, url, main, conversation);
    ThreadTextIsJoin(main.tweets[0], tweetId, conversation);
    PrintedTweets(main.tweets[0], tweetId, conversation);
  }

  /**
   * When the root tweet is its own conversation, or the search fails in any way, the reply is
   * the root's entry alone, numbered 1/1; a failed search is never fatal.
   */
  lemma RootAloneWithoutThread(apiKey: Option<string>, url: string, main: ApiReply, conversation: ApiReply)
    requires RootFetched(apiKey, url, main)
    requires !AsksForThread(main.tweets[0], ExtractTweetId(url).value) || !Succeeded(conversation)
    ensures FetchTweetThread(apiKey, url, main, conversation) == Entry(0, 1, main.tweets[0])
  {
    var root := main.tweets[0];
    var tweetId := ExtractTweetId(url).value;
    FetchedReplyIsThreadText(apiKey, url, main, conversation);
    ThreadTextIsJoin(root, tweetId, conversation);
    assert Collected(root, tweetId, conversation) == [root];
    assert Ordered([root]) == [root];
    assert Entries([root]) == [Entry(0, 1, root)];
  }

  /** The conversation search is consulted only when the root opens a conversation other than itself. */
  lemma SearchOnlyWhenAsked(apiKey: Option<string>, url: string, main: ApiReply, c1: ApiReply, c2: ApiReply)
    requires !RootFetched(apiKey, url, main) || !AsksForThread(main.tweets[0], ExtractTweetId(url).value)
    ensures FetchTweetThread(apiKey, url, main, c1) == FetchTweetThread(apiKey, url, main, c2)
  {
    if RootFetched(apiKey, url, main) {
      RootAloneWithoutThread(apiKey, url, main, c1);
      RootAloneWithoutThread(apiKey, url, main, c2);
    } else if Truthy(apiKey) && ExtractTweetId(url).Some? {
      FailedLookupIgnoresConversation(ExtractTweetId(url).value, main, c1, c2);
    }
  }

  lemma FailedLookupIgnoresConversation(tweetId: string, main: ApiReply, c1: ApiReply, c2: ApiReply)
    requires !Succeeded(main)
    ensures ThreadOf(tweetId, main, c1) == ThreadOf(tweetId, main, c2)
  {
  }

  /** A tweet without `createdAt`, or with one that does not parse, is dated at the epoch. */
  lemma CreatedFallsBackToEpoch(t: Tweet)
    requires t.createdAt.None? || TwitterTime.Parse(t.createdAt.value).None?
    ensures Created(t) == TwitterTime.Epoch
  {
    if t.createdAt.None? {
      TwitterTime.DefaultTimestampIsEpoch();
    }
  }

  /** A tweet that falls back to the epoch is printed before every tweet dated after it. */
  lemma {:induction false} EpochFallbackSortsFirst(ts: seq<Tweet>, i: nat, j: nat)
    requires i < |Ordered(ts)| && j < |Ordered(ts)|
    requires Ordered(ts)[i].createdAt.None? || TwitterTime.Parse(Ordered(ts)[i].createdAt.value).None?
    requires TwitterTime.Earlier(TwitterTime.Epoch, Created(Ordered(ts)[j]))
    ensures i < j
  {
    CreatedFallsBackToEpoch(Ordered(ts)[i]);
    OrderedIsChronological(ts);
  }
}

=== FILE: twitter_time.dfy ===
/**
 * `_parse_twitter_datetime`: `datetime.strptime(s, "%a %b %d %H:%M:%S +0000 %Y")` with the epoch
 * as the fallback when parsing fails.
 *
 * `strptime` compiles its format into a regular expression, matches it at the start of the text,
 * rejects any text left over, and then lets `datetime` check the calendar. The model keeps that
 * structure: the format is a sequence of directives, `Scan` consumes the text directive by
 * directive, and `Parse` applies the calendar checks.
 */
module TwitterTime {
  import opened Wrappers
  import opened PyStr

  /** A naive date and time; the `+0000` of the format makes every value UTC. */
  datatype DateTime = DateTime(year: int, month: int, day: int, hour: int, minute: int, second: int)

  /** `datetime.fromtimestamp(0, tz=timezone.utc)`. */
  const Epoch := DateTime(1970, 1, 1, 0, 0, 0)

  predicate IsLeapYear(y: int) {
    y % 4 == 0 && (y % 100 != 0 || y % 400 == 0)
  }

  function DaysInMonth(y: int, m: int): (n: int)
    requires 1 <= m <= 12
    ensures 28 <= n <= 31
    ensures n == 29 <==> m == 2 && IsLeapYear(y)
  {
    if m == 2 then (if IsLeapYear(y) then 29 else 28)
    else if m == 4 || m == 6 || m == 9 || m == 11 then 30
    else 31
  }

  /** The ranges `datetime` accepts: a second of 60 or 61 passes the pattern but not this check. */
  predicate Valid(dt: DateTime) {
    && 1 <= dt.year <= 9999
    && 1 <= dt.month <= 12
    && 1 <= dt.day <= DaysInMonth(dt.year, dt.month)
    && 0 <= dt.hour <= 23
    && 0 <= dt.minute <= 59
    && 0 <= dt.second <= 59
  }

  // ---------------------------------------------------------------------------------------------
  // Format directives
  // ---------------------------------------------------------------------------------------------

  /** One piece of the compiled format. */
  datatype Directive =
    | Abbrev(names: seq<string>)      // `%a`, `%b`: one of the three-letter names, in any letter case
    | Digits(least: nat, most: nat)   // `%d`, `%H`, `%M`, `%S` (one or two digits) and `%Y` (exactly four)
    | Blank                           // a space of the format: one or more whitespace characters
    | Text(lit: string)               // any other format character, matched as itself

  const WeekdayNames: seq<string> := ["mon", "tue", "wed", "thu", "fri", "sat", "sun"]
  const MonthNames: seq<string> := ["jan", "feb", "mar", "apr", "may", "jun", "jul", "aug", "sep", "oct", "nov", "dec"]

  /** `"%a %b %d %H:%M:%S +0000 %Y"`. */
  const TwitterFormat: seq<Directive> := [
    Abbrev(WeekdayNames), Blank, Abbrev(MonthNames), Blank, Digits(1, 2), Blank,
    Digits(1, 2), Text(":"), Digits(1, 2), Text(":"), Digits(1, 2), Blank,
    Text("+0000"), Blank, Digits(4, 4)]

  /** The directive reads a value (a name or a number). */
  predicate HasValue(d: Directive) {
    d.Abbrev? || d.Digits?
  }

  /** How many values the directives from index `i` on produce. */
  function Fields(fmt: seq<Directive>, i: nat): nat
    decreases |fmt| - i
  {
    if i >= |fmt| then 0
    else (if HasValue(fmt[i]) then 1 else 0) + Fields(fmt, i + 1)
  }

  /** Position of `w` in `names`, the first one if it occurs twice. */
  function IndexOf(names: seq<string>, w: string): (r: Option<nat>)
    ensures r.Some? ==> r.value < |names| && names[r.value] == w
    ensures r.Some? ==> forall j :: 0 <= j < r.value ==> names[j] != w
    ensures r.None? ==> forall j :: 0 <= j < |names| ==> names[j] != w
  {
    if |names| == 0 then None
    else if names[0] == w then Some(0)
    else match IndexOf(names[1..], w)
      case None => None
      case Some(k) => Some(k + 1)
  }

  /** Length of the run of ASCII digits at the front of `t`. */
  function DigitRun(t: string): (k: nat)
    ensures k <= |t|
    ensures forall i :: 0 <= i < k ==> IsDigit(t[i])
    ensures k == |t| || !IsDigit(t[k])
  {
    if |t| > 0 && IsDigit(t[0]) then 1 + DigitRun(t[1..]) else 0
  }

  /**
   * Consumes `t` with the directives `fmt` and returns the values read, or `None` when the
   * pattern does not match or text remains after it.
   *
   * Each number is read as the whole digit run in front of it: in this format every number is
   * followed by whitespace, ':' or the end of the text, so a run that the pattern's alternatives
   * cannot take whole makes the match fail, as it does here.
   */
  function Scan(t: string, fmt: seq<Directive>, i: nat): (r: Option<seq<nat>>)
    ensures r.Some? ==> |r.value| == Fields(fmt, i)
    decreases |fmt| - i
  {
    if i >= |fmt| then (if t == "" then Some([]) else None)
    else match fmt[i]
      case Blank =>
        if t != "" && IsSpace(t[0]) then Scan(t[LeadingSpaces(t)..], fmt, i + 1) else None
      case Text(lit) =>
        if StartsWith(t, lit) then Scan(t[|lit|..], fmt, i + 1) else None
      case Abbrev(names) =>
        if |t| < 3 then None
        else (match IndexOf(names, Lower(t[..3]))
              case None => None
              case Some(k) => (match Scan(t[3..], fmt, i + 1)
                               case None => None
                               case Some(vs) => Some([k] + vs)))
      case Digits(least, most) =>
        var k := DigitRun(t);
        if k < least || most < k then None
        else (match Scan(t[k..], fmt, i + 1)
              case None => None
              case Some(vs) => Some([DigitsValue(t[..k])] + vs))
  }

  /** `datetime.strptime(s, "%a %b %d %H:%M:%S +0000 %Y")`; the weekday is read but never checked against the date. */
  function Parse(s: string): (r: Option<DateTime>)
    ensures r.Some? ==> Valid(r.value)
  {
    match Scan(s, TwitterFormat, 0)
    case None => None
    case Some(v) =>
      TwitterFormatFields();
      var dt := DateTime(v[6], v[1] + 1, v[2], v[3], v[4], v[5]);
      if Valid(dt) then Some(dt) else None
  }

  /** `_parse_twitter_datetime`: the parsed time, or the epoch when parsing fails. */
  function ParseOrEpoch(s: string): (r: DateTime)
    ensures Valid(r)
    ensures Parse(s).None? ==> r == Epoch
    ensures Parse(s).Some? ==> r == Parse(s).value
  {
    match Parse(s)
    case Some(dt) => dt
    case None => Epoch
  }

  // ---------------------------------------------------------------------------------------------
  // Rendering, the inverse of scanning
  // ---------------------------------------------------------------------------------------------

  function Pow10(n: nat): (r: nat)
    ensures r >= 1
  {
    if n == 0 then 1 else 10 * Pow10(n - 1)
  }

  /** `v` in decimal, zero-padded to `width` digits. */
  function Pad(v: nat, width: nat): (r: string)
    ensures |r| == width
    ensures forall i :: 0 <= i < |r| ==> IsDigit(r[i])
  {
    if width == 0 then "" else Pad(v / 10, width - 1) + [DigitChar(v % 10)]
  }

  predicate IsLowerLetter(c: char) {
    'a' <= c <= 'z'
  }

  function UpperChar(c: char): (r: char)
    requires IsLowerLetter(c)
    ensures LowerChar(r) == c
    ensures 'A' <= r <= 'Z'
  {
    (c as int - 32) as char
  }

  /** `w` with its first letter in upper case, as Twitter writes day and month names. */
  function Capitalize(w: string): (r: string)
    ensures |r| == |w|
  {
    if |w| > 0 && IsLowerLetter(w[0]) then [UpperChar(w[0])] + w[1..] else w
  }

  /** Three lower-case ASCII letters. */
  predicate IsName(w: string) {
    |w| == 3 && IsLowerLetter(w[0]) && IsLowerLetter(w[1]) && IsLowerLetter(w[2])
  }

  /** Names of three lower-case ASCII letters, all different. */
  predicate NameList(names: seq<string>) {
    && (forall i :: 0 <= i < |names| ==> IsName(names[i]))
    && (forall i, j :: 0 <= i < j < |names| ==> names[i] != names[j])
  }

  predicate DirectiveOk(d: Directive) {
    match d
    case Abbrev(names) => NameList(names)
    case Digits(least, most) => 1 <= least <= most
    case Blank => true
    case Text(lit) => |lit| > 0
  }

  /** What comes after a number never starts with a digit, and what comes after a blank never with whitespace. */
  predicate Follows(a: Directive, b: Directive) {
    && (a.Digits? ==> !b.Digits? && !(b.Text? && |b.lit| > 0 && IsDigit(b.lit[0])))
    && (a.Blank? ==> !b.Blank? && !(b.Text? && |b.lit| > 0 && IsSpace(b.lit[0])))
  }

  /** A format whose rendering can be read back unambiguously. */
  predicate WellFormed(fmt: seq<Directive>) {
    && (forall i :: 0 <= i < |fmt| ==> DirectiveOk(fmt[i]))
    && (forall i :: 0 <= i < |fmt| - 1 ==> Follows(fmt[i], fmt[i + 1]))
  }

  /** `v` is a value directive `d` can render. */
  predicate FitsOne(d: Directive, v: nat) {
    match d
    case Abbrev(names) => v < |names|
    case Digits(_, most) => v < Pow10(most)
    case Blank => true
    case Text(_) => true
  }

  /** `vs[k..]` are values the directives from index `i` on can render. */
  predicate Fits(fmt: seq<Directive>, i: nat, vs: seq<nat>, k: nat)
    decreases |fmt| - i
  {
    && k <= |vs| && |vs| - k == Fields(fmt, i)
    && (i < |fmt| ==>
          if HasValue(fmt[i]) then FitsOne(fmt[i], vs[k]) && Fits(fmt, i + 1, vs, k + 1)
          else Fits(fmt, i + 1, vs, k))
  }

  /** The text the directives from index `i` on read as `vs[k..]`: names capitalised, numbers zero-padded to their widest form. */
  function Render(fmt: seq<Directive>, i: nat, vs: seq<nat>, k: nat): string
    decreases |fmt| - i
  {
    if i >= |fmt| then ""
    else match fmt[i]
      case Blank => " " + Render(fmt, i + 1, vs, k)
      case Text(lit) => lit + Render(fmt, i + 1, vs, k)
      case Abbrev(names) =>
        (if k < |vs| && vs[k] < |names| then Capitalize(names[vs[k]]) else "") + Render(fmt, i + 1, vs, k + 1)
      case Digits(_, most) =>
        (if k < |vs| then Pad(vs[k], most) else "") + Render(fmt, i + 1, vs, k + 1)
  }

  /** Every field of `dt` fits its width in the format, whether or not `datetime` would accept it. */
  predicate Printable(dt: DateTime, wd: nat) {
    && wd < 7 && 1 <= dt.month <= 12 && 0 <= dt.year < 10000
    && 0 <= dt.day < 100 && 0 <= dt.hour < 100 && 0 <= dt.minute < 100 && 0 <= dt.second < 100
  }

  /** Twitter's rendering of a time with weekday `wd` (0 for Monday). */
  function Format(dt: DateTime, wd: nat): string
    requires Printable(dt, wd)
  {
    Render(TwitterFormat, 0, [wd, dt.month - 1, dt.day, dt.hour, dt.minute, dt.second, dt.year], 0)
  }

  /** The Twitter format produces seven values. */
  lemma TwitterFormatFields()
    ensures Fields(TwitterFormat, 0) == 7
  {
    var f := TwitterFormat;
    assert Fields(f, 15) == 0;
    assert Fields(f, 14) == 1;
    assert Fields(f, 13) == 1;
    assert Fields(f, 12) == 1;
    assert Fields(f, 11) == 1;
    assert Fields(f, 10) == 2;
    assert Fields(f, 9) == 2;
    assert Fields(f, 8) == 3;
    assert Fields(f, 7) == 3;
    assert Fields(f, 6) == 4;
    assert Fields(f, 5) == 4;
    assert Fields(f, 4) == 5;
    assert Fields(f, 3) == 5;
    assert Fields(f, 2) == 6;
    assert Fields(f, 1) == 6;
  }

  /** The Twitter format can be read back unambiguously. */
  lemma TwitterFormatWellFormed()
    ensures WellFormed(TwitterFormat)
  {
    var f := TwitterFormat;
    NameListsHold();
    forall i | 0 <= i < |f|
      ensures DirectiveOk(f[i])
    {
      assert i == 0 || i == 1 || i == 2 || i == 3 || i == 4 || i == 5 || i == 6 || i == 7
          || i == 8 || i == 9 || i == 10 || i == 11 || i == 12 || i == 13 || i == 14;
    }
    forall i | 0 <= i < |f| - 1
      ensures Follows(f[i], f[i + 1])
    {
      assert i == 0 || i == 1 || i == 2 || i == 3 || i == 4 || i == 5 || i == 6 || i == 7
          || i == 8 || i == 9 || i == 10 || i == 11 || i == 12 || i == 13;
    }
  }

  /** The day and month names are distinct three-letter lower-case words. */
  lemma NameListsHold()
    ensures NameList(WeekdayNames) && NameList(MonthNames)
  {
    var w := WeekdayNames;
    forall i | 0 <= i < |w|
      ensures IsName(w[i])
    {
      assert i == 0 || i == 1 || i == 2 || i == 3 || i == 4 || i == 5 || i == 6;
    }
    forall i, j | 0 <= i < j < |w|
      ensures w[i] != w[j]
    {
      assert i == 0 || i == 1 || i == 2 || i == 3 || i == 4 || i == 5;
      assert j == 1 || j == 2 || j == 3 || j == 4 || j == 5 || j == 6;
    }
    var m := MonthNames;
    forall i | 0 <= i < |m|
      ensures IsName(m[i])
    {
      assert i == 0 || i == 1 || i == 2 || i == 3 || i == 4 || i == 5 || i == 6 || i == 7
          || i == 8 || i == 9 || i == 10 || i == 11;
    }
    forall i, j | 0 <= i < j < |m|
      ensures m[i] != m[j]
    {
      assert i == 0 || i == 1 || i == 2 || i == 3 || i == 4 || i == 5 || i == 6 || i == 7
          || i == 8 || i == 9 || i == 10;
      assert j == 1 || j == 2 || j == 3 || j == 4 || j == 5 || j == 6 || j == 7 || j == 8
          || j == 9 || j == 10 || j == 11;
    }
  }

  /** Values in the ranges of the Twitter format's fields can be rendered. */
  lemma TwitterFits(vs: seq<nat>)
    requires |vs| == 7 && vs[0] < 7 && vs[1] < 12
    requires vs[2] < 100 && vs[3] < 100 && vs[4] < 100 && vs[5] < 100 && vs[6] < 10000
    ensures Fits(TwitterFormat, 0, vs, 0)
    ensures Fits(TwitterFormat, 8, vs, 4)
  {
    var f := TwitterFormat;
    TwitterFormatFields();
    assert Pow10(2) == 100 && Pow10(4) == 10000;
    assert Fits(f, 15, vs, 7);
    assert Fits(f, 14, vs, 6);
    assert Fits(f, 13, vs, 6);
    assert Fits(f, 12, vs, 6);
    assert Fits(f, 11, vs, 6);
    assert Fits(f, 10, vs, 5);
    assert Fits(f, 9, vs, 5);
    assert Fits(f, 8, vs, 4);
    assert Fits(f, 7, vs, 4);
    assert Fits(f, 6, vs, 3);
    assert Fits(f, 5, vs, 3);
    assert Fits(f, 4, vs, 2);
    assert Fits(f, 3, vs, 2);
    assert Fits(f, 2, vs, 1);
    assert Fits(f, 1, vs, 1);
  }

  // ---------------------------------------------------------------------------------------------
  // Reading a rendering back
  // ---------------------------------------------------------------------------------------------

  /** The first character of a rendering shows which directive produced it. */
  lemma RenderHead(fmt: seq<Directive>, i: nat, vs: seq<nat>, k: nat)
    requires WellFormed(fmt) && Fits(fmt, i, vs, k)
    ensures i >= |fmt| ==> Render(fmt, i, vs, k) == ""
    ensures i < |fmt| ==>
      var r := Render(fmt, i, vs, k);
      && |r| > 0
      && (fmt[i].Blank? ==> r[0] == ' ')
      && (fmt[i].Text? ==> r[0] == fmt[i].lit[0])
      && (fmt[i].Abbrev? ==> 'A' <= r[0] <= 'Z')
      && (fmt[i].Digits? ==> IsDigit(r[0]))
  {
    if i < |fmt| {
      assert DirectiveOk(fmt[i]);
    }
  }

  /** A run of digits followed by a non-digit is read whole. */
  lemma {:induction false} DigitRunOfDigits(p: string, rest: string)
    requires forall j :: 0 <= j < |p| ==> IsDigit(p[j])
    requires rest == "" || !IsDigit(rest[0])
    ensures DigitRun(p + rest) == |p|
  {
    if |p| > 0 {
      assert (p + rest)[1..] == p[1..] + rest;
      DigitRunOfDigits(p[1..], rest);
    } else {
      assert p + rest == rest;
    }
  }

  lemma DigitCharValue(d: nat)
    requires d < 10
    ensures DigitValue(DigitChar(d)) == d
  {
    assert d == 0 || d == 1 || d == 2 || d == 3 || d == 4 || d == 5 || d == 6 || d == 7 || d == 8 || d == 9;
  }

  /** `int` reads a zero-padded rendering back. */
  lemma {:induction false} PadValue(v: nat, width: nat)
    requires v < Pow10(width)
    ensures DigitsValue(Pad(v, width)) == v
  {
    if width > 0 {
      var p := Pad(v, width);
      assert p[..|p| - 1] == Pad(v / 10, width - 1);
      assert p[|p| - 1] == DigitChar(v % 10);
      DivTenBelow(v, Pow10(width - 1));
      PadValue(v / 10, width - 1);
      DigitCharValue(v % 10);
      assert DigitsValue(p) == DigitsValue(Pad(v / 10, width - 1)) * 10 + DigitValue(p[|p| - 1]);
    }
  }

  lemma DivTenBelow(v: nat, n: nat)
    requires v < 10 * n
    ensures v / 10 < n && v / 10 * 10 + v % 10 == v
  {
  }

  /** A capitalised name lower-cases back to itself. */
  lemma LowerCapitalize(w: string)
    requires IsName(w)
    ensures Lower(Capitalize(w)) == w
  {
    var c := Capitalize(w);
    assert Lower(c)[0] == w[0];
    assert Lower(c)[1] == LowerChar(w[1]) == w[1];
    assert Lower(c)[2] == LowerChar(w[2]) == w[2];
  }

  /** In a list of distinct names, a name is found at its own position. */
  lemma IndexOfName(names: seq<string>, k: nat)
    requires NameList(names) && k < |names|
    ensures IndexOf(names, names[k]) == Some(k)
  {
  }

  lemma ScanBlank(fmt: seq<Directive>, i: nat, rest: string)
    requires i < |fmt| && fmt[i].Blank?
    requires rest == "" || !IsSpace(rest[0])
    ensures Scan(" " + rest, fmt, i) == Scan(rest, fmt, i + 1)
  {
    var t := " " + rest;
    assert t[1..] == rest;
    assert LeadingSpaces(t) == 1 by {
      assert LeadingSpaces(t[1..]) == 0;
    }
  }

  lemma ScanText(fmt: seq<Directive>, i: nat, rest: string)
    requires i < |fmt| && fmt[i].Text?
    ensures Scan(fmt[i].lit + rest, fmt, i) == Scan(rest, fmt, i + 1)
  {
    var t := fmt[i].lit + rest;
    assert t[..|fmt[i].lit|] == fmt[i].lit;
    assert t[|fmt[i].lit|..] == rest;
  }

  lemma ScanAbbrev(fmt: seq<Directive>, i: nat, v: nat, rest: string)
    requires i < |fmt| && fmt[i].Abbrev? && NameList(fmt[i].names) && v < |fmt[i].names|
    ensures Scan(Capitalize(fmt[i].names[v]) + rest, fmt, i)
         == match Scan(rest, fmt, i + 1)
            case None => None
            case Some(vs) => Some([v] + vs)
  {
    var w := fmt[i].names[v];
    assert IsName(w);
    var t := Capitalize(w) + rest;
    assert t[..3] == Capitalize(w);
    assert t[3..] == rest;
    LowerCapitalize(w);
    IndexOfName(fmt[i].names, v);
  }

  lemma ScanDigits(fmt: seq<Directive>, i: nat, v: nat, rest: string)
    requires i < |fmt| && fmt[i].Digits? && fmt[i].least <= fmt[i].most && v < Pow10(fmt[i].most)
    requires rest == "" || !IsDigit(rest[0])
    ensures Scan(Pad(v, fmt[i].most) + rest, fmt, i)
         == match Scan(rest, fmt, i + 1)
            case None => None
            case Some(vs) => Some([v] + vs)
  {
    var p := Pad(v, fmt[i].most);
    var t := p + rest;
    DigitRunOfDigits(p, rest);
    assert t[..|p|] == p;
    assert t[|p|..] == rest;
    PadValue(v, fmt[i].most);
  }

  /**
   * Scanning a rendering gives back the values rendered: every well-formed format reads its own
   * output.
   */
  lemma {:induction false} ScanRender(fmt: seq<Directive>, i: nat, vs: seq<nat>, k: nat)
    requires WellFormed(fmt) && Fits(fmt, i, vs, k)
    ensures Scan(Render(fmt, i, vs, k), fmt, i) == Some(vs[k..])
    decreases |fmt| - i
  {
    if i >= |fmt| {
      assert vs[k..] == [];
    } else {
      var k' := if HasValue(fmt[i]) then k + 1 else k;
      ScanRender(fmt, i + 1, vs, k');
      ScanRenderStep(fmt, i, vs, k);
    }
  }

  /** What follows a blank or a number in a rendering starts with neither whitespace nor a digit. */
  lemma RestHead(fmt: seq<Directive>, i: nat, vs: seq<nat>, k: nat)
    requires WellFormed(fmt) && i < |fmt| && Fits(fmt, i + 1, vs, k)
    ensures var rest := Render(fmt, i + 1, vs, k);
      && (fmt[i].Blank? ==> rest == "" || !IsSpace(rest[0]))
      && (fmt[i].Digits? ==> rest == "" || !IsDigit(rest[0]))
  {
    RenderHead(fmt, i + 1, vs, k);
    if i + 1 < |fmt| {
      assert Follows(fmt[i], fmt[i + 1]);
      assert DirectiveOk(fmt[i + 1]);
    }
  }

  /** One directive of `ScanRender`, given the rest of the format reads its own rendering back. */
  lemma ScanRenderStep(fmt: seq<Directive>, i: nat, vs: seq<nat>, k: nat)
    requires WellFormed(fmt) && Fits(fmt, i, vs, k) && i < |fmt|
    requires var k' := if HasValue(fmt[i]) then k + 1 else k;
      Scan(Render(fmt, i + 1, vs, k'), fmt, i + 1) == Some(vs[k'..])
    ensures Scan(Render(fmt, i, vs, k), fmt, i) == Some(vs[k..])
  {
    var d := fmt[i];
    assert DirectiveOk(d);
    var k' := if HasValue(d) then k + 1 else k;
    assert Fits(fmt, i + 1, vs, k');
    var rest := Render(fmt, i + 1, vs, k');
    RestHead(fmt, i, vs, k');
    match d
    case Blank =>
      assert Render(fmt, i, vs, k) == " " + rest;
      ScanBlank(fmt, i, rest);
    case Text(lit) =>
      assert Render(fmt, i, vs, k) == lit + rest;
      ScanText(fmt, i, rest);
    case Abbrev(names) =>
      StepAbbrev(fmt, i, vs, k, rest);
    case Digits(least, most) =>
      StepDigits(fmt, i, vs, k, rest);
  }

  lemma StepAbbrev(fmt: seq<Directive>, i: nat, vs: seq<nat>, k: nat, rest: string)
    requires i < |fmt| && fmt[i].Abbrev? && DirectiveOk(fmt[i])
    requires k < |vs| && FitsOne(fmt[i], vs[k])
    requires rest == Render(fmt, i + 1, vs, k + 1)
    requires Scan(rest, fmt, i + 1) == Some(vs[k + 1..])
    ensures Scan(Render(fmt, i, vs, k), fmt, i) == Some(vs[k..])
  {
    assert Render(fmt, i, vs, k) == Capitalize(fmt[i].names[vs[k]]) + rest;
    ScanAbbrev(fmt, i, vs[k], rest);
    SliceCons(vs, k);
  }

  lemma StepDigits(fmt: seq<Directive>, i: nat, vs: seq<nat>, k: nat, rest: string)
    requires i < |fmt| && fmt[i].Digits? && DirectiveOk(fmt[i])
    requires k < |vs| && FitsOne(fmt[i], vs[k])
    requires rest == Render(fmt, i + 1, vs, k + 1)
    requires rest == "" || !IsDigit(rest[0])
    requires Scan(rest, fmt, i + 1) == Some(vs[k + 1..])
    ensures Scan(Render(fmt, i, vs, k), fmt, i) == Some(vs[k..])
  {
    assert Render(fmt, i, vs, k) == Pad(vs[k], fmt[i].most) + rest;
    assert vs[k] < Pow10(fmt[i].most) && fmt[i].least <= fmt[i].most;
    ScanDigits(fmt, i, vs[k], rest);
    SliceCons(vs, k);
  }

  lemma SliceCons<T>(s: seq<T>, k: nat)
    requires k < |s|
    ensures s[k..] == [s[k]] + s[k + 1..]
  {
  }

  /** Scanning a rendering of the Twitter format gives back its seven fields. */
  lemma ScanFormat(dt: DateTime, wd: nat)
    requires Printable(dt, wd)
    ensures Scan(Format(dt, wd), TwitterFormat, 0) == Some([wd, dt.month - 1, dt.day, dt.hour, dt.minute, dt.second, dt.year])
  {
    var vs := [wd, dt.month - 1, dt.day, dt.hour, dt.minute, dt.second, dt.year];
    assert Format(dt, wd) == Render(TwitterFormat, 0, vs, 0);
    TwitterFormatWellFormed();
    TwitterFits(vs);
    ScanRenderAll(TwitterFormat, vs);
  }

  lemma ScanRenderAll(fmt: seq<Directive>, vs: seq<nat>)
    requires WellFormed(fmt) && Fits(fmt, 0, vs, 0)
    ensures Scan(Render(fmt, 0, vs, 0), fmt, 0) == Some(vs)
  {
    ScanRender(fmt, 0, vs, 0);
    assert vs[0..] == vs;
  }

  /** Parsing Twitter's own rendering of a valid time gives that time back, whatever the weekday. */
  lemma ParseFormat(dt: DateTime, wd: nat)
    requires Valid(dt) && wd < 7
    ensures Parse(Format(dt, wd)) == Some(dt)
  {
    ScanFormat(dt, wd);
  }

  /** The directives of the Twitter format, one by one. */
  lemma TwitterFormatAt()
    ensures |TwitterFormat| == 15
    ensures TwitterFormat[0] == Abbrev(WeekdayNames) && TwitterFormat[1] == Blank
    ensures TwitterFormat[2] == Abbrev(MonthNames) && TwitterFormat[3] == Blank
    ensures TwitterFormat[4] == Digits(1, 2) && TwitterFormat[5] == Blank
    ensures TwitterFormat[6] == Digits(1, 2) && TwitterFormat[7] == Text(":")
    ensures TwitterFormat[8] == Digits(1, 2) && TwitterFormat[9] == Text(":")
    ensures TwitterFormat[10] == Digits(1, 2) && TwitterFormat[11] == Blank
    ensures TwitterFormat[12] == Text("+0000") && TwitterFormat[13] == Blank
    ensures TwitterFormat[14] == Digits(4, 4)
  {
  }

  /** Rendering a blank or a literal, and then the rest. */
  lemma RenderFixed(fmt: seq<Directive>, i: nat, vs: seq<nat>, k: nat)
    requires i < |fmt| && (fmt[i].Blank? || fmt[i].Text?)
    ensures fmt[i].Blank? ==> Render(fmt, i, vs, k) == " " + Render(fmt, i + 1, vs, k)
    ensures fmt[i].Text? ==> Render(fmt, i, vs, k) == fmt[i].lit + Render(fmt, i + 1, vs, k)
  {
  }

  /** Rendering a name or a number that fits, and then the rest. */
  lemma RenderValue(fmt: seq<Directive>, i: nat, vs: seq<nat>, k: nat)
    requires i < |fmt| && k < |vs|
    ensures fmt[i].Abbrev? && vs[k] < |fmt[i].names| ==>
      Render(fmt, i, vs, k) == Capitalize(fmt[i].names[vs[k]]) + Render(fmt, i + 1, vs, k + 1)
    ensures fmt[i].Digits? ==> Render(fmt, i, vs, k) == Pad(vs[k], fmt[i].most) + Render(fmt, i + 1, vs, k + 1)
  {
  }

  /** The minutes, seconds, offset and year at the end of Twitter's layout. */
  lemma FormatLayoutTail(dt: DateTime, wd: nat)
    requires Printable(dt, wd)
    ensures var vs := [wd, dt.month - 1, dt.day, dt.hour, dt.minute, dt.second, dt.year];
      Render(TwitterFormat, 8, vs, 4)
      == Pad(dt.minute, 2) + (":" + (Pad(dt.second, 2) + (" " + ("+0000" + (" " + Pad(dt.year, 4))))))
  {
    var vs := [wd, dt.month - 1, dt.day, dt.hour, dt.minute, dt.second, dt.year];
    var f := TwitterFormat;
    TwitterFormatAt();
    assert Render(f, 15, vs, 7) == "";
    RenderValue(f, 14, vs, 6);
    assert Pad(dt.year, 4) + "" == Pad(dt.year, 4);
    RenderFixed(f, 13, vs, 6);
    RenderFixed(f, 12, vs, 6);
    RenderFixed(f, 11, vs, 6);
    RenderValue(f, 10, vs, 5);
    RenderFixed(f, 9, vs, 5);
    RenderValue(f, 8, vs, 4);
  }

  /** The day and the hour in the middle of Twitter's layout. */
  lemma FormatLayoutMiddle(dt: DateTime, wd: nat)
    requires Printable(dt, wd)
    ensures var vs := [wd, dt.month - 1, dt.day, dt.hour, dt.minute, dt.second, dt.year];
      Render(TwitterFormat, 4, vs, 2)
      == Pad(dt.day, 2) + (" " + (Pad(dt.hour, 2) + (":" + Render(TwitterFormat, 8, vs, 4))))
  {
    var vs := [wd, dt.month - 1, dt.day, dt.hour, dt.minute, dt.second, dt.year];
    var f := TwitterFormat;
    TwitterFormatAt();
    RenderFixed(f, 7, vs, 4);
    RenderValue(f, 6, vs, 3);
    RenderFixed(f, 5, vs, 3);
    RenderValue(f, 4, vs, 2);
  }

  /** The weekday and month names at the start of Twitter's layout. */
  lemma FormatLayoutHead(dt: DateTime, wd: nat)
    requires Printable(dt, wd)
    ensures var vs := [wd, dt.month - 1, dt.day, dt.hour, dt.minute, dt.second, dt.year];
      Render(TwitterFormat, 0, vs, 0)
      == Capitalize(WeekdayNames[wd]) + (" " + (Capitalize(MonthNames[dt.month - 1]) + (" " + Render(TwitterFormat, 4, vs, 2))))
  {
    var vs := [wd, dt.month - 1, dt.day, dt.hour, dt.minute, dt.second, dt.year];
    var f := TwitterFormat;
    TwitterFormatAt();
    var r4 := Render(f, 4, vs, 2);
    RenderFixed(f, 3, vs, 2);
    var r3 := " " + r4;
    assert Render(f, 3, vs, 2) == r3;
    RenderValue(f, 2, vs, 1);
    var r2 := Capitalize(MonthNames[dt.month - 1]) + r3;
    assert Render(f, 2, vs, 1) == r2;
    RenderFixed(f, 1, vs, 1);
    assert Render(f, 1, vs, 1) == " " + r2;
    RenderValue(f, 0, vs, 0);
  }

  /** Twitter's layout: capitalised names, two-digit fields, a four-digit year. */
  lemma FormatLayout(dt: DateTime, wd: nat)
    requires Printable(dt, wd)
    ensures Format(dt, wd)
         == Capitalize(WeekdayNames[wd]) + (" " + (Capitalize(MonthNames[dt.month - 1]) + (" " + (Pad(dt.day, 2)
            + (" " + (Pad(dt.hour, 2) + (":" + (Pad(dt.minute, 2) + (":" + (Pad(dt.second, 2)
            + (" " + ("+0000" + (" " + Pad(dt.year, 4))))))))))))))
  {
    FormatLayoutHead(dt, wd);
    FormatLayoutMiddle(dt, wd);
    FormatLayoutTail(dt, wd);
  }

  lemma EpochNames()
    ensures Capitalize(WeekdayNames[3]) == "Thu" && Capitalize(MonthNames[0]) == "Jan"
  {
    assert UpperChar('t') == 'T';
    assert UpperChar('j') == 'J';
  }

  lemma EpochNumbers()
    ensures Pad(1, 2) == "01" && Pad(0, 2) == "00"
  {
    assert DigitChar(0) == '0' && DigitChar(1) == '1';
    assert Pad(0, 1) == "0" && Pad(1, 1) == "1";
  }

  lemma EpochYear()
    ensures Pad(1970, 4) == "1970"
  {
    assert DigitChar(0) == '0' && DigitChar(1) == '1' && DigitChar(7) == '7' && DigitChar(9) == '9';
    assert Pad(1, 1) == "1";
    assert Pad(19, 2) == "19";
    assert Pad(197, 3) == "197";
  }

  lemma EpochPieces()
    ensures Capitalize(WeekdayNames[3]) == "Thu" && Capitalize(MonthNames[0]) == "Jan"
    ensures Pad(1, 2) == "01" && Pad(0, 2) == "00" && Pad(1970, 4) == "1970"
  {
    EpochNames();
    EpochNumbers();
    EpochYear();
  }

  lemma EpochText()
    ensures "Thu" + (" " + ("Jan" + (" " + ("01" + (" " + ("00" + (":" + ("00" + (":" + ("00"
      + (" " + ("+0000" + (" " + "1970")))))))))))))
      == "Thu Jan 01 00:00:00 +0000 1970"
  {
  }

  lemma EpochLayout()
    ensures Format(Epoch, 3) == "Thu Jan 01 00:00:00 +0000 1970"
  {
    FormatLayout(Epoch, 3);
    EpochPieces();
    EpochText();
  }

  /** The timestamp `fetch_tweet_thread` uses for a tweet without `createdAt` parses to the epoch. */
  lemma DefaultTimestampIsEpoch()
    ensures Parse("Thu Jan 01 00:00:00 +0000 1970") == Some(Epoch)
    ensures ParseOrEpoch("Thu Jan 01 00:00:00 +0000 1970") == Epoch
  {
    EpochLayout();
    ParseFormat(Epoch, 3);
  }

  /**
   * A time the pattern accepts but `datetime` refuses, such as a leap second or the 29th of
   * February of a common year, falls back to the epoch.
   */
  lemma OutOfRangeFallsBackToEpoch(dt: DateTime, wd: nat)
    requires Printable(dt, wd) && !Valid(dt)
    ensures Parse(Format(dt, wd)).None?
    ensures ParseOrEpoch(Format(dt, wd)) == Epoch
  {
    ScanFormat(dt, wd);
  }

  /** A leap second, as Twitter would print it, is refused by `datetime` and read as the epoch. */
  lemma LeapSecondIsEpoch()
    ensures ParseOrEpoch(Format(DateTime(2016, 12, 31, 23, 59, 60), 5)) == Epoch
  {
    OutOfRangeFallsBackToEpoch(DateTime(2016, 12, 31, 23, 59, 60), 5);
  }

  // ---------------------------------------------------------------------------------------------
  // Sort key
  // ---------------------------------------------------------------------------------------------

  /** Chronological order of two times, field by field. */
  predicate Earlier(a: DateTime, b: DateTime) {
    || a.year < b.year
    || (a.year == b.year && a.month < b.month)
    || (a.year == b.year && a.month == b.month && a.day < b.day)
    || (a.year == b.year && a.month == b.month && a.day == b.day && a.hour < b.hour)
    || (a.year == b.year && a.month == b.month && a.day == b.day && a.hour == b.hour && a.minute < b.minute)
    || (a.year == b.year && a.month == b.month && a.day == b.day && a.hour == b.hour && a.minute == b.minute
        && a.second < b.second)
  }

  /** A time as one number in mixed radix, so that sorting by it sorts chronologically. */
  function Key(dt: DateTime): int {
    MinuteIndex(dt) * 60 + dt.second
  }

  /** The leading digits of the key: months, days, hours and minutes since year 0. */
  function MonthIndex(dt: DateTime): int {
    dt.year * 12 + (dt.month - 1)
  }

  function DayIndex(dt: DateTime): int {
    MonthIndex(dt) * 31 + (dt.day - 1)
  }

  function HourIndex(dt: DateTime): int {
    DayIndex(dt) * 24 + dt.hour
  }

  function MinuteIndex(dt: DateTime): int {
    HourIndex(dt) * 60 + dt.minute
  }

  /** A positive multiple of a positive base is at least the base. */
  lemma MultipleAtLeastBase(d: int, base: int)
    requires d >= 1 && base > 0
    ensures d * base >= base
  {
    var e := d - 1;
    assert d * base == e * base + base;
    assert e * base >= 0;
  }

  /** Comparing two mixed-radix numbers compares their high digits first. */
  lemma MixedRadix(h1: int, l1: int, h2: int, l2: int, base: int)
    requires 0 <= l1 < base && 0 <= l2 < base
    ensures h1 * base + l1 < h2 * base + l2 <==> h1 < h2 || (h1 == h2 && l1 < l2)
    ensures h1 * base + l1 == h2 * base + l2 <==> h1 == h2 && l1 == l2
  {
    if h1 < h2 {
      var d := h2 - h1;
      MultipleAtLeastBase(d, base);
      assert h2 * base == h1 * base + d * base;
    } else if h1 > h2 {
      var d := h1 - h2;
      MultipleAtLeastBase(d, base);
      assert h1 * base == h2 * base + d * base;
    }
  }

  lemma MonthOrder(a: DateTime, b: DateTime)
    requires 1 <= a.month <= 12 && 1 <= b.month <= 12
    ensures MonthIndex(a) < MonthIndex(b) <==> a.year < b.year || (a.year == b.year && a.month < b.month)
    ensures MonthIndex(a) == MonthIndex(b) <==> a.year == b.year && a.month == b.month
  {
    MixedRadix(a.year, a.month - 1, b.year, b.month - 1, 12);
  }

  lemma DayOrder(a: DateTime, b: DateTime)
    requires 1 <= a.day <= 31 && 1 <= b.day <= 31
    ensures DayIndex(a) < DayIndex(b) <==> MonthIndex(a) < MonthIndex(b) || (MonthIndex(a) == MonthIndex(b) && a.day < b.day)
    ensures DayIndex(a) == DayIndex(b) <==> MonthIndex(a) == MonthIndex(b) && a.day == b.day
  {
    MixedRadix(MonthIndex(a), a.day - 1, MonthIndex(b), b.day - 1, 31);
  }

  lemma HourOrder(a: DateTime, b: DateTime)
    requires 0 <= a.hour < 24 && 0 <= b.hour < 24
    ensures HourIndex(a) < HourIndex(b) <==> DayIndex(a) < DayIndex(b) || (DayIndex(a) == DayIndex(b) && a.hour < b.hour)
    ensures HourIndex(a) == HourIndex(b) <==> DayIndex(a) == DayIndex(b) && a.hour == b.hour
  {
    MixedRadix(DayIndex(a), a.hour, DayIndex(b), b.hour, 24);
  }

  lemma MinuteOrder(a: DateTime, b: DateTime)
    requires 0 <= a.minute < 60 && 0 <= b.minute < 60
    ensures MinuteIndex(a) < MinuteIndex(b) <==> HourIndex(a) < HourIndex(b) || (HourIndex(a) == HourIndex(b) && a.minute < b.minute)
    ensures MinuteIndex(a) == MinuteIndex(b) <==> HourIndex(a) == HourIndex(b) && a.minute == b.minute
  {
    MixedRadix(HourIndex(a), a.minute, HourIndex(b), b.minute, 60);
  }

  lemma SecondOrder(a: DateTime, b: DateTime)
    requires 0 <= a.second < 60 && 0 <= b.second < 60
    ensures Key(a) < Key(b) <==> MinuteIndex(a) < MinuteIndex(b) || (MinuteIndex(a) == MinuteIndex(b) && a.second < b.second)
    ensures Key(a) == Key(b) <==> MinuteIndex(a) == MinuteIndex(b) && a.second == b.second
  {
    MixedRadix(MinuteIndex(a), a.second, MinuteIndex(b), b.second, 60);
  }

  /** On valid times the key orders exactly as the calendar does, and tells different times apart. */
  lemma KeyIsChronological(a: DateTime, b: DateTime)
    requires Valid(a) && Valid(b)
    ensures Key(a) < Key(b) <==> Earlier(a, b)
    ensures Key(a) == Key(b) <==> a == b
  {
    MonthOrder(a, b);
    DayOrder(a, b);
    HourOrder(a, b);
    MinuteOrder(a, b);
    SecondOrder(a, b);
  }

  /** Every time that parses sorts after the epoch fallback or together with it, never before. */
  lemma EpochComesFirst(s: string)
    requires Parse(s).Some?
    requires 1970 <= Parse(s).value.year
    ensures Key(Epoch) <= Key(ParseOrEpoch(s))
  {
    var dt := ParseOrEpoch(s);
    KeyIsChronological(Epoch, dt);
  }
}

=== FILE: urls.dfy ===
/**
 * The two pieces of URL text handling in the summarizer graph:
 * the path component as Python's `urllib.parse.urlparse` computes it (used by `is_pdf_url`),
 * and the leftmost match of `https?://\S+` (used by `start_node`).
 */
module Urls {
  import opened Wrappers
  import opened PyStr

  // ---------------------------------------------------------------------------------------------
  // urlparse(url).path
  // ---------------------------------------------------------------------------------------------

  /** The characters `urlsplit` strips from the front of a URL: C0 controls and space. */
  predicate IsC0OrSpace(c: char) {
    c <= ' '
  }

  /** The characters `urlsplit` deletes anywhere in a URL. */
  predicate IsUnsafe(c: char) {
    c == '\t' || c == '\r' || c == '\n'
  }

  /** Characters `urlsplit` accepts in a scheme. */
  predicate IsSchemeChar(c: char) {
    ('a' <= c <= 'z') || ('A' <= c <= 'Z') || IsDigit(c) || c == '+' || c == '-' || c == '.'
  }

  predicate IsAsciiLetter(c: char) {
    ('a' <= c <= 'z') || ('A' <= c <= 'Z')
  }

  /** No tab, carriage return or line feed anywhere in `s`. */
  predicate NoUnsafe(s: string) {
    forall i :: 0 <= i < |s| ==> !IsUnsafe(s[i])
  }

  function LstripC0(s: string): (r: string)
    ensures |r| <= |s| && r == s[|s| - |r|..]
    ensures r == [] || !IsC0OrSpace(r[0])
    ensures s == [] || !IsC0OrSpace(s[0]) ==> r == s
  {
    if |s| > 0 && IsC0OrSpace(s[0]) then LstripC0(s[1..]) else s
  }

  function DropUnsafe(s: string): (r: string)
    ensures NoUnsafe(r)
    ensures NoUnsafe(s) ==> r == s
  {
    if |s| == 0 then ""
    else if IsUnsafe(s[0]) then DropUnsafe(s[1..])
    else [s[0]] + DropUnsafe(s[1..])
  }

  /** Python's `s.find(c)`, with "not found" reported as `|s|`. */
  function Find(s: string, c: char): (i: nat)
    ensures i <= |s|
    ensures forall k :: 0 <= k < i ==> s[k] != c
    ensures i < |s| ==> s[i] == c
  {
    if |s| == 0 || s[0] == c then 0 else 1 + Find(s[1..], c)
  }

  /** Index of the first character of `s` in `cs`, or `|s|`. */
  function FindAny(s: string, cs: set<char>): (i: nat)
    ensures i <= |s|
    ensures forall k :: 0 <= k < i ==> s[k] !in cs
    ensures i < |s| ==> s[i] in cs
  {
    if |s| == 0 || s[0] in cs then 0 else 1 + FindAny(s[1..], cs)
  }

  /** Python's `s.rfind(c)`, with "not found" reported as -1. */
  function RFind(s: string, c: char): (i: int)
    ensures -1 <= i < |s|
    ensures forall k :: i < k < |s| ==> s[k] != c
    ensures 0 <= i ==> s[i] == c
  {
    if |s| == 0 then -1
    else if s[|s| - 1] == c then |s| - 1
    else RFind(s[..|s| - 1], c)
  }

  /** The schemes for which `urlparse` separates `;params` from the last path segment. */
  const UsesParams: set<string> :=
    {"", "ftp", "hdl", "prospero", "http", "imap", "https", "shttp", "rtsp", "rtsps",
     "rtspu", "sip", "sips", "mms", "sftp", "tel"}

  datatype SchemeSplit = SchemeSplit(scheme: string, rest: string)

  /** `urlsplit`'s scheme step: a letter-initial run of scheme characters before the first ':'. */
  function SplitScheme(u: string): (r: SchemeSplit)
    ensures NoUnsafe(u) ==> NoUnsafe(r.rest)
    ensures r.scheme == "" ==> r.rest == u
    ensures r.scheme != "" ==> |r.scheme| + 1 + |r.rest| == |u| && u[|r.scheme|] == ':' && r.rest == u[|r.scheme| + 1..]
  {
    var i := Find(u, ':');
    if 0 < i < |u| && IsAsciiLetter(u[0]) && forall k :: 0 <= k < i ==> IsSchemeChar(u[k]) then
      SchemeSplit(Lower(u[..i]), u[i + 1..])
    else
      SchemeSplit("", u)
  }

  /**
   * Where `urlparse`'s `_splitparams` cuts the path: at the first ';' after the last '/'
   * (or the first ';' at all when there is no '/'), or nowhere.
   */
  function ParamsCut(path: string): (i: nat)
    ensures i <= |path|
    ensures i < |path| ==> path[i] == ';'
    ensures (forall k :: 0 <= k < |path| ==> path[k] != ';') ==> i == |path|
  {
    var slash := RFind(path, '/');
    if slash < 0 then Find(path, ';') else slash + Find(path[slash..], ';')
  }

  /** The text before the first `c` (all of `s` when there is none). */
  function Before(s: string, c: char): (r: string)
    ensures r <= s
    ensures NoUnsafe(s) ==> NoUnsafe(r)
    ensures forall k :: 0 <= k < |r| ==> r[k] != c
    ensures (forall k :: 0 <= k < |s| ==> s[k] != c) ==> r == s
  {
    s[..Find(s, c)]
  }

  /** `urlparse`'s params step: for the schemes in `UsesParams`, the path ends before `;params`. */
  function DropParams(scheme: string, path: string): (r: string)
    ensures r <= path
    ensures NoUnsafe(path) ==> NoUnsafe(r)
  {
    if scheme in UsesParams then path[..ParamsCut(path)] else path
  }

  /** What follows the `//authority` part of a scheme-less remainder, if it has one. */
  function AfterAuthority(rest: string): (r: string)
    ensures |r| <= |rest| && r == rest[|rest| - |r|..]
    ensures NoUnsafe(rest) ==> NoUnsafe(r)
  {
    if |rest| >= 2 && rest[..2] == "//" then rest[2 + FindAny(rest[2..], {'/', '?', '#'})..] else rest
  }

  /** `urlparse(url).path`: the text after the scheme and authority, cut at the query, fragment and `;params`. */
  function UrlPath(url: string): (path: string)
    ensures forall k :: 0 <= k < |path| ==> path[k] != '?' && path[k] != '#'
    ensures NoUnsafe(path)
  {
    var u := DropUnsafe(LstripC0(url));
    var split := SplitScheme(u);
    var afterNetloc := AfterAuthority(split.rest);
    var noFragment := Before(afterNetloc, '#');
    var noQuery := Before(noFragment, '?');
    var path := DropParams(split.scheme, noQuery);
    PrefixOfCutIsFree(noFragment, noQuery, path);
    path
  }

  /** A prefix of text cut before its first '?', itself cut before its first '#', holds neither. */
  lemma PrefixOfCutIsFree(noFragment: string, noQuery: string, path: string)
    requires forall k :: 0 <= k < |noFragment| ==> noFragment[k] != '#'
    requires forall k :: 0 <= k < |noQuery| ==> noQuery[k] != '?'
    requires noQuery <= noFragment && path <= noQuery
    ensures forall k :: 0 <= k < |path| ==> path[k] != '?' && path[k] != '#'
  {
    forall k | 0 <= k < |path|
      ensures path[k] != '?' && path[k] != '#'
    {
      assert path[k] == noQuery[k] == noFragment[k];
    }
  }

  lemma NoUnsafeConcat(a: string, b: string)
    requires NoUnsafe(a) && NoUnsafe(b)
    ensures NoUnsafe(a + b)
  {
    assert forall i :: |a| <= i < |a + b| ==> (a + b)[i] == b[i - |a|];
  }

  /** `Find` skips a prefix free of `c` and stops where `c` starts the rest. */
  lemma FindAfterFreePrefix(a: string, b: string, c: char)
    requires forall k :: 0 <= k < |a| ==> a[k] != c
    ensures Find(a + b, c) >= |a|
    ensures b == [] || b[0] == c ==> Find(a + b, c) == |a|
  {
    assert forall k :: 0 <= k < |a| ==> (a + b)[k] == a[k];
    if b != [] {
      assert (a + b)[|a|] == b[0];
    }
  }

  /** Scheme step on `scheme ":" rest`. */
  lemma SplitSchemeOf(scheme: string, rest: string)
    requires |scheme| > 0 && IsAsciiLetter(scheme[0])
    requires forall k :: 0 <= k < |scheme| ==> IsSchemeChar(scheme[k])
    ensures SplitScheme(scheme + ":" + rest).rest == rest
  {
    var u := scheme + ":" + rest;
    assert forall k :: 0 <= k < |scheme| ==> scheme[k] != ':';
    FindAfterFreePrefix(scheme, ":" + rest, ':');
    assert u == scheme + (":" + rest);
    assert forall k :: 0 <= k < |scheme| ==> u[k] == scheme[k];
    assert u[|scheme| + 1..] == rest;
  }

  /** Authority step on `"//" authority after`, where `after` is empty or starts a path, query or fragment. */
  lemma AfterAuthorityOf(authority: string, after: string)
    requires forall k :: 0 <= k < |authority| ==> authority[k] !in {'/', '?', '#'}
    requires after == "" || after[0] in {'/', '?', '#'}
    ensures AfterAuthority("//" + authority + after) == after
  {
    var rest := "//" + authority + after;
    assert rest[..2] == "//";
    assert rest[2..] == authority + after;
    var i := FindAny(authority + after, {'/', '?', '#'});
    assert forall k :: 0 <= k < |authority| ==> (authority + after)[k] == authority[k];
    if |after| > 0 {
      assert (authority + after)[|authority|] == after[0];
    }
    assert i == |authority|;
    assert (authority + after)[i..] == after;
  }

  /** Query and fragment steps on `path tail`, where `tail` is empty or starts with '?' or '#'. */
  lemma QueryFragmentOf(path: string, tail: string)
    requires forall k :: 0 <= k < |path| ==> path[k] != '?' && path[k] != '#'
    requires tail == "" || tail[0] == '?' || tail[0] == '#'
    ensures Before(Before(path + tail, '#'), '?') == path
  {
    FindAfterFreePrefix(path, tail, '#');
    var noFragment := Before(path + tail, '#');
    assert noFragment == (path + tail)[..Find(path + tail, '#')];
    assert noFragment == path + tail[..Find(path + tail, '#') - |path|];
    var rest := tail[..Find(path + tail, '#') - |path|];
    assert rest == "" || rest[0] == '?';
    FindAfterFreePrefix(path, rest, '?');
  }

  lemma DropParamsWithoutSemicolon(scheme: string, path: string)
    requires forall k :: 0 <= k < |path| ==> path[k] != ';'
    ensures DropParams(scheme, path) == path
  {
    assert ParamsCut(path) == |path|;
  }

  /** `UrlPath` read off its steps. */
  lemma UrlPathFromSteps(url: string, rest: string, after: string, path: string)
    requires DropUnsafe(LstripC0(url)) == url
    requires SplitScheme(url).rest == rest
    requires AfterAuthority(rest) == after
    requires Before(Before(after, '#'), '?') == path
    requires forall k :: 0 <= k < |path| ==> path[k] != ';'
    ensures UrlPath(url) == path
  {
    DropParamsWithoutSemicolon(SplitScheme(url).scheme, path);
  }

  /** A URL whose parts hold no tab or line break, and whose scheme starts with a letter, is not cleaned. */
  lemma CleanUrl(scheme: string, authority: string, after: string)
    requires |scheme| > 0 && IsAsciiLetter(scheme[0])
    requires forall k :: 0 <= k < |scheme| ==> IsSchemeChar(scheme[k])
    requires NoUnsafe(authority) && NoUnsafe(after)
    ensures DropUnsafe(LstripC0(scheme + ":" + ("//" + authority + after))) == scheme + ":" + ("//" + authority + after)
  {
    var rest := "//" + authority + after;
    NoUnsafeConcat("//", authority);
    NoUnsafeConcat("//" + authority, after);
    NoUnsafeConcat(scheme, ":");
    NoUnsafeConcat(scheme + ":", rest);
    var url := scheme + ":" + rest;
    assert url[0] == scheme[0];
    assert LstripC0(url) == url;
  }

  lemma UrlLayout(scheme: string, authority: string, path: string, tail: string)
    ensures scheme + "://" + authority + path + tail == scheme + ":" + ("//" + authority + (path + tail))
  {
  }

  /**
   * On a URL laid out as in section 3 of RFC 3986, `scheme "://" authority path [ "?" query ] [ "#" fragment ]`,
   * with a path free of ';', the path `urlparse` reports is exactly the path component.
   */
  lemma {:induction false} UrlPathOfHierarchicalUrl(scheme: string, authority: string, path: string, tail: string)
    requires |scheme| > 0 && IsAsciiLetter(scheme[0])
    requires forall k :: 0 <= k < |scheme| ==> IsSchemeChar(scheme[k])
    requires forall k :: 0 <= k < |authority| ==> authority[k] !in {'/', '?', '#'}
    requires path == "" || path[0] == '/'
    requires forall k :: 0 <= k < |path| ==> path[k] !in {'?', '#', ';'}
    requires tail == "" || tail[0] == '?' || tail[0] == '#'
    requires NoUnsafe(authority) && NoUnsafe(path) && NoUnsafe(tail)
    ensures UrlPath(scheme + "://" + authority + path + tail) == path
  {
    var after := path + tail;
    var rest := "//" + authority + after;
    var url := scheme + ":" + rest;
    UrlLayout(scheme, authority, path, tail);
    NoUnsafeConcat(path, tail);
    CleanUrl(scheme, authority, after);
    SplitSchemeOf(scheme, rest);
    assert after == "" || after[0] in {'/', '?', '#'};
    AfterAuthorityOf(authority, after);
    QueryFragmentOf(path, tail);
    UrlPathFromSteps(url, rest, after, path);
  }

  // ---------------------------------------------------------------------------------------------
  // start_node: the first match of `https?://\S+`
  // ---------------------------------------------------------------------------------------------

  /** End of the run of non-whitespace characters that starts at `i`. */
  function RunEnd(s: string, i: nat): (j: nat)
    requires i <= |s|
    ensures i <= j <= |s|
    ensures forall k :: i <= k < j ==> !IsSpace(s[k])
    ensures j == |s| || IsSpace(s[j])
    decreases |s| - i
  {
    if i == |s| || IsSpace(s[i]) then i else RunEnd(s, i + 1)
  }

  /**
   * `https?://\S+` matches at index `i`: "https://" or "http://" followed by at least one
   * non-whitespace character. (When "https://" is there but is followed by whitespace, the
   * shorter alternative fails too, because "http" is then followed by 's', not ':'.)
   */
  predicate UrlMatchAt(s: string, i: int) {
    && 0 <= i <= |s|
    && ((StartsWith(s[i..], "https://") && i + 8 < |s| && !IsSpace(s[i + 8]))
        || (StartsWith(s[i..], "http://") && i + 7 < |s| && !IsSpace(s[i + 7])))
  }

  /** The leftmost index at or after `from` where the pattern matches. */
  function FirstUrlMatch(s: string, from: nat): (r: Option<nat>)
    requires from <= |s|
    ensures r.Some? ==> from <= r.value <= |s| && UrlMatchAt(s, r.value)
    ensures r.Some? ==> forall k :: from <= k < r.value ==> !UrlMatchAt(s, k)
    ensures r.None? ==> forall k :: from <= k <= |s| ==> !UrlMatchAt(s, k)
    decreases |s| - from
  {
    if UrlMatchAt(s, from) then Some(from)
    else if from == |s| then None
    else FirstUrlMatch(s, from + 1)
  }

  /** `u` is the match of the pattern that starts at `i`, and no match starts earlier. */
  predicate LeftmostUrlAt(text: string, u: string, i: int) {
    && 0 <= i && i + |u| <= |text|
    && UrlMatchAt(text, i)
    && text[i..i + |u|] == u
    && (i + |u| == |text| || IsSpace(text[i + |u|]))
    && forall k :: 0 <= k < i ==> !UrlMatchAt(text, k)
  }

  /**
   * `re.findall(r'(https?://\S+)', text)[0]`, or `None` when the list is empty: the leftmost match,
   * running to the end of its whitespace-free run.
   */
  function FindUrl(text: string): (r: Option<string>)
    ensures r.None? <==> forall k :: 0 <= k <= |text| ==> !UrlMatchAt(text, k)
    ensures r.Some? ==> exists i :: LeftmostUrlAt(text, r.value, i)
    ensures r.Some? ==> StartsWith(r.value, "http://") || StartsWith(r.value, "https://")
    ensures r.Some? ==> forall k :: 0 <= k < |r.value| ==> !IsSpace(r.value[k])
  {
    match FirstUrlMatch(text, 0)
    case None => None
    case Some(i) =>
      var u := text[i..RunEnd(text, i)];
      MatchIsUrl(text, i, RunEnd(text, i));
      Some(u)
  }

  /** The run that a match starts is the leftmost match's text, and it begins with the scheme. */
  lemma MatchIsUrl(text: string, i: nat, j: nat)
    requires i <= |text| && j == RunEnd(text, i)
    requires UrlMatchAt(text, i) && forall k :: 0 <= k < i ==> !UrlMatchAt(text, k)
    ensures LeftmostUrlAt(text, text[i..j], i)
    ensures StartsWith(text[i..j], "http://") || StartsWith(text[i..j], "https://")
  {
    var u := text[i..j];
    if StartsWith(text[i..], "https://") {
      assert u[..8] == text[i..][..8];
    } else {
      assert u[..7] == text[i..][..7];
    }
  }

  /**
   * A message whose text before the link has no "http" and ends in whitespace yields exactly the link,
   * provided the link is whitespace-free and followed by whitespace or the end of the message.
   */
  lemma {:induction false} FindUrlInMessage(prefix: string, u: string, suffix: string)
    requires prefix == "" || IsSpace(prefix[|prefix| - 1])
    requires forall k :: !OccursAt(prefix, "http", k)
    requires StartsWith(u, "http://") || StartsWith(u, "https://")
    requires |u| > 8
    requires forall k :: 0 <= k < |u| ==> !IsSpace(u[k])
    requires suffix == "" || IsSpace(suffix[0])
    ensures FindUrl(prefix + u + suffix) == Some(u)
  {
    var text := prefix + u + suffix;
    LinkMatches(prefix, u, suffix);
    forall k | 0 <= k < |prefix|
      ensures !UrlMatchAt(text, k)
    {
      NoMatchInPrefix(prefix, text, k);
    }
    assert FirstUrlMatch(text, 0) == Some(|prefix|);
    RunEndOfLink(prefix, u, suffix);
  }

  /** The pattern matches where the link starts. */
  lemma LinkMatches(prefix: string, u: string, suffix: string)
    requires StartsWith(u, "http://") || StartsWith(u, "https://")
    requires |u| > 8
    requires forall k :: 0 <= k < |u| ==> !IsSpace(u[k])
    ensures UrlMatchAt(prefix + u + suffix, |prefix|)
  {
    var text := prefix + u + suffix;
    assert text[|prefix|..] == u + suffix;
    if StartsWith(u, "https://") {
      assert StartsWith(text[|prefix|..], "https://");
      assert text[|prefix| + 8] == u[8];
    } else {
      assert StartsWith(text[|prefix|..], "http://");
      assert text[|prefix| + 7] == u[7];
    }
  }

  /** Every match begins with "http". */
  lemma UrlMatchSpellsHttp(s: string, k: int)
    ensures UrlMatchAt(s, k) ==> k + 4 <= |s| && s[k..k + 4] == "http"
  {
    if UrlMatchAt(s, k) {
      if StartsWith(s[k..], "https://") {
        assert s[k..k + 4] == s[k..][..4];
      } else {
        assert s[k..k + 4] == s[k..][..4];
      }
    }
  }

  /** No match starts inside a prefix free of "http" that ends in whitespace. */
  lemma NoMatchInPrefix(prefix: string, text: string, k: nat)
    requires prefix == "" || IsSpace(prefix[|prefix| - 1])
    requires forall m :: !OccursAt(prefix, "http", m)
    requires |prefix| <= |text| && text[..|prefix|] == prefix
    requires k < |prefix|
    ensures !UrlMatchAt(text, k)
  {
    UrlMatchSpellsHttp(text, k);
    if k + 4 <= |prefix| {
      assert text[k..k + 4] == prefix[k..k + 4];
      assert !OccursAt(prefix, "http", k);
    } else if k + 4 <= |text| {
      var m := |prefix| - 1 - k;
      assert text[k..k + 4][m] == text[|prefix| - 1] == prefix[|prefix| - 1];
      assert text[k..k + 4] != "http";
    }
  }

  /** The whitespace-free run starting at the link ends where the link does. */
  lemma RunEndOfLink(prefix: string, u: string, suffix: string)
    requires forall k :: 0 <= k < |u| ==> !IsSpace(u[k])
    requires suffix == "" || IsSpace(suffix[0])
    ensures var text := prefix + u + suffix;
      RunEnd(text, |prefix|) == |prefix| + |u| && text[|prefix|..|prefix| + |u|] == u
  {
    var text := prefix + u + suffix;
    assert forall k :: |prefix| <= k < |prefix| + |u| ==> text[k] == u[k - |prefix|];
    if suffix != "" {
      assert text[|prefix| + |u|] == suffix[0];
    }
    RunEndExact(text, |prefix|, |u|);
    assert text[|prefix|..|prefix| + |u|] == u;
  }

  lemma RunEndExact(s: string, i: nat, n: nat)
    requires i + n <= |s|
    requires forall k :: i <= k < i + n ==> !IsSpace(s[k])
    requires i + n == |s| || IsSpace(s[i + n])
    ensures RunEnd(s, i) == i + n
    decreases n
  {
    if n > 0 {
      RunEndExact(s, i + 1, n - 1);
    }
  }
}

=== FILE: wrappers.dfy ===
/** Optional values, standing for Python's `None`-or-value results and dict lookups. */
module Wrappers {

  datatype Option<+T> = None | Some(value: T) {

    /** The value, or `default` when absent (Python's `d.get(key, default)`). */
    function GetOr(default: T): T {
      match this
      case Some(v) => v
      case None => default
    }
  }
}

=== FILE: youtube.dfy ===
/**
 * `fetch_youtube_info` of tools/youtube_scraper.py: ask yt-dlp about a video and report its
 * description and the address of an English automatic-caption track.
 *
 * yt-dlp's extraction is a parameter.
 */
module YouTube {
  import opened Wrappers
  import opened PyStr

  /** One caption track yt-dlp lists; an absent key is None. */
  datatype Caption = Caption(ext: Option<string>, url: Option<string>)

  /**
   * The parts of yt-dlp's info dict the tool reads: the description and the English automatic
   * captions (an empty list when `automatic_captions` or its "en" entry is missing).
   */
  datatype VideoInfo = VideoInfo(description: Option<string>, englishAutoCaptions: seq<Caption>)

  /** yt-dlp returned the info dict, or raised. */
  datatype Extraction = Extracted(info: VideoInfo) | ExtractionFailed(reason: string)

  /** The dict `{"description": ..., "transcript_url": ...}`, or the error string. */
  datatype YouTubeResult = Info(description: Option<string>, transcriptUrl: Option<string>) | Failed(message: string)

  /** The caption formats searched for first. */
  predicate Preferred(c: Caption) {
    c.ext == Some("srv3") || c.ext == Some("ttml") || c.ext == Some("vtt")
  }

  /** Index of the first caption in a preferred format: the `next(...)` over the generator. */
  function FirstPreferred(caps: seq<Caption>, from: nat): (r: Option<nat>)
    requires from <= |caps|
    ensures r.Some? ==> from <= r.value < |caps| && Preferred(caps[r.value])
    ensures r.Some? ==> forall k :: from <= k < r.value ==> !Preferred(caps[k])
    ensures r.None? ==> forall k :: from <= k < |caps| ==> !Preferred(caps[k])
    decreases |caps| - from
  {
    if from == |caps| then None
    else if Preferred(caps[from]) then Some(from)
    else FirstPreferred(caps, from + 1)
  }

  /** The caption track chosen: the first in a preferred format, else the first of all. */
  function TranscriptUrl(caps: seq<Caption>): (r: Option<string>)
    ensures |caps| == 0 ==> r.None?
  {
    if |caps| == 0 then None
    else match FirstPreferred(caps, 0)
      case Some(i) => caps[i].url
      case None => caps[0].url
  }

  const FailurePrefix := "Error: Failed to process YouTube URL"

  /** `fetch_youtube_info(url)`, with yt-dlp's outcome as a parameter. */
  function FetchYouTubeInfo(url: string, extraction: Extraction): (r: YouTubeResult)
    ensures r.Failed? <==> extraction.ExtractionFailed?
    ensures r.Failed? ==> StartsWith(r.message, FailurePrefix)
    ensures r.Failed? ==> r.message == FailurePrefix + " '" + url + "'. Reason: " + extraction.reason
    ensures r.Info? ==> r.transcriptUrl == TranscriptUrl(extraction.info.englishAutoCaptions)
    ensures r.Info? ==> r.description == extraction.info.description
  {
    match extraction
    case ExtractionFailed(e) =>
      var m := FailurePrefix + (" '" + url + "'. Reason: " + e);
      assert m[..|FailurePrefix|] == FailurePrefix;
      Failed(m)
    case Extracted(info) => Info(info.description, TranscriptUrl(info.englishAutoCaptions))
  }

  /**
   * The transcript address is that of the first English automatic caption in srv3, ttml or vtt
   * format; when there is none in those formats, that of the first caption listed.
   */
  lemma {:induction false} TranscriptChoice(caps: seq<Caption>, i: nat)
    requires i < |caps|
    ensures Preferred(caps[i]) && (forall k :: 0 <= k < i ==> !Preferred(caps[k])) ==> TranscriptUrl(caps) == caps[i].url
    ensures (forall k :: 0 <= k < |caps| ==> !Preferred(caps[k])) ==> TranscriptUrl(caps) == caps[0].url
  {
    var first := FirstPreferred(caps, 0);
    if Preferred(caps[i]) && (forall k :: 0 <= k < i ==> !Preferred(caps[k])) {
      assert first.Some?;
      assert first.value == i;
    }
  }

  /**
   * A video with neither a description nor a caption track is not an error: the result is the
   * dict with both values None.
   */
  lemma NothingFoundIsNoError(url: string, info: VideoInfo)
    requires info.description.None? && info.englishAutoCaptions == []
    ensures FetchYouTubeInfo(url, Extracted(info)) == Info(None, None)
  {
  }
}

=== FILE: youtube_bs.dfy ===
/**
 * `fetch_youtube_description_bs` of tools/youtube_scraper_bs.py: look through the page's script
 * tags for `shortDescription":"…","isCrawlable` and take the text in between as the video's
 * description.
 *
 * The request and BeautifulSoup's parse are a parameter: the `.string` of every script tag.
 */
module YouTubeBs {
  import opened Wrappers
  import opened PyStr

  /** The lookbehind of the pattern `(?<=shortDescription":").*(?=","isCrawlable)`. */
  const Marker := "shortDescription\":\""

  /** Its lookahead. */
  const EndMarker := "\",\"isCrawlable"

  // ---------------------------------------------------------------------------------------------
  // The pattern
  // ---------------------------------------------------------------------------------------------

  /** Index `p` follows an occurrence of the marker, as the lookbehind demands. */
  predicate AfterMarker(s: string, p: nat) {
    p >= |Marker| && OccursAt(s, Marker, p - |Marker|)
  }

  /** End of the line holding index `p`: the next newline, or the end of the text. */
  function LineEnd(s: string, p: nat): (e: nat)
    requires p <= |s|
    ensures p <= e <= |s|
    ensures forall k :: p <= k < e ==> s[k] != '\n'
    ensures e == |s| || s[e] == '\n'
    decreases |s| - p
  {
    if p == |s| || s[p] == '\n' then p else LineEnd(s, p + 1)
  }

  /** The last index in `p..q` at which the end marker occurs. */
  function LastEnd(s: string, p: nat, q: nat): (r: Option<nat>)
    requires p <= q
    ensures r.Some? ==> p <= r.value <= q && OccursAt(s, EndMarker, r.value)
    ensures r.Some? ==> forall k :: r.value < k <= q ==> !OccursAt(s, EndMarker, k)
    ensures r.None? ==> forall k :: p <= k <= q ==> !OccursAt(s, EndMarker, k)
    decreases q - p
  {
    if OccursAt(s, EndMarker, q) then Some(q)
    else if q == p then None
    else LastEnd(s, p, q - 1)
  }

  /**
   * Where a match that starts at `p` ends: `.*` is greedy and does not cross a newline, so it
   * stops at the last end marker on the line.
   */
  function MatchEnd(s: string, p: nat): (r: Option<nat>)
    requires p <= |s|
    ensures r.Some? ==> AfterMarker(s, p)
  {
    if !AfterMarker(s, p) then None else LastEnd(s, p, LineEnd(s, p))
  }

  /**
   * A match that starts at `p` ends at the last end marker on its line; there is none exactly
   * when the line after the marker holds no end marker.
   */
  lemma MatchEndIsLastOnLine(s: string, p: nat)
    requires p <= |s| && AfterMarker(s, p)
    ensures var r := MatchEnd(s, p);
      && (r.Some? ==> p <= r.value <= LineEnd(s, p) && OccursAt(s, EndMarker, r.value))
      && (r.Some? ==> forall k :: r.value < k <= LineEnd(s, p) ==> !OccursAt(s, EndMarker, k))
      && (r.None? ==> forall k :: p <= k <= LineEnd(s, p) ==> !OccursAt(s, EndMarker, k))
  {
  }

  /** The leftmost match at or after `from`: its start and its end. */
  function FirstMatch(s: string, from: nat): (r: Option<(nat, nat)>)
    requires from <= |s|
    ensures r.Some? ==> from <= r.value.0 <= |s| && MatchEnd(s, r.value.0) == Some(r.value.1)
    decreases |s| - from
  {
    var m := MatchEnd(s, from);
    if m.Some? then Some((from, m.value))
    else if from == |s| then None
    else
      var r := FirstMatch(s, from + 1);
      r
  }

  /** The match found is the leftmost one, and there is none exactly when no index starts a match. */
  lemma {:induction false} FirstMatchIsLeftmost(s: string, from: nat)
    requires from <= |s|
    ensures var r := FirstMatch(s, from);
      && (r.Some? ==> forall k :: from <= k < r.value.0 ==> MatchEnd(s, k).None?)
      && (r.None? ==> forall k :: from <= k <= |s| ==> MatchEnd(s, k).None?)
    decreases |s| - from
  {
    var r := FirstMatch(s, from);
    if MatchEnd(s, from).None? {
      if from == |s| {
        assert r.None?;
        forall k | from <= k <= |s|
          ensures MatchEnd(s, k).None?
        {
          assert k == from;
        }
      } else {
        FirstMatchIsLeftmost(s, from + 1);
        assert r == FirstMatch(s, from + 1);
        LeftmostStep(s, from, r);
      }
    }
  }

  /** A leftmost-match fact from `from + 1` on extends to `from` when no match starts at `from`. */
  lemma LeftmostStep(s: string, from: nat, r: Option<(nat, nat)>)
    requires from < |s| && MatchEnd(s, from).None?
    requires r.Some? ==> from + 1 <= r.value.0 <= |s| && forall k :: from + 1 <= k < r.value.0 ==> MatchEnd(s, k).None?
    requires r.None? ==> forall k :: from + 1 <= k <= |s| ==> MatchEnd(s, k).None?
    ensures r.Some? ==> forall k :: from <= k < r.value.0 ==> MatchEnd(s, k).None?
    ensures r.None? ==> forall k :: from <= k <= |s| ==> MatchEnd(s, k).None?
  {
  }

  /** `pattern.findall(s)[0]` when there is a match. */
  function Capture(s: string): (r: Option<string>)
    ensures r.None? <==> forall p :: 0 <= p <= |s| ==> MatchEnd(s, p).None?
  {
    FirstMatchIsLeftmost(s, 0);
    match FirstMatch(s, 0)
    case None => None
    case Some((p, e)) => Some(s[p..e])
  }

  /** The first script with non-empty text in which the pattern matches decides; its capture is returned. */
  function ScanScripts(scripts: seq<Option<string>>): (r: Option<string>)
    ensures r.Some? ==> exists i :: 0 <= i < |scripts| && Truthy(scripts[i]) && Capture(scripts[i].value) == r
    ensures r.None? <==> forall i :: 0 <= i < |scripts| && Truthy(scripts[i]) ==> Capture(scripts[i].value).None?
  {
    if |scripts| == 0 then None
    else if Truthy(scripts[0]) && Capture(scripts[0].value).Some? then Capture(scripts[0].value)
    else
      var r := ScanScripts(scripts[1..]);
      assert forall i :: 1 <= i < |scripts| ==> scripts[i] == scripts[1..][i - 1];
      r
  }

  // ---------------------------------------------------------------------------------------------
  // Escaped newlines
  // ---------------------------------------------------------------------------------------------

  /** A backslash followed by `n` occurs in `s`. */
  predicate HasEscapedNewline(s: string) {
    exists i :: 0 <= i < |s| - 1 && s[i] == '\\' && s[i + 1] == 'n'
  }

  /** `s.replace("\\n", "\n")`: each backslash-n, scanned left to right, becomes a newline. */
  function UnescapeNewlines(s: string): (r: string)
    ensures |r| <= |s|
    ensures |r| > 0 ==> |s| > 0 && (r[0] == 'n' ==> s[0] == 'n')
  {
    if |s| == 0 then ""
    else if |s| >= 2 && s[0] == '\\' && s[1] == 'n' then "\n" + UnescapeNewlines(s[2..])
    else [s[0]] + UnescapeNewlines(s[1..])
  }

  /** How the page escapes a newline inside the JSON string: as a backslash and an `n`. */
  function EscapeNewlines(t: string): (r: string)
    ensures |r| >= |t|
    ensures forall k :: 0 <= k < |r| ==> r[k] != '\n'
    ensures |r| > 0 ==> |t| > 0 && (r[0] == 'n' <==> t[0] == 'n')
  {
    if |t| == 0 then ""
    else (if t[0] == '\n' then "\\n" else [t[0]]) + EscapeNewlines(t[1..])
  }

  /** After the replacement no backslash-n is left. */
  lemma {:induction false} UnescapeLeavesNoEscape(s: string)
    ensures !HasEscapedNewline(UnescapeNewlines(s))
  {
    if |s| > 0 {
      var r := UnescapeNewlines(s);
      if |s| >= 2 && s[0] == '\\' && s[1] == 'n' {
        var rest := UnescapeNewlines(s[2..]);
        UnescapeLeavesNoEscape(s[2..]);
        assert r == "\n" + rest;
        forall i | 0 <= i < |r| - 1
          ensures !(r[i] == '\\' && r[i + 1] == 'n')
        {
          if i > 0 {
            assert r[i] == rest[i - 1] && r[i + 1] == rest[i];
          }
        }
      } else {
        var rest := UnescapeNewlines(s[1..]);
        UnescapeLeavesNoEscape(s[1..]);
        assert r == [s[0]] + rest;
        forall i | 0 <= i < |r| - 1
          ensures !(r[i] == '\\' && r[i + 1] == 'n')
        {
          if i > 0 {
            assert r[i] == rest[i - 1] && r[i + 1] == rest[i];
          } else if s[0] == '\\' {
            // s[1] is not `n`, so the unescaped rest does not start with one.
            assert r[1] == rest[0];
          }
        }
      }
    }
  }

  /** Unescaping undoes the page's escaping for every description without a backslash-n of its own. */
  lemma {:induction false} UnescapeEscape(t: string)
    requires !HasEscapedNewline(t)
    ensures UnescapeNewlines(EscapeNewlines(t)) == t
  {
    if |t| > 0 {
      var e := EscapeNewlines(t);
      var rest := EscapeNewlines(t[1..]);
      assert !HasEscapedNewline(t[1..]) by {
        forall i | 0 <= i < |t[1..]| - 1
          ensures !(t[1..][i] == '\\' && t[1..][i + 1] == 'n')
        {
          assert t[1..][i] == t[i + 1] && t[1..][i + 1] == t[i + 2];
        }
      }
      UnescapeEscape(t[1..]);
      if t[0] == '\n' {
        assert e == "\\n" + rest;
        assert e[2..] == rest;
      } else {
        assert e == [t[0]] + rest;
        assert e[1..] == rest;
        if t[0] == '\\' && |rest| > 0 {
          assert |t| > 1 && t[1] != 'n';
          assert rest[0] != 'n';
        }
      }
    }
  }

  // ---------------------------------------------------------------------------------------------
  // The tool
  // ---------------------------------------------------------------------------------------------

  /** The request failed, something else raised, or the page was parsed into its scripts' texts. */
  datatype Page =
    | RequestFailed(reason: string)
    | Unexpected(reason: string)
    | Scripts(strings: seq<Option<string>>)

  /** The `(description, error)` pair the tool returns. */
  datatype DescriptionResult = DescriptionResult(description: Option<string>, error: Option<string>)

  const NotFound := "BeautifulSoup parser could not find the description pattern."

  /** `fetch_youtube_description_bs(url)`, with the fetched and parsed page as a parameter. */
  function FetchYouTubeDescriptionBs(page: Page): (r: DescriptionResult)
    ensures r.description.Some? != r.error.Some?
    ensures r.description.Some? ==> r.description.value != "" && !HasEscapedNewline(r.description.value)
    ensures page.Scripts? && r.error.Some? ==> r.error == Some(NotFound)
  {
    match page
    case RequestFailed(e) => DescriptionResult(None, Some("RequestException: " + e))
    case Unexpected(e) => DescriptionResult(None, Some("Unexpected error in BeautifulSoup method: " + e))
    case Scripts(strings) =>
      match ScanScripts(strings)
      case Some(c) =>
        if c != "" then
          UnescapeLeavesNoEscape(c);
          DescriptionResult(Some(UnescapeNewlines(c)), None)
        else DescriptionResult(None, Some(NotFound))
      case None => DescriptionResult(None, Some(NotFound))
  }

  // ---------------------------------------------------------------------------------------------
  // Properties
  // ---------------------------------------------------------------------------------------------

  /** Once a script matches, the scripts after it are never looked at. */
  lemma {:induction false} EarlierScriptDecides(scripts: seq<Option<string>>, later: seq<Option<string>>)
    requires ScanScripts(scripts).Some?
    ensures ScanScripts(scripts + later) == ScanScripts(scripts)
  {
    DropFirstOfAppend(scripts, later);
    if !(Truthy(scripts[0]) && Capture(scripts[0].value).Some?) {
      EarlierScriptDecides(scripts[1..], later);
    }
  }

  lemma DropFirstOfAppend<T>(a: seq<T>, b: seq<T>)
    requires |a| > 0
    ensures (a + b)[0] == a[0] && (a + b)[1..] == a[1..] + b
  {
  }

  /**
   * A match that captures nothing ends the search all the same, and the tool reports that it
   * found no description even when a later script holds one.
   */
  lemma EmptyCaptureStopsSearch(scripts: seq<Option<string>>, later: seq<Option<string>>)
    requires ScanScripts(scripts) == Some("")
    ensures FetchYouTubeDescriptionBs(Scripts(scripts + later)) == DescriptionResult(None, Some(NotFound))
  {
    EarlierScriptDecides(scripts, later);
  }

  lemma {:induction false} LineEndExact(s: string, p: nat, e: nat)
    requires p <= e <= |s|
    requires forall k :: p <= k < e ==> s[k] != '\n'
    requires e == |s| || s[e] == '\n'
    ensures LineEnd(s, p) == e
    decreases e - p
  {
    if p < e {
      LineEndExact(s, p + 1, e);
    }
  }

  lemma {:induction false} LastEndExact(s: string, p: nat, q: nat, e: nat)
    requires p <= q <= e
    requires OccursAt(s, EndMarker, q)
    requires forall k :: q < k <= e ==> !OccursAt(s, EndMarker, k)
    ensures LastEnd(s, p, e) == Some(q)
    decreases e - q
  {
    if q < e {
      LastEndExact(s, p, q, e - 1);
    }
  }

  /** The end marker cannot start again inside itself. */
  lemma EndMarkerAlone(s: string, q: nat)
    requires OccursAt(s, EndMarker, q)
    ensures forall k :: q < k < q + |EndMarker| ==> !OccursAt(s, EndMarker, k)
  {
    forall k | q < k < q + |EndMarker|
      ensures !OccursAt(s, EndMarker, k)
    {
      if k + |EndMarker| <= |s| {
        var j := k - q;
        if j == 2 {
          assert s[k..k + |EndMarker|][1] == s[q..q + |EndMarker|][3];
        } else {
          assert s[k..k + |EndMarker|][0] == s[q..q + |EndMarker|][j];
        }
      }
    }
  }

  /** No end marker starts at a line break or at the end of the text. */
  lemma NoEndMarkerAtLineEnd(s: string, e: nat)
    requires e == |s| || (e < |s| && s[e] == '\n')
    ensures !OccursAt(s, EndMarker, e)
  {
    if e < |s| && e + |EndMarker| <= |s| {
      assert s[e..e + |EndMarker|][0] == '\n';
    }
  }

  lemma {:induction false} FirstMatchAt(s: string, from: nat, p: nat)
    requires from <= p <= |s|
    requires forall k :: from <= k < p ==> MatchEnd(s, k).None?
    requires MatchEnd(s, p).Some?
    ensures FirstMatch(s, from) == Some((p, MatchEnd(s, p).value))
    decreases p - from
  {
    if from < p {
      FirstMatchAt(s, from + 1, p);
    }
  }

  /**
   * The capture of a text whose first marker at index `p` opens a line, ending at `e`, whose
   * last end marker is the one at `q`.
   */
  lemma CaptureOfLine(s: string, p: nat, q: nat, e: nat)
    requires p <= q && q + |EndMarker| <= e <= |s|
    requires forall k :: 0 <= k < p ==> !AfterMarker(s, k)
    requires AfterMarker(s, p)
    requires forall k :: p <= k < q + |EndMarker| ==> s[k] != '\n'
    requires forall k :: q + |EndMarker| <= k < e ==> s[k] != '\n'
    requires e == |s| || s[e] == '\n'
    requires OccursAt(s, EndMarker, q)
    requires forall k :: q + |EndMarker| <= k < e ==> !OccursAt(s, EndMarker, k)
    ensures Capture(s) == Some(s[p..q])
  {
    assert forall k :: p <= k < e ==> s[k] != '\n';
    LineEndExact(s, p, e);
    EndMarkerAlone(s, q);
    NoEndMarkerAtLineEnd(s, e);
    LastEndExact(s, p, q, e);
    FirstMatchAt(s, 0, p);
  }

  /**
   * A script laid out as marker, escaped description, end marker, and a rest whose first line
   * holds no further end marker captures the description.
   */
  lemma CaptureOfLayout(before: string, d: string, after: string)
    requires forall k :: 0 <= k < |before| ==> !OccursAt(before + Marker, Marker, k)
    requires forall k :: 0 <= k < |d| ==> d[k] != '\n'
    requires forall k :: 0 <= k < LineEnd(after, 0) ==> !OccursAt(after, EndMarker, k)
    ensures Capture(before + Marker + d + EndMarker + after) == Some(d)
  {
    var head := before + Marker;
    var s := head + d + EndMarker + after;
    var p := |head|;
    var q := p + |d|;
    assert s[p..q] == d by {
      LayoutPieces(head, d, after);
    }
    assert Capture(s) == Some(s[p..q]) by {
      LayoutPieces(head, d, after);
      NoEarlierMarker(before, s);
      LineOfLayout(s, p, d, after);
      RestOfLine(s, q + |EndMarker|, after);
      CaptureOfLine(s, p, q, q + |EndMarker| + LineEnd(after, 0));
    }
  }

  /** Where the pieces of a laid-out script sit. */
  lemma LayoutPieces(head: string, d: string, after: string)
    ensures var s := head + d + EndMarker + after;
      && |s| == |head| + |d| + |EndMarker| + |after|
      && s[..|head|] == head
      && s[|head|..|head| + |d|] == d
      && s[|head| + |d|..|head| + |d| + |EndMarker|] == EndMarker
      && s[|head| + |d| + |EndMarker|..] == after
  {
    var s := head + d + EndMarker + after;
    assert s == head + (d + (EndMarker + after));
  }

  /** The first marker of a script that starts with `before + Marker` is the one after `before`. */
  lemma NoEarlierMarker(before: string, s: string)
    requires forall k :: 0 <= k < |before| ==> !OccursAt(before + Marker, Marker, k)
    requires |before + Marker| <= |s| && s[..|before + Marker|] == before + Marker
    ensures forall k :: 0 <= k < |before + Marker| ==> !AfterMarker(s, k)
    ensures AfterMarker(s, |before + Marker|)
  {
    var head := before + Marker;
    forall k | 0 <= k < |head|
      ensures !AfterMarker(s, k)
    {
      if k >= |Marker| {
        assert forall i :: 0 <= i < |head| ==> s[i] == s[..|head|][i] == head[i];
        assert s[k - |Marker|..k] == head[k - |Marker|..k];
        assert !OccursAt(head, Marker, k - |Marker|);
      }
    }
    assert s[|before|..|head|] == s[..|head|][|before|..] == head[|before|..] == Marker;
  }

  /** The line that starts after the marker runs through the description and the end marker. */
  lemma LineOfLayout(s: string, p: nat, d: string, after: string)
    requires forall k :: 0 <= k < |d| ==> d[k] != '\n'
    requires |s| == p + |d| + |EndMarker| + |after|
    requires s[p..p + |d|] == d
    requires s[p + |d|..p + |d| + |EndMarker|] == EndMarker
    ensures forall k :: p <= k < p + |d| + |EndMarker| ==> s[k] != '\n'
    ensures OccursAt(s, EndMarker, p + |d|)
    ensures s[p..p + |d|] == d
  {
    var q := p + |d|;
    forall k | p <= k < q + |EndMarker|
      ensures s[k] != '\n'
    {
      if k < q {
        assert s[k] == s[p..q][k - p] == d[k - p];
      } else {
        assert s[k] == s[q..q + |EndMarker|][k - q] == EndMarker[k - q];
      }
    }
  }

  /**
   * The rest of a text, from index `m` on, whose first line holds no end marker: that line ends
   * at `m + LineEnd(after, 0)` and no end marker starts in it.
   */
  lemma RestOfLine(s: string, m: nat, after: string)
    requires m <= |s| && s[m..] == after
    requires forall k :: 0 <= k < LineEnd(after, 0) ==> !OccursAt(after, EndMarker, k)
    ensures var e := m + LineEnd(after, 0);
      && e <= |s|
      && (forall k :: m <= k < e ==> s[k] != '\n')
      && (forall k :: m <= k < e ==> !OccursAt(s, EndMarker, k))
      && (e == |s| || s[e] == '\n')
  {
    var e := m + LineEnd(after, 0);
    forall k | m <= k < e
      ensures s[k] != '\n' && !OccursAt(s, EndMarker, k)
    {
      assert s[k] == after[k - m];
      assert !OccursAt(after, EndMarker, k - m);
      if k + |EndMarker| <= |s| {
        assert s[k..k + |EndMarker|] == after[k - m..k - m + |EndMarker|];
      }
    }
    if e < |s| {
      assert s[e] == after[e - m];
    }
  }

  /**
   * The tool reads back the description the page carries: for a script in which the first
   * marker opens the escaped description and no further end marker follows on the end marker's
   * line (the player data goes on with `":true,"thumbnail":` and the like), the result is the
   * description itself, whatever it contains, an end marker included.
   */
  lemma DescriptionRoundTrip(before: string, t: string, after: string)
    requires forall k :: 0 <= k < |before| ==> !OccursAt(before + Marker, Marker, k)
    requires t != "" && !HasEscapedNewline(t)
    requires forall k :: 0 <= k < LineEnd(after, 0) ==> !OccursAt(after, EndMarker, k)
    ensures FetchYouTubeDescriptionBs(Scripts([Some(before + Marker + EscapeNewlines(t) + EndMarker + after)]))
         == DescriptionResult(Some(t), None)
  {
    var d := EscapeNewlines(t);
    var s := before + Marker + d + EndMarker + after;
    CaptureOfLayout(before, d, after);
    assert [Some(s)][1..] == [];
    assert ScanScripts([Some(s)]) == Some(d);
    UnescapeEscape(t);
  }
}
